=== FILE: README.md ===
# Event app client core, modelled in Dafny

This project models the client-side logic of an Android event-ticketing app. It covers:

- the repositories that turn each HTTP outcome into a three-state `Resource` (loading, success with a possibly null payload, error with a possibly null message);
- the ticket counter of the event page and the booking it submits;
- the booking list rows and the payment screen's status rules;
- the sign-up, sign-in and profile forms, with their error routing;
- the session store kept in shared preferences;
- the home list's capacity filter, category filter and search.

Every operation is a pure function from the state before it to the state after it. The answer of the network call it makes is a parameter.

Modules, one per source file or shared concept:

| module | file | models |
|---|---|---|
| `Outcomes` | outcomes.dfy | nullable values, `Resource`, the `{success, message, errorCode, data}` envelope, parsed error bodies, call outcomes |
| `Text` | text.dfy | `trim`, `isBlank`, ASCII case folding, `equals`/`contains` ignoring case, first-match keyword routing, decimal rendering |
| `EventTypes`, `EventCategories` | event_types.dfy, event_categories.dfy | the two enums and their case-insensitive lookups |
| `Domain` | domain.dfy | the records exchanged with the backend |
| `EventRepository`, `BookingRepository`, `UserRepository`, `AuthRepository` | the `*_repository.dfy` files | the four repositories |
| `TicketSelection` | ticket_selection.dfy | `TicketAdapter` |
| `EventDetailScreen` | event_detail_screen.dfy | `EventDetailViewModel` and `EventDetailActivity` |
| `BookingList` | booking_list.dfy | `BookingAdapter` |
| `BookingConfirmation` | booking_confirmation.dfy | `BookingConfirmationActivity` |
| `FormChecks`, `RegisterForm`, `LoginForm` | form_checks.dfy, register_form.dfy, login_form.dfy | the shared checks, `RegisterActivity` and `LoginActivity` |
| `ProfileScreen` | profile_screen.dfy | `ProfileFragment` |
| `Session` | session.dfy | `SessionManager` |
| `EventList` | event_list.dfy | `EventViewModel` |

## Representation choices

- **Money.** Amounts are integers in minor units, and identifiers are integers. The source keeps prices in `Double` and totals in `Double`/`BigDecimal`.
- **Call outcomes.** `Call` is the outcome of a call declared as `Response<T>`: a 2xx with its body, a non-2xx with its error body, an `IOException`, or any other exception. The booking calls use it. `Fetch` is the outcome of a call that returns the envelope directly: the decoded envelope, an `HttpException`, an `IOException`, or any other exception. The event, user and auth calls use it.
- **Parsed bodies.** A parsed JSON error body is abstracted as empty, an object with string fields, or unparsable.
- **Strings.** Strings are sequences of characters. Case folding covers ASCII letters only. `isBlank`/`trim` follow Kotlin's whitespace set.
- **Password patterns.** `.*[A-Za-z].*` and `.*[0-9].*` are used with `matches`. They are modelled exactly: they need a letter (a digit) and no line terminator anywhere, because `.` does not match line terminators.
- **E-mail pattern.** Android's `Patterns.EMAIL_ADDRESS` is a function parameter `matchesEmail`.
- **Preferences.** The preferences file is a map from a `Key` datatype to typed values. The key spellings are proved distinct by `Session.SpellingsDistinct`.
- **Event category.** `Event.category` is an `EventCategory`, because `EventViewModel.kt:125-127` compares it with the enum. `Event.kt` declares it a `String`.
- **Login result.** The login result is `Resource<string>`, because `LoginActivity.kt:147-151` reads `data` as the token. `AuthViewModel.kt:18-19` and `AuthRepository.kt:67` declare it `Resource<Unit>`. Under either reading the repository hands over `null` (see Findings).
- **Login call.** `ApiService.kt:30-33` declares `login` as `Response<BaseResponse<Any>>`. Under that declaration a non-2xx answer would not throw `HttpException`, and `response.success` (`AuthRepository.kt:72`) is not a member of `Response`. The model follows `AuthRepository.kt:67-109` as written: it reads the answer as the envelope itself, with a non-2xx answer arriving as `HttpException`, so `login` uses `Fetch` like the other auth call.

Facts about the code that shape the model:

- **Failures as strings.** Every repository reports a failure as a message string (`Resource.Error(message)`), not as a closed set of error kinds, so `Resource.Error` carries an optional string.
- **Keyword rules.** The payment keyword rules ("already paid", "cancelled", …) live in `BookingConfirmationActivity.kt:176-205`, not in `BookingRepository`, so they are modelled in `BookingConfirmation`.
- **Cancelling.** `BookingRepository.cancelBooking` sends the request whatever the booking's status. Only the list's buttons (`BookingAdapter.kt`) hide the action for PAID/CANCELLED bookings.
- **Empty booking list.** `BookingRepository.getMyBookings` turns any 2xx answer that does not carry data into an empty success, even when the envelope says `success: false`.
- **Book Now refusal.** `EventDetailActivity.kt:219-227` refuses Book Now when no selection is positive, not when the total is zero. The two agree when quantities are never negative (`EventDetailScreen.HandleBookNow`).

## Model

All paths are relative to `app/src/main/java/com/thefarhany/eventapp/`, and written out in full below.

| member | source | states |
|---|---|---|
| Outcomes.Unwrap | app/src/main/java/com/thefarhany/eventapp/data/repository/EventRepository.kt:27-33 | an envelope becomes a success exactly when it says success and carries data, handing over that data; otherwise an error with the envelope's own (possibly null) message |
| Outcomes.FieldOf | app/src/main/java/com/thefarhany/eventapp/data/repository/BookingRepository.kt:183-192 | a field is found exactly when the body parsed as an object that has the key, and then it is that key's value |
| Text.Trim | app/src/main/java/com/thefarhany/eventapp/ui/auth/register/RegisterActivity.kt:172-176 | the result has no whitespace at either end and is a contiguous piece of the input with only whitespace removed around it |
| Text.TrimFixesTrimmed | app/src/main/java/com/thefarhany/eventapp/ui/auth/register/RegisterActivity.kt:172-176 | trimming leaves a string unchanged exactly when neither of its ends is whitespace |
| Text.TrimIdempotent | app/src/main/java/com/thefarhany/eventapp/ui/auth/register/RegisterActivity.kt:191-195 | trimming twice is trimming once, so re-trimming the validated fields changes nothing |
| Text.TrimEmptyIffBlank | app/src/main/java/com/thefarhany/eventapp/ui/home/EventViewModel.kt:144-152 | a string trims to the empty string exactly when it is blank |
| Text.Lower | app/src/main/java/com/thefarhany/eventapp/ui/auth/register/RegisterActivity.kt:200 | lower-casing keeps the length and lower-cases every position |
| Text.Upper | app/src/main/java/com/thefarhany/eventapp/ui/home/EventViewModel.kt:75 | upper-casing keeps the length and upper-cases every position |
| Text.EqualsIgnoreCase | app/src/main/java/com/thefarhany/eventapp/data/model/response/EventCategories.kt:36 | equal ignoring case means equal length and position-wise equal after case folding |
| Text.UpperMatchesConstantName | app/src/main/java/com/thefarhany/eventapp/ui/home/EventViewModel.kt:118-123 | for a constant name, being equal to the upper-cased input is the same as being equal to the input ignoring case |
| Text.ContainsIgnoresCase | app/src/main/java/com/thefarhany/eventapp/ui/auth/register/RegisterActivity.kt:247-274 | whether a message contains a keyword ignoring case does not depend on the message's letter case |
| Text.RemoveSpaces | app/src/main/java/com/thefarhany/eventapp/ui/auth/register/RegisterActivity.kt:200 | the result contains no space and is no longer than the input |
| Text.RemoveSpacesAppend | app/src/main/java/com/thefarhany/eventapp/ui/auth/register/RegisterActivity.kt:200 | removing spaces from a concatenation removes them from each part |
| Text.RemoveSpacesNoSpace | app/src/main/java/com/thefarhany/eventapp/ui/auth/register/RegisterActivity.kt:200 | a string without spaces is unchanged |
| Text.IndexOf | app/src/main/java/com/thefarhany/eventapp/ui/auth/register/RegisterActivity.kt:197-199 | the position found holds the character and no earlier one does; none is found exactly when the character is absent |
| Text.Decimal | app/src/main/java/com/thefarhany/eventapp/ui/tickets/BookingAdapter.kt:51-52 | a number is written as a non-empty digit string without a leading zero |
| Text.DecimalValue | app/src/main/java/com/thefarhany/eventapp/ui/tickets/BookingAdapter.kt:51-52 | reading back the written digits gives the number again |
| Text.Route | app/src/main/java/com/thefarhany/eventapp/ui/tickets/BookingConfirmationActivity.kt:176-205 | a `when` over keyword rules yields nothing exactly when no rule fires, and otherwise the outcome of a rule that fires |
| Text.SignedDecimal | app/src/main/java/com/thefarhany/eventapp/ui/tickets/BookingAdapter.kt:51-52 | any integer is written with a minus sign exactly when negative, followed by digits that read back as its magnitude |
| Text.Int32 | app/src/main/java/com/thefarhany/eventapp/ui/tickets/BookingAdapter.kt:51 | a Kotlin `Int` result lies in [-2^31, 2^31), is congruent to the exact value modulo 2^32, and equals it when the exact value fits |
| Text.FirstMatchDecides | app/src/main/java/com/thefarhany/eventapp/ui/tickets/BookingConfirmationActivity.kt:176-205 | for every rule, if it fires and no earlier rule does, its outcome is the result |
| Text.RouteFirstMatch | app/src/main/java/com/thefarhany/eventapp/ui/tickets/BookingConfirmationActivity.kt:176-205 | when rule k fires and no earlier rule does, the outcome is rule k's |
| FormChecks.LineBreakFailsPatterns | app/src/main/java/com/thefarhany/eventapp/ui/auth/register/RegisterActivity.kt:130-132 | a password containing a line break matches neither the letter nor the digit pattern |
| EventTypes.FromString | app/src/main/java/com/thefarhany/eventapp/data/model/response/EventType.kt:13-17 | a type found has a name equal to the input ignoring case |
| EventTypes.FromStringExact | app/src/main/java/com/thefarhany/eventapp/data/model/response/EventType.kt:13-17 | the lookup gives a type exactly when its name equals the input ignoring case |
| EventTypes.FromStringName | app/src/main/java/com/thefarhany/eventapp/data/model/response/EventType.kt:13-17 | every type is found again from its own name |
| EventTypes.FromStringLowerCase | app/src/main/java/com/thefarhany/eventapp/data/model/response/EventType.kt:13-17 | every type is found from its name in lower case |
| EventTypes.FromStringNone | app/src/main/java/com/thefarhany/eventapp/data/model/response/EventType.kt:13-17 | the lookup gives null exactly when no name matches ignoring case |
| EventCategories.FindFrom | app/src/main/java/com/thefarhany/eventapp/data/model/response/EventCategories.kt:35-37 | the search from a position finds a matching name, or null exactly when none of the remaining names matches |
| EventCategories.FromString | app/src/main/java/com/thefarhany/eventapp/data/model/response/EventCategories.kt:34-38 | a category found has a name equal to the input ignoring case |
| EventCategories.ValueOf | app/src/main/java/com/thefarhany/eventapp/ui/home/EventViewModel.kt:118-123 | `valueOf` gives the category with exactly that name, or nothing when no category has it |
| EventCategories.Ordinal | app/src/main/java/com/thefarhany/eventapp/data/model/response/EventCategories.kt:5-31 | the ordinal is the category's position in `values()` |
| EventCategories.ValuesComplete | app/src/main/java/com/thefarhany/eventapp/data/model/response/EventCategories.kt:5-31 | `values()` lists all nine categories, each once |
| EventCategories.NamesDistinctIgnoringCase | app/src/main/java/com/thefarhany/eventapp/data/model/response/EventCategories.kt:5-31 | no two categories' names differ only in letter case |
| EventCategories.FromStringExact | app/src/main/java/com/thefarhany/eventapp/data/model/response/EventCategories.kt:34-38 | the lookup gives a category exactly when its name equals the input ignoring case |
| EventCategories.FromStringName | app/src/main/java/com/thefarhany/eventapp/data/model/response/EventCategories.kt:34-38 | every category is found again from its name |
| EventCategories.FromStringIgnoresCase | app/src/main/java/com/thefarhany/eventapp/data/model/response/EventCategories.kt:34-38 | inputs equal ignoring case find the same category |
| EventCategories.ValueOfUpperIsFromString | app/src/main/java/com/thefarhany/eventapp/ui/home/EventViewModel.kt:118-123 | `valueOf` on the upper-cased input agrees with the case-insensitive `fromString` for every input |
| EventCategories.FromStringArtsLabel | app/src/main/java/com/thefarhany/eventapp/data/model/response/EventCategories.kt:27-38 | the display label "Arts & Theatre" finds no category: only constant names are accepted |
| EventCategories.FromStringLowerCase | app/src/main/java/com/thefarhany/eventapp/data/model/response/EventCategories.kt:34-38 | every category is found from its name in lower case |
| Domain.TicketCountAppend | app/src/main/java/com/thefarhany/eventapp/ui/tickets/BookingAdapter.kt:51 | the ticket count of concatenated item lists is the sum of their counts |
| EventRepository.GetAllEvents | app/src/main/java/com/thefarhany/eventapp/data/repository/EventRepository.kt:22-51 | HTTP 404 and 500 get their own texts and other codes a generic one; an I/O failure gives the connection text; any other exception gives its message or a default |
| EventRepository.GetEventsByCategory | app/src/main/java/com/thefarhany/eventapp/data/repository/EventRepository.kt:56-84 | 404 reads "No events found in this category", other codes a generic text; transport and other failures as written |
| EventRepository.GetEventDetail | app/src/main/java/com/thefarhany/eventapp/data/repository/EventRepository.kt:89-117 | an envelope without data reads "Event not found" whatever its message; 404 likewise; other failures as written |
| EventRepository.SearchEvents | app/src/main/java/com/thefarhany/eventapp/data/repository/EventRepository.kt:122-152 | a blank keyword is refused with "Search keyword cannot be empty" before any call; otherwise failures map as written |
| EventRepository.SuccessIffCarried | app/src/main/java/com/thefarhany/eventapp/data/repository/EventRepository.kt:27-33 | every event operation succeeds exactly when the envelope says success and carries data (search also needs a non-blank keyword), and hands over that data |
| EventRepository.BlankSearchIndependentOfCall | app/src/main/java/com/thefarhany/eventapp/data/repository/EventRepository.kt:125-127 | a blank search gives the same answer whatever the server would have said |
| BookingRepository.ParseErrorMessage | app/src/main/java/com/thefarhany/eventapp/data/repository/BookingRepository.kt:177-200 | the body's "message" field wins, then its "error" field, then "An error occurred" |
| BookingRepository.ParseErrorMessageFallback | app/src/main/java/com/thefarhany/eventapp/data/repository/BookingRepository.kt:178-199 | absent, empty and unparsable bodies, and objects with neither key, all give the generic text: parsing never fails |
| BookingRepository.UnwrapResponse | app/src/main/java/com/thefarhany/eventapp/data/repository/BookingRepository.kt:22-28 | a 2xx answer succeeds exactly when its body says success and carries data; otherwise an error that always has a message |
| BookingRepository.CreateBooking | app/src/main/java/com/thefarhany/eventapp/data/repository/BookingRepository.kt:17-43 | a non-2xx answer reports the parsed error body's message |
| BookingRepository.GetMyBookings | app/src/main/java/com/thefarhany/eventapp/data/repository/BookingRepository.kt:48-71 | every 2xx answer is a success, an empty list when no data was delivered; any non-2xx is "Failed to load bookings" |
| BookingRepository.GetBookingDetail | app/src/main/java/com/thefarhany/eventapp/data/repository/BookingRepository.kt:76-103 | non-2xx 404 and 403 get their own texts, other codes a generic one |
| BookingRepository.PayBooking | app/src/main/java/com/thefarhany/eventapp/data/repository/BookingRepository.kt:108-140 | a 400 answer reports the parsed error body's message; 404, 403 and other codes have fixed texts |
| BookingRepository.CancelBooking | app/src/main/java/com/thefarhany/eventapp/data/repository/BookingRepository.kt:145-172 | non-2xx 404 and 400 get their own texts, other codes a generic one; no status check is made |
| BookingRepository.SuccessIffDelivered | app/src/main/java/com/thefarhany/eventapp/data/repository/BookingRepository.kt:22-28 | create, detail, pay and cancel succeed exactly on a 2xx answer that delivers data, and hand over that data |
| BookingRepository.ErrorsCarryMessages | app/src/main/java/com/thefarhany/eventapp/data/repository/BookingRepository.kt:37-41 | every failure of every booking operation carries a message; transport and other exceptions give the same fixed texts everywhere |
| BookingRepository.EnvelopeMessageWins | app/src/main/java/com/thefarhany/eventapp/data/repository/BookingRepository.kt:27 | a 2xx envelope that does not deliver reports its own message when it has one |
| UserRepository.GetMyProfile | app/src/main/java/com/thefarhany/eventapp/data/repository/UserRepository.kt:23-45 | HTTP 401 reads "Unauthorized. Please login again.", other codes their own texts; transport and other failures as written |
| UserRepository.UpdateProfile | app/src/main/java/com/thefarhany/eventapp/data/repository/UserRepository.kt:50-77 | HTTP 401 reads as unauthorized, other codes generic; transport and other failures as written |
| UserRepository.PatchProfile | app/src/main/java/com/thefarhany/eventapp/data/repository/UserRepository.kt:82-104 | every HTTP failure reads "Failed to update profile" |
| UserRepository.SameEnvelopeHandling | app/src/main/java/com/thefarhany/eventapp/data/repository/UserRepository.kt:26-31 | the three profile calls treat a decoded envelope identically: success exactly when it carries data, else its own message |
| UserRepository.UnauthorizedOnlyFor401 | app/src/main/java/com/thefarhany/eventapp/data/repository/UserRepository.kt:32-38 | an HTTP failure reads as unauthorized exactly for code 401, and never for the patch call |
| AuthRepository.ParseRegisterError | app/src/main/java/com/thefarhany/eventapp/data/repository/AuthRepository.kt:123-131 | codes "02" to "05" have fixed texts; any other code gives the server's message, or "Registration failed" |
| AuthRepository.ParseLoginError | app/src/main/java/com/thefarhany/eventapp/data/repository/AuthRepository.kt:133-140 | codes "01" to "03" have fixed texts; any other code gives the server's message, or "Login failed" |
| AuthRepository.CodeTwoDiffers | app/src/main/java/com/thefarhany/eventapp/data/repository/AuthRepository.kt:123-140 | code "02" means different things to sign-up and sign-in |
| AuthRepository.FixedCodesIgnoreMessage | app/src/main/java/com/thefarhany/eventapp/data/repository/AuthRepository.kt:123-131 | for a fixed code the text does not depend on the server's message |
| AuthRepository.ErrorBodyText | app/src/main/java/com/thefarhany/eventapp/data/repository/AuthRepository.kt:36-55 | an empty or unparsable error body gives the default; an object gives the parser's text for its "errorCode" and "message" fields |
| AuthRepository.Register | app/src/main/java/com/thefarhany/eventapp/data/repository/AuthRepository.kt:22-64 | success exactly when the envelope says success, handing over its data as is; failures are translated through the register error codes |
| AuthRepository.Login | app/src/main/java/com/thefarhany/eventapp/data/repository/AuthRepository.kt:67-109 | success exactly when the envelope says success, and a success never carries data; failures are translated through the login error codes |
| AuthRepository.HttpBodyReadsLikeEnvelope | app/src/main/java/com/thefarhany/eventapp/data/repository/AuthRepository.kt:36-55 | an HTTP error whose body has the envelope's fields reads exactly like a 2xx failure envelope with them |
| TicketSelection.SubmitList | app/src/main/java/com/thefarhany/eventapp/ui/event/TicketAdapter.kt:25-28 | one selection per ticket, in order, each at zero |
| TicketSelection.SelectedTickets | app/src/main/java/com/thefarhany/eventapp/ui/event/TicketAdapter.kt:48-57 | no more orders than selections, and every order has a positive quantity |
| TicketSelection.Plus | app/src/main/java/com/thefarhany/eventapp/ui/event/TicketAdapter.kt:92-109 | a no-op at ten tickets overall or at the ticket's availability; only the clicked row can change |
| TicketSelection.Minus | app/src/main/java/com/thefarhany/eventapp/ui/event/TicketAdapter.kt:83-89 | a no-op at zero; only the clicked row can change |
| TicketSelection.TotalUpdate | app/src/main/java/com/thefarhany/eventapp/ui/event/TicketAdapter.kt:43-45 | changing one row's quantity moves the total by the same amount |
| TicketSelection.PlusEffect | app/src/main/java/com/thefarhany/eventapp/ui/event/TicketAdapter.kt:92-109 | a plus click changes the list exactly when the click-time check passes (fewer than ten selected overall and the row below its availability), and then adds one to that row and to the total |
| TicketSelection.MinusEffect | app/src/main/java/com/thefarhany/eventapp/ui/event/TicketAdapter.kt:83-89 | a minus click changes the list exactly when the minus button is enabled, and then takes one from that row and from the total |
| TicketSelection.SubmitListValid | app/src/main/java/com/thefarhany/eventapp/ui/event/TicketAdapter.kt:25-28 | a fresh list satisfies the selection invariant and selects nothing |
| TicketSelection.PlusValid | app/src/main/java/com/thefarhany/eventapp/ui/event/TicketAdapter.kt:92-109 | a plus click keeps every quantity within zero and availability, and the total at most ten |
| TicketSelection.MinusValid | app/src/main/java/com/thefarhany/eventapp/ui/event/TicketAdapter.kt:83-89 | a minus click keeps the selection invariant |
| TicketSelection.RunValid | app/src/main/java/com/thefarhany/eventapp/ui/event/TicketAdapter.kt:83-109 | any sequence of clicks keeps the selection invariant |
| TicketSelection.SelectionBounds | app/src/main/java/com/thefarhany/eventapp/ui/event/TicketAdapter.kt:23-109 | after any clicks on a fresh list, every row still shows its ticket, holds between zero and the ticket's availability, and at most ten are selected |
| TicketSelection.RunKeepsTickets | app/src/main/java/com/thefarhany/eventapp/ui/event/TicketAdapter.kt:83-109 | clicks never change which ticket a row shows |
| TicketSelection.SelectedTicketsAppend | app/src/main/java/com/thefarhany/eventapp/ui/event/TicketAdapter.kt:48-57 | the orders of a concatenation are the orders of each part, in order |
| TicketSelection.SelectedTicketsMembers | app/src/main/java/com/thefarhany/eventapp/ui/event/TicketAdapter.kt:48-57 | an order appears exactly for a selection with positive quantity, carrying its ticket's id and quantity |
| TicketSelection.SelectedTicketsTotal | app/src/main/java/com/thefarhany/eventapp/ui/event/TicketAdapter.kt:43-57 | with no negative quantity, the ordered quantities add up to the selected total |
| TicketSelection.SelectedTicketsEmpty | app/src/main/java/com/thefarhany/eventapp/ui/event/TicketAdapter.kt:48-57 | there is no order exactly when no quantity is positive |
| EventDetailScreen.UpdateTicketSelections | app/src/main/java/com/thefarhany/eventapp/ui/event/EventDetailViewModel.kt:36-46 | the selection list is kept as given; an empty list totals zero tickets and zero price |
| EventDetailScreen.TotalPriceUpdate | app/src/main/java/com/thefarhany/eventapp/ui/event/EventDetailViewModel.kt:44-45 | changing one selection's quantity moves the price by that ticket's price times the change |
| EventDetailScreen.SubmitListCostsNothing | app/src/main/java/com/thefarhany/eventapp/ui/event/EventDetailViewModel.kt:21-24 | the freshly displayed tickets cost nothing, matching the initial totals |
| EventDetailScreen.Click | app/src/main/java/com/thefarhany/eventapp/ui/event/EventDetailActivity.kt:75-78 | the view model hears of a click only when a row actually changed, and then receives the adapter's current rows |
| EventDetailScreen.ClickAllInSync | app/src/main/java/com/thefarhany/eventapp/ui/event/EventDetailActivity.kt:75-78 | after any clicks on freshly displayed tickets, the view model's totals are those of the adapter's rows |
| EventDetailScreen.StaysInSync | app/src/main/java/com/thefarhany/eventapp/ui/event/EventDetailActivity.kt:75-78 | once in step with the adapter, the view model stays in step under any clicks |
| EventDetailScreen.Redisplay | app/src/main/java/com/thefarhany/eventapp/ui/event/EventDetailActivity.kt:198 | showing the event again zeroes every row while the view model keeps the totals it had |
| EventDetailScreen.RedisplayDesyncs | app/src/main/java/com/thefarhany/eventapp/ui/event/TicketAdapter.kt:25-28 | as written, after the event is shown again with an earlier selection, the rows select nothing while Book Now confirms the earlier orders, and the view model is out of step |
| EventDetailScreen.RedisplayFixed | app/src/main/java/com/thefarhany/eventapp/ui/event/TicketAdapter.kt:25-28 | the corrected re-display shows the same fresh rows and hands them to the view model |
| EventDetailScreen.RedisplayFixedInSync | app/src/main/java/com/thefarhany/eventapp/ui/event/EventDetailViewModel.kt:36-46 | with the correction, whatever came before, the view model stays in step under any later clicks and Book Now refuses until a ticket is picked |
| EventDetailScreen.ClickAllRows | app/src/main/java/com/thefarhany/eventapp/ui/event/EventDetailActivity.kt:75-78 | the screen's rows after clicks are the adapter's rows after the same clicks |
| EventDetailScreen.RowsFollowRun | app/src/main/java/com/thefarhany/eventapp/ui/event/EventDetailActivity.kt:75-78 | from any screen, the rows follow the adapter's click semantics |
| EventDetailScreen.PositivePart | app/src/main/java/com/thefarhany/eventapp/ui/event/EventDetailActivity.kt:219-230 | with no negative quantity, one positive selection makes the total at least that quantity |
| EventDetailScreen.NonNegativeTotal | app/src/main/java/com/thefarhany/eventapp/ui/event/EventDetailActivity.kt:229 | with no negative quantity the total is not negative |
| EventDetailScreen.BookNowButtonFor | app/src/main/java/com/thefarhany/eventapp/ui/event/EventDetailActivity.kt:105-112 | the button is enabled exactly for a positive total, and then names the count in decimal |
| EventDetailScreen.RefusalMessage | app/src/main/java/com/thefarhany/eventapp/ui/event/EventDetailActivity.kt:223-237 | a toast is shown exactly when booking is refused |
| EventDetailScreen.HandleBookNow | app/src/main/java/com/thefarhany/eventapp/ui/event/EventDetailActivity.kt:218-249 | refuse exactly when no selection is positive, then exactly when more than ten are counted; otherwise the dialog's orders are the positive selections' orders, in selection order, with the counted total |
| EventDetailScreen.ConfirmedOrders | app/src/main/java/com/thefarhany/eventapp/ui/event/EventDetailActivity.kt:239-248 | confirmed orders are exactly the positive selections with their ticket ids and quantities |
| EventDetailScreen.ConfirmBooking | app/src/main/java/com/thefarhany/eventapp/ui/event/EventDetailActivity.kt:266-270 | a request is sent exactly from the confirmation dialog, for this event and the confirmed orders |
| EventDetailScreen.RequestWithinCap | app/src/main/java/com/thefarhany/eventapp/ui/event/EventDetailActivity.kt:218-270 | a request built after any clicks orders between one and ten tickets, and every order names one of the event's tickets and asks for at most its availability |
| EventDetailScreen.Warning | app/src/main/java/com/thefarhany/eventapp/ui/event/EventDetailActivity.kt:202-215 | never shown for zero capacity; otherwise shown exactly when seats remain and they are at most a tenth of the capacity, naming the count |
| EventDetailScreen.WarningMatchesPercentage | app/src/main/java/com/thefarhany/eventapp/ui/event/EventDetailActivity.kt:208-209 | the integer test agrees with the percentage test for every capacity |
| EventDetailScreen.OnCreateBooking | app/src/main/java/com/thefarhany/eventapp/ui/event/EventDetailActivity.kt:120-146 | success navigates to the bookings tab; an error shows its message, or a default, in a dialog |
| BookingList.StatusBadge | app/src/main/java/com/thefarhany/eventapp/ui/tickets/BookingAdapter.kt:74-85 | the badge shows the raw status; the paid and cancelled backgrounds are used exactly for those statuses |
| BookingList.SetupButtons | app/src/main/java/com/thefarhany/eventapp/ui/tickets/BookingAdapter.kt:87-108 | PENDING shows both buttons wired to this booking; PAID and CANCELLED hide them; any other status leaves the recycled row as it was |
| BookingList.ActionsOnlyForPending | app/src/main/java/com/thefarhany/eventapp/ui/tickets/BookingAdapter.kt:87-108 | for the three known statuses, pay and cancel are offered exactly for a pending booking |
| BookingList.TicketsLabel | app/src/main/java/com/thefarhany/eventapp/ui/tickets/BookingAdapter.kt:51-52 | the row shows " ticket(s)" after a numeral that writes the item quantities' sum as a 32-bit `Int` (sign included), which is the plain decimal sum whenever that sum is in range and not negative |
| BookingList.TicketCountCountsEveryItem | app/src/main/java/com/thefarhany/eventapp/ui/tickets/BookingAdapter.kt:51 | with no negative quantity, the count is at least every item's quantity |
| BookingList.NonNegativeCount | app/src/main/java/com/thefarhany/eventapp/ui/tickets/BookingAdapter.kt:51 | with no negative quantity the count is not negative |
| BookingList.DiffConsistent | app/src/main/java/com/thefarhany/eventapp/ui/tickets/BookingAdapter.kt:122-130 | equal contents imply the same item, and a status change of the same booking is a content change |
| BookingConfirmation.ValidateBeforePayment | app/src/main/java/com/thefarhany/eventapp/ui/tickets/BookingConfirmationActivity.kt:139-173 | payment proceeds exactly for a loaded PENDING booking whose ticket count, summed as a 32-bit `Int`, is one to ten; otherwise the first failed check's dialog, the too-many dialog naming that count |
| BookingConfirmation.ValidateCountsExactlyInRange | app/src/main/java/com/thefarhany/eventapp/ui/tickets/BookingConfirmationActivity.kt:152-171 | while the exact ticket count fits in an `Int`, payment proceeds exactly for a PENDING booking of one to ten tickets |
| BookingConfirmation.WrappedCountProceeds | app/src/main/java/com/thefarhany/eventapp/ui/tickets/BookingConfirmationActivity.kt:152-171 | a PENDING booking of 2^31-1, 2^31-1 and 3 tickets holds more than ten tickets yet passes the check, because the sum wraps to one |
| BookingConfirmation.NoPaymentOutsidePending | app/src/main/java/com/thefarhany/eventapp/ui/tickets/BookingConfirmationActivity.kt:143-150 | a paid or cancelled booking is never sent for payment, whatever its items |
| BookingConfirmation.PaymentErrorMessage | app/src/main/java/com/thefarhany/eventapp/ui/tickets/BookingConfirmationActivity.kt:176-205 | a null message gets the default; a message gets the text of the first rule that fires on it (any rule that fires with none before it decides); a message no rule fires on is shown as is |
| BookingConfirmation.AlreadyPaidFirst | app/src/main/java/com/thefarhany/eventapp/ui/tickets/BookingConfirmationActivity.kt:181-182 | a message mentioning "already paid", in any case, gets that text whatever else it mentions |
| BookingConfirmation.StockMeansQuota | app/src/main/java/com/thefarhany/eventapp/ui/tickets/BookingConfirmationActivity.kt:184-198 | a message mentioning "stock" and none of the earlier keywords gets the quota text |
| BookingConfirmation.UnmatchedShownAsIs | app/src/main/java/com/thefarhany/eventapp/ui/tickets/BookingConfirmationActivity.kt:204 | a message mentioning no keyword is shown unchanged |
| BookingConfirmation.DisplayStatus | app/src/main/java/com/thefarhany/eventapp/ui/tickets/BookingConfirmationActivity.kt:221-272 | for the three known statuses pay is offered exactly when PENDING; the QR card appears only for PAID with a code; other statuses leave the screen alone |
| BookingConfirmation.QrOnlyWhenPaid | app/src/main/java/com/thefarhany/eventapp/ui/tickets/BookingConfirmationActivity.kt:242-258 | from a hidden QR card, the card is shown exactly for a PAID booking with a non-empty code |
| BookingConfirmation.OnBookingDetail | app/src/main/java/com/thefarhany/eventapp/ui/tickets/BookingConfirmationActivity.kt:70-92 | a delivered booking becomes current and is displayed; an error shows a closing dialog and keeps the screen; loading or null data changes nothing |
| BookingConfirmation.OnPayResult | app/src/main/java/com/thefarhany/eventapp/ui/tickets/BookingConfirmationActivity.kt:95-126 | success reloads the booking from the server; an error shows the translated payment message |
| BookingConfirmation.PayResultIgnoresPayload | app/src/main/java/com/thefarhany/eventapp/ui/tickets/BookingConfirmationActivity.kt:100-112 | the reaction to a successful payment does not depend on its payload |
| Session.KeyNamed | app/src/main/java/com/thefarhany/eventapp/utils/SessionManager.kt:16-31 | a key found by name is spelled with that name |
| Session.SpellingsDistinct | app/src/main/java/com/thefarhany/eventapp/utils/SessionManager.kt:16-31 | each key is found again from its spelling, and distinct keys have distinct spellings |
| Session.Stored | app/src/main/java/com/thefarhany/eventapp/utils/SessionManager.kt:51-53 | a value is read exactly when the key is present, and it is the stored value |
| Session.GetString | app/src/main/java/com/thefarhany/eventapp/utils/SessionManager.kt:51-53 | a string is read exactly when the key holds a string |
| Session.GetBoolean | app/src/main/java/com/thefarhany/eventapp/utils/SessionManager.kt:123-125 | a missing key reads as the default; a stored flag reads as itself |
| Session.GetAuthToken | app/src/main/java/com/thefarhany/eventapp/utils/SessionManager.kt:51-53 | a token is read exactly when one is stored under the token key, and it is the stored text |
| Session.SaveRefreshToken | app/src/main/java/com/thefarhany/eventapp/utils/SessionManager.kt:67-69 | the refresh token reads back as written and every other key is unchanged |
| Session.GetRefreshToken | app/src/main/java/com/thefarhany/eventapp/utils/SessionManager.kt:74-76 | a refresh token is read exactly when one is stored, and it is the stored text |
| Session.IsLoggedIn | app/src/main/java/com/thefarhany/eventapp/utils/SessionManager.kt:123-125 | logged in exactly when the stored flag is true and a token is stored; a missing flag counts as false |
| Session.IsFirstTime | app/src/main/java/com/thefarhany/eventapp/utils/SessionManager.kt:213-215 | first launch unless the flag is stored as false; a missing flag counts as true |
| Session.SetFirstTimeDone | app/src/main/java/com/thefarhany/eventapp/utils/SessionManager.kt:220-222 | afterwards it is no longer the first launch, and every other key is unchanged |
| Session.SaveAuthToken | app/src/main/java/com/thefarhany/eventapp/utils/SessionManager.kt:39-46 | afterwards the token and its type read back as written and the logged-in flag reads true; every other key is present and valued exactly as before |
| Session.GetAuthorizationHeader | app/src/main/java/com/thefarhany/eventapp/utils/SessionManager.kt:58-62 | a header exists exactly when a token is stored, and is the token type (default "Bearer"), a space and the token |
| Session.SaveAuthTokenLogsIn | app/src/main/java/com/thefarhany/eventapp/utils/SessionManager.kt:39-62 | after saving a token the user is logged in and the header carries it; with the default type it is "Bearer " + token |
| Session.PutIfPresent | app/src/main/java/com/thefarhany/eventapp/utils/SessionManager.kt:96-100 | a null value writes nothing; a present one writes that key |
| Session.SaveLoginSession | app/src/main/java/com/thefarhany/eventapp/utils/SessionManager.kt:83-103 | the logged-in flag is set |
| Session.SaveLoginSessionWrites | app/src/main/java/com/thefarhany/eventapp/utils/SessionManager.kt:83-103 | every key afterwards holds what the call wrote to it, or what it held before when the call wrote nothing there |
| Session.SaveLoginSessionNeedsToken | app/src/main/java/com/thefarhany/eventapp/utils/SessionManager.kt:83-125 | saving a login session makes the user logged in exactly when a token was already stored |
| Session.UpdateUserProfile | app/src/main/java/com/thefarhany/eventapp/utils/SessionManager.kt:108-118 | the five name and contact fields hold the profile's values; the picture changes only when the profile has one; every other key (token, token type, refresh token, user id, login and first-launch flags) keeps its stored value |
| Session.GetUserId | app/src/main/java/com/thefarhany/eventapp/utils/SessionManager.kt:130-133 | an id is returned exactly when a number other than the sentinel -1 is stored |
| Session.GetFullName | app/src/main/java/com/thefarhany/eventapp/utils/SessionManager.kt:166-170 | the trimmed "first last", or, when that is empty, the stored user name, or "User" when no user name is stored |
| Session.FullNameFallback | app/src/main/java/com/thefarhany/eventapp/utils/SessionManager.kt:166-170 | with no names stored the full name is the user name, or "User" |
| Session.FullNameUsesFirstName | app/src/main/java/com/thefarhany/eventapp/utils/SessionManager.kt:166-170 | a first name with a non-space character gives a non-empty full name built from the names |
| Session.ClearSession | app/src/main/java/com/thefarhany/eventapp/utils/SessionManager.kt:191-193 | everything is removed |
| Session.ClearAuthData | app/src/main/java/com/thefarhany/eventapp/utils/SessionManager.kt:198-206 | exactly the four auth keys are removed and every other value is kept |
| Session.ClearAuthDataLogsOut | app/src/main/java/com/thefarhany/eventapp/utils/SessionManager.kt:198-206 | afterwards the user is logged out and there is no header and no refresh token |
| Session.ClearAuthDataKeepsUser | app/src/main/java/com/thefarhany/eventapp/utils/SessionManager.kt:196-206 | the full name, the user id and the first-launch flag survive |
| Session.ClearSessionResets | app/src/main/java/com/thefarhany/eventapp/utils/SessionManager.kt:191-215 | after clearing, the user is logged out, it is a first launch again, no id is stored and the name is "User" |
| Session.SetFirstTimeDoneSticks | app/src/main/java/com/thefarhany/eventapp/utils/SessionManager.kt:213-222 | after marking the first launch done it is no longer the first launch, until the session is cleared |
| Session.SaveAuthTokenKeepsTypes | app/src/main/java/com/thefarhany/eventapp/utils/SessionManager.kt:39-76 | saving tokens and the first-launch flag keeps every key holding the value type its getter reads |
| Session.SaveLoginSessionKeepsTypes | app/src/main/java/com/thefarhany/eventapp/utils/SessionManager.kt:83-103 | saving a login session keeps every key well typed |
| Session.UpdateUserProfileKeepsTypes | app/src/main/java/com/thefarhany/eventapp/utils/SessionManager.kt:108-118 | updating the profile keeps every key well typed |
| Session.ClearingKeepsTypes | app/src/main/java/com/thefarhany/eventapp/utils/SessionManager.kt:191-206 | both ways of clearing keep every key well typed |
| RegisterForm.ValidateFullName | app/src/main/java/com/thefarhany/eventapp/ui/auth/register/RegisterActivity.kt:71-86 | accepted exactly from three characters; empty is "required"; one or two characters get the length message |
| RegisterForm.ValidateEmail | app/src/main/java/com/thefarhany/eventapp/ui/auth/register/RegisterActivity.kt:88-107 | accepted exactly when non-empty, matching the pattern and containing '@'; the pattern is checked before the '@' |
| RegisterForm.ValidatePhone | app/src/main/java/com/thefarhany/eventapp/ui/auth/register/RegisterActivity.kt:109-128 | accepted exactly for ten or more ASCII digits; each failure has its own message |
| RegisterForm.ValidatePassword | app/src/main/java/com/thefarhany/eventapp/ui/auth/register/RegisterActivity.kt:130-152 | accepted exactly from eight characters with a letter and a digit; each failure has its own message |
| RegisterForm.ValidateConfirmPassword | app/src/main/java/com/thefarhany/eventapp/ui/auth/register/RegisterActivity.kt:154-169 | accepted exactly when non-empty and equal to the password |
| RegisterForm.ValidateAll | app/src/main/java/com/thefarhany/eventapp/ui/auth/register/RegisterActivity.kt:171-186 | every field is checked after trimming, the confirmation against the trimmed password |
| RegisterForm.ValidateAllMeaning | app/src/main/java/com/thefarhany/eventapp/ui/auth/register/RegisterActivity.kt:171-186 | the form passes exactly when the trimmed name, e-mail, phone and password meet their rules and the confirmation equals the password |
| RegisterForm.ValidateAllIgnoresPadding | app/src/main/java/com/thefarhany/eventapp/ui/auth/register/RegisterActivity.kt:171-186 | surrounding whitespace never changes the report |
| RegisterForm.SplitName | app/src/main/java/com/thefarhany/eventapp/ui/auth/register/RegisterActivity.kt:197-199 | the first name has no space; with a space, first, a space and last rejoin the full name; without one the last name is empty |
| RegisterForm.UserName | app/src/main/java/com/thefarhany/eventapp/ui/auth/register/RegisterActivity.kt:200 | the user name contains no space |
| RegisterForm.UserNameFromParts | app/src/main/java/com/thefarhany/eventapp/ui/auth/register/RegisterActivity.kt:197-200 | the user name is the lower-cased first and last names with spaces removed, joined |
| RegisterForm.SignUp | app/src/main/java/com/thefarhany/eventapp/ui/auth/register/RegisterActivity.kt:188-213 | a request is made exactly when the form passes, from the trimmed fields |
| RegisterForm.SignUpRequestWellFormed | app/src/main/java/com/thefarhany/eventapp/ui/auth/register/RegisterActivity.kt:188-213 | a request's first name has no space, its user name has none, and its passwords match and meet the rules |
| RegisterForm.PlaceError | app/src/main/java/com/thefarhany/eventapp/ui/auth/register/RegisterActivity.kt:247-274 | an error goes where the first matching keyword rule sends it, and to a toast exactly when no rule matches |
| RegisterForm.OnRegisterResult | app/src/main/java/com/thefarhany/eventapp/ui/auth/register/RegisterActivity.kt:219-277 | success finishes with a toast; an error clears all field errors and places the message (or "Registration failed") by its keywords |
| RegisterForm.EmailErrorFirst | app/src/main/java/com/thefarhany/eventapp/ui/auth/register/RegisterActivity.kt:248-251 | a message mentioning the duplicate e-mail goes to the e-mail field whatever else it says |
| RegisterForm.DuplicateEmailReachesEmailField | app/src/main/java/com/thefarhany/eventapp/data/repository/AuthRepository.kt:125 | backend code "02" ends as "Email already exists" under the e-mail field |
| RegisterForm.MismatchErrorPlacement | app/src/main/java/com/thefarhany/eventapp/ui/auth/register/RegisterActivity.kt:256-259 | a mismatch message without the earlier keywords goes to the confirmation field |
| RegisterForm.MismatchReachesConfirmField | app/src/main/java/com/thefarhany/eventapp/data/repository/AuthRepository.kt:127 | backend code "04" ends as "Passwords do not match" under the confirmation field |
| RegisterForm.PhoneErrorPlacement | app/src/main/java/com/thefarhany/eventapp/ui/auth/register/RegisterActivity.kt:252-255 | a duplicate-phone message without the e-mail keyword goes to the phone field |
| RegisterForm.DuplicatePhoneReachesPhoneField | app/src/main/java/com/thefarhany/eventapp/data/repository/AuthRepository.kt:126 | backend code "03" ends as "Phone number already exists" under the phone field |
| RegisterForm.PasswordRulePlacement | app/src/main/java/com/thefarhany/eventapp/ui/auth/register/RegisterActivity.kt:260-263 | a password-rule message without the earlier keywords goes to the password field |
| LoginForm.ValidateEmail | app/src/main/java/com/thefarhany/eventapp/ui/auth/login/LoginActivity.kt:67-86 | accepted exactly when non-empty, containing '@' and matching the pattern; the '@' is checked before the pattern |
| LoginForm.ValidatePassword | app/src/main/java/com/thefarhany/eventapp/ui/auth/login/LoginActivity.kt:88-110 | accepted exactly from eight characters with a letter and a digit; each failure has its own message |
| LoginForm.SameRulesAsSignUp | app/src/main/java/com/thefarhany/eventapp/ui/auth/login/LoginActivity.kt:67-110 | sign-in accepts exactly the e-mails and passwords sign-up accepts |
| LoginForm.EmailCheckOrderDiffers | app/src/main/java/com/thefarhany/eventapp/ui/auth/login/LoginActivity.kt:67-86 | for an address with no '@' that fails the pattern, the two screens show different messages |
| LoginForm.ValidateAll | app/src/main/java/com/thefarhany/eventapp/ui/auth/login/LoginActivity.kt:112-120 | both fields are checked after trimming |
| LoginForm.SignIn | app/src/main/java/com/thefarhany/eventapp/ui/auth/login/LoginActivity.kt:122-129 | credentials are sent exactly when both checks pass, trimmed |
| LoginForm.SignInCredentials | app/src/main/java/com/thefarhany/eventapp/ui/auth/login/LoginActivity.kt:122-129 | the sent credentials are trimmed, contain '@', match the pattern, and meet the password rule |
| LoginForm.PlaceError | app/src/main/java/com/thefarhany/eventapp/ui/auth/login/LoginActivity.kt:173-200 | an error goes where the first matching keyword rule sends it, and to a toast exactly when none matches |
| LoginForm.HandleLoginError | app/src/main/java/com/thefarhany/eventapp/ui/auth/login/LoginActivity.kt:173-200 | field errors get fixed texts; the session, navigation and loading state are untouched |
| LoginForm.OnLoginResult | app/src/main/java/com/thefarhany/eventapp/ui/auth/login/LoginActivity.kt:140-171 | the screen navigates home and stores the token exactly for a success carrying one; a success without data reports "Login failed" |
| LoginForm.UnregisteredEmailFirst | app/src/main/java/com/thefarhany/eventapp/ui/auth/login/LoginActivity.kt:173-200 | a message naming an unregistered e-mail goes to the e-mail field |
| LoginForm.CodeOneReachesEmailField | app/src/main/java/com/thefarhany/eventapp/data/repository/AuthRepository.kt:136 | backend code "01" ends as "Email is not registered" under the e-mail field |
| LoginForm.IncorrectPasswordPlacement | app/src/main/java/com/thefarhany/eventapp/ui/auth/login/LoginActivity.kt:173-200 | an incorrect-password message without the e-mail keywords goes to the password field |
| LoginForm.CodeTwoReachesPasswordField | app/src/main/java/com/thefarhany/eventapp/data/repository/AuthRepository.kt:137 | backend code "02" ends as "Incorrect password" under the password field |
| LoginForm.LoginNeverNavigates | app/src/main/java/com/thefarhany/eventapp/data/repository/AuthRepository.kt:72-74 | whatever the server answers, the sign-in screen neither navigates nor stores a token |
| LoginForm.AcceptedLoginReportsFailure | app/src/main/java/com/thefarhany/eventapp/ui/auth/login/LoginActivity.kt:147-161 | an accepted login carrying a token is reported as "Login failed" |
| LoginForm.LoginPassingToken | app/src/main/java/com/thefarhany/eventapp/data/repository/AuthRepository.kt:67-109 | the corrected login succeeds on the same answers and hands over the envelope's data; failures are as before |
| LoginForm.PassingTokenLogsIn | app/src/main/java/com/thefarhany/eventapp/ui/auth/login/LoginActivity.kt:147-161 | with the corrected login, an accepted answer with a token navigates, logs in and stores the token; failures react as before |
| ProfileScreen.CheckForChanges | app/src/main/java/com/thefarhany/eventapp/ui/profile/ProfileFragment.kt:81-94 | with a loaded profile, changes are flagged exactly when a field differs, and the button follows the flag |
| ProfileScreen.Edit | app/src/main/java/com/thefarhany/eventapp/ui/profile/ProfileFragment.kt:67-94 | after typing, the button is enabled exactly when the fields differ from the loaded profile |
| ProfileScreen.EditBackToOriginal | app/src/main/java/com/thefarhany/eventapp/ui/profile/ProfileFragment.kt:81-94 | typing the original values back disables the button |
| ProfileScreen.ValidateInput | app/src/main/java/com/thefarhany/eventapp/ui/profile/ProfileFragment.kt:108-150 | the first empty trimmed field, in screen order, or an invalid e-mail, names the error |
| ProfileScreen.ValidateInputPasses | app/src/main/java/com/thefarhany/eventapp/ui/profile/ProfileFragment.kt:108-150 | the input passes exactly when every trimmed field is non-empty and the e-mail matches the pattern |
| ProfileScreen.UpdateRequest | app/src/main/java/com/thefarhany/eventapp/ui/profile/ProfileFragment.kt:152-164 | each field of the request is the corresponding input trimmed (so it carries the user's text with surrounding whitespace removed) |
| ProfileScreen.UpdateClick | app/src/main/java/com/thefarhany/eventapp/ui/profile/ProfileFragment.kt:96-164 | a request is sent exactly when the input passes, with non-empty fields and a valid e-mail |
| ProfileScreen.UpdateRequestStable | app/src/main/java/com/thefarhany/eventapp/ui/profile/ProfileFragment.kt:152-164 | building a request from a request's own fields gives the same request |
| ProfileScreen.Display | app/src/main/java/com/thefarhany/eventapp/ui/profile/ProfileFragment.kt:239-275 | the fields show the profile, the button is disabled, and the session records the profile |
| ProfileScreen.PerformLogout | app/src/main/java/com/thefarhany/eventapp/ui/profile/ProfileFragment.kt:283-292 | the session is emptied and the screen leaves |
| ProfileScreen.OnProfileLoad | app/src/main/java/com/thefarhany/eventapp/ui/profile/ProfileFragment.kt:166-192 | a delivered profile becomes the original and is displayed; an "Unauthorized" error logs out; other errors only toast |
| ProfileScreen.LoadedProfileIsUnchanged | app/src/main/java/com/thefarhany/eventapp/ui/profile/ProfileFragment.kt:166-192 | right after a load, nothing counts as changed and the button is disabled |
| ProfileScreen.LoadRecordsNames | app/src/main/java/com/thefarhany/eventapp/ui/profile/ProfileFragment.kt:266-273 | a load stores the profile's names, e-mail and phone in the session |
| ProfileScreen.UnauthorizedLoadLogsOut | app/src/main/java/com/thefarhany/eventapp/ui/profile/ProfileFragment.kt:186-188 | an HTTP 401 while loading empties the session and leaves the screen |
| ProfileScreen.OtherLoadFailuresStay | app/src/main/java/com/thefarhany/eventapp/ui/profile/ProfileFragment.kt:184-190 | any other HTTP failure keeps the session and stays on the screen |
| ProfileScreen.OnUpdateResult | app/src/main/java/com/thefarhany/eventapp/ui/profile/ProfileFragment.kt:194-237 | success enables the button, clears the change flag and records a returned profile; errors re-enable the button and toast |
| ProfileScreen.UpdateSuccessBreaksButton | app/src/main/java/com/thefarhany/eventapp/ui/profile/ProfileFragment.kt:202-218 | after every successful update, the button is enabled although nothing has changed |
| ProfileScreen.OnUpdateResultFixed | app/src/main/java/com/thefarhany/eventapp/ui/profile/ProfileFragment.kt:202-218 | the corrected reaction disables the button on success and is otherwise unchanged |
| ProfileScreen.FixedScreenKeepsButton | app/src/main/java/com/thefarhany/eventapp/ui/profile/ProfileFragment.kt:81-237 | with the correction, edits, loads and update results keep the button enabled exactly when there are changes |
| EventList.Filter | app/src/main/java/com/thefarhany/eventapp/ui/home/EventViewModel.kt:125-128 | the result keeps exactly the input's events that pass the filter, and is no longer than the input |
| EventList.Available | app/src/main/java/com/thefarhany/eventapp/ui/home/EventViewModel.kt:37-39 | every event left has seats remaining |
| EventList.FilterKeepsOrder | app/src/main/java/com/thefarhany/eventapp/ui/home/EventViewModel.kt:37-39 | filtering keeps the events in their original order |
| EventList.FilterAppend | app/src/main/java/com/thefarhany/eventapp/ui/home/EventViewModel.kt:37-39 | filtering a concatenation filters each part |
| EventList.FilterKeepsAll | app/src/main/java/com/thefarhany/eventapp/ui/home/EventViewModel.kt:37-39 | a list whose every event passes is unchanged |
| EventList.FilterIdempotent | app/src/main/java/com/thefarhany/eventapp/ui/home/EventViewModel.kt:37-39 | filtering twice is filtering once |
| EventList.CategoryAfterSeats | app/src/main/java/com/thefarhany/eventapp/ui/home/EventViewModel.kt:125-128 | picking a category's bookable events from the already-filtered cache is the same as picking them from the fetched list |
| EventList.CategoryRequest | app/src/main/java/com/thefarhany/eventapp/ui/home/EventViewModel.kt:72-76 | all events are fetched exactly for "ALL" in any case; any other category is sent upper-cased |
| EventList.CategoryRequestByName | app/src/main/java/com/thefarhany/eventapp/ui/home/EventViewModel.kt:72-76 | a category named in any letter case is asked for by its exact constant name |
| EventList.Search | app/src/main/java/com/thefarhany/eventapp/ui/home/EventViewModel.kt:143-178 | a blank keyword is a full load; otherwise the cache is untouched and the shown list is the answer's bookable events in order, "No events found matching your search" when none, or the error message or "Failed to search events." |
| EventList.SearchRequest | app/src/main/java/com/thefarhany/eventapp/ui/home/EventViewModel.kt:143-152 | a blank keyword loads all events; otherwise the trimmed keyword is sent, and it is never blank |
| EventList.LoadAll | app/src/main/java/com/thefarhany/eventapp/ui/home/EventViewModel.kt:29-62 | the cache receives the bookable events, or the upstream error itself; the shown list follows the answer |
| EventList.ByCategory | app/src/main/java/com/thefarhany/eventapp/ui/home/EventViewModel.kt:68-104 | a category load never touches the cache |
| EventList.FilterLocally | app/src/main/java/com/thefarhany/eventapp/ui/home/EventViewModel.kt:111-136 | local filtering never touches the cache |
| EventList.OperationsKeepSeatsOnly | app/src/main/java/com/thefarhany/eventapp/ui/home/EventViewModel.kt:29-178 | from the start and after every operation, each published success list holds only events with seats, and a shown success is never empty |
| EventList.FetchedListShown | app/src/main/java/com/thefarhany/eventapp/ui/home/EventViewModel.kt:36-48 | a fetched list is shown as its bookable events in order; when none is bookable, full load, category and search each name their own empty case |
| EventList.ErrorsForwarded | app/src/main/java/com/thefarhany/eventapp/ui/home/EventViewModel.kt:51-55 | an upstream error's message is forwarded, or each operation's default when null; only a full load records the error in the cache |
| EventList.AllCategoryIsLoadAll | app/src/main/java/com/thefarhany/eventapp/ui/home/EventViewModel.kt:72-90 | asking for "ALL" by category shows what a full load shows, but leaves the cache alone |
| EventList.BlankSearchIsLoadAll | app/src/main/java/com/thefarhany/eventapp/ui/home/EventViewModel.kt:144-147 | a blank search is exactly a full load |
| EventList.LocalFilterNeedsCache | app/src/main/java/com/thefarhany/eventapp/ui/home/EventViewModel.kt:112-114 | without a successful cache, local filtering does nothing |
| EventList.LocalAllAfterLoad | app/src/main/java/com/thefarhany/eventapp/ui/home/EventViewModel.kt:115-116 | after a successful full load, filtering "ALL" locally changes nothing |
| EventList.LocalCategoryAfterLoad | app/src/main/java/com/thefarhany/eventapp/ui/home/EventViewModel.kt:115-135 | after a full load, a category named in any case shows exactly the fetched events of that category with seats, in order, or "No events available" |
| EventList.LocalUnknownCategory | app/src/main/java/com/thefarhany/eventapp/ui/home/EventViewModel.kt:117-133 | a name that is neither "ALL" nor a category shows "No events available" |

## Left out

- Android views, toasts, dialogs, navigation intents, Glide, RecyclerView notifications, coroutines and `LiveData` delivery are left out. Each screen is a value, and a `LiveData` update is a new value.
- Network I/O, Gson, `org.json` and OkHttp are abstracted: the outcome of each call (`Call`/`Fetch`) and the parsed error body (`JsonBody`) are parameters.
- Android's `Patterns.EMAIL_ADDRESS` is not modelled. The forms take it as the `matchesEmail` parameter.
- Floating point is left out. `Double` prices and the percentage in the capacity warning are integers and exact rationals.
- Currency and date formatting are left out because they are presentation only.
- UTF-16 code units are modelled as characters. Letter case is folded for ASCII only, whereas Kotlin folds all of Unicode.
- Every transient `Loading` value posted before a fetch is left out. Each operation is one step to the state after the repository answered.
- `AuthRepository.logout` is left out. It only returns a success without a call.
- `SessionManager.getAllData` and the plain field getters other than those used above are left out, because they are direct reads.
- `BookingRepository`'s `HttpException` branches are left out. A call declared to return `Response<T>` does not throw it, so they are unreachable.
- `TicketSelection.PlusEffect`: states the click-time check at `TicketAdapter.kt:93-103`. The displayed `btnPlus.isEnabled` (`TicketAdapter.kt:123-143`) is recomputed only when a row is rebound, and a click rebinds only its own row (`notifyItemChanged`). So another row's displayed flag can be stale after the total reaches or leaves ten. The flag each row holds is not modelled.
- `EventDetailScreen.ClickAllInSync` and `EventDetailScreen.StaysInSync` hold from a first display or from a screen already in step. Showing the event again with a living view model leaves that state; `EventDetailScreen.RedisplayDesyncs` states what happens then (see Findings).
- Kotlin `Int` arithmetic wraps at 2^31. It is modelled explicitly (`Text.Int32`) for the two sums over server-supplied booking quantities: the booking row's `sumOf` (`BookingAdapter.kt:51`) and the payment check's `sumOf` (`BookingConfirmationActivity.kt:153`). The selection totals (`EventDetailViewModel.kt:40`, `getTotalSelectedTickets`) use unbounded integers: every click keeps them between zero and ten (`TicketSelection.SelectionBounds`), far from the limit.
- `RegisterForm.PasswordRulePlacement`: proved for any message that contains the password-rule keyword and none of the earlier ones. Whether the 75-character text of backend code "05" satisfies that was not proved.
- `Session.SaveLoginSession`: its own contract states only the logged-in flag. The per-key content is stated by `Session.SaveLoginSessionWrites`.
- `EventList.ByCategory`, `EventList.FilterLocally` and `EventList.LoadAll`: their own contracts state what the cache keeps. What the shown list becomes is stated by the `EventList` lemmas below them in the table.

## Findings

| source | as written | input that shows it | evidently intended | confidence | as-written member | corrected member |
|---|---|---|---|---|---|---|
| app/src/main/java/com/thefarhany/eventapp/data/repository/AuthRepository.kt:72-74 | a successful login returns `Resource.Success(null)`, and the sign-in screen navigates and stores the token only for non-null data, so it never does | an envelope `{success: true, message: "Login successful", data: "token"}` | hand the envelope's token to the screen, which stores it and navigates home | high, not executed | LoginForm.AcceptedLoginReportsFailure | LoginForm.PassingTokenLogsIn |
| app/src/main/java/com/thefarhany/eventapp/ui/profile/ProfileFragment.kt:202-218 | a successful update re-enables the update button and then clears `hasChanges`, leaving an enabled button with nothing to update (only its alpha is dimmed) | any successful update result | disable the button along with clearing `hasChanges`, as every other path keeps them equal | medium, not executed | ProfileScreen.UpdateSuccessBreaksButton | ProfileScreen.FixedScreenKeepsButton |
| app/src/main/java/com/thefarhany/eventapp/ui/event/TicketAdapter.kt:25-28 | the view model is scoped to the activity (`EventDetailActivity.kt:72`) and keeps its selection across recreation, while showing the event again calls `submitList`, which zeroes the rows without telling the view model | pick one ticket, then rotate the device: the rows show zero while Book Now still confirms one ticket | hand the fresh rows to the view model (or restore the rows from it) so that Book Now confirms what the rows show | medium, not executed | EventDetailScreen.RedisplayDesyncs | EventDetailScreen.RedisplayFixedInSync |

=== FILE: auth_repository.dfy ===
/** How the register and login calls' outcomes become
    `Resource`s, including the translation of the backend's error codes. */
module AuthRepository {

  import opened Outcomes
  import opened Domain

  const ConnectionFailed: string := "Connection failed. Please check your internet connection."

  /** `parseRegisterError`: codes "02" to "05" have fixed texts; any other
      code, or none, gives the server's message or a default. */
  function ParseRegisterError(code: Option<string>, message: Option<string>): (r: string)
    ensures code == Some("02") ==> r == "Email already exists"
    ensures code == Some("03") ==> r == "Phone number already exists"
    ensures code == Some("04") ==> r == "Passwords do not match"
    ensures code == Some("05") ==> r == "Password must be at least 8 characters and contain both letters and numbers"
    ensures code != Some("02") && code != Some("03") && code != Some("04") && code != Some("05") ==>
              r == message.OrElse("Registration failed")
  {
    if code == Some("02") then "Email already exists"
    else if code == Some("03") then "Phone number already exists"
    else if code == Some("04") then "Passwords do not match"
    else if code == Some("05") then "Password must be at least 8 characters and contain both letters and numbers"
    else message.OrElse("Registration failed")
  }

  /** `parseLoginError`: codes "01" to "03" have fixed texts; otherwise the
      server's message or a default. */
  function ParseLoginError(code: Option<string>, message: Option<string>): (r: string)
    ensures code == Some("01") ==> r == "Email not registered"
    ensures code == Some("02") ==> r == "Incorrect password"
    ensures code == Some("03") ==> r == "You are not authorized to access this page"
    ensures code != Some("01") && code != Some("02") && code != Some("03") ==> r == message.OrElse("Login failed")
  {
    if code == Some("01") then "Email not registered"
    else if code == Some("02") then "Incorrect password"
    else if code == Some("03") then "You are not authorized to access this page"
    else message.OrElse("Login failed")
  }

  /** The same code means different things to the two screens. */
  lemma CodeTwoDiffers(m: Option<string>, n: Option<string>)
    ensures ParseRegisterError(Some("02"), m) != ParseLoginError(Some("02"), n)
  {
  }

  /** A fixed-code text does not depend on the message. */
  lemma FixedCodesIgnoreMessage(code: string, m: Option<string>, n: Option<string>)
    requires code in {"02", "03", "04", "05"}
    ensures ParseRegisterError(Some(code), m) == ParseRegisterError(Some(code), n)
  {
  }

  /** An HTTP error body read as the error envelope: an empty or unparsable
      body gives the default; an object gives the parser's text for its
      "errorCode" and "message" fields (absent fields read as null). */
  function ErrorBodyText(body: Option<JsonBody>, parse: (Option<string>, Option<string>) -> string, default: string): (r: string)
    ensures body.None? || body.value.Blank? || body.value.Malformed? ==> r == default
    ensures body.Some? && body.value.Fields? ==> r == parse(FieldOf(body, "errorCode"), FieldOf(body, "message"))
  {
    match body
    case Some(Fields(_)) => parse(FieldOf(body, "errorCode"), FieldOf(body, "message"))
    case _ => default
  }

  /** `register`: success hands over the data as it is (possibly null). */
  function Register(f: Fetch<string>): (r: Resource<string>)
    ensures r.Success? <==> f.Body? && f.envelope.success
    ensures r.Success? ==> r.data == f.envelope.data
    ensures f.Body? && !f.envelope.success ==>
              r == Error(Some(ParseRegisterError(f.envelope.errorCode, f.envelope.message)))
    ensures f.HttpFailure? ==> r == Error(Some(ErrorBodyText(f.errorBody, ParseRegisterError, "Registration failed")))
    ensures f.IOFailure? ==> r == Error(Some(ConnectionFailed))
    ensures f.Thrown? ==> r == Error(Some(f.message.OrElse("Unknown error occurred")))
  {
    match f
    case Body(e) =>
      if e.success then Success(e.data) else Error(Some(ParseRegisterError(e.errorCode, e.message)))
    case HttpFailure(_, eb) => Error(Some(ErrorBodyText(eb, ParseRegisterError, "Registration failed")))
    case IOFailure => Error(Some(ConnectionFailed))
    case Thrown(m) => Error(Some(m.OrElse("Unknown error occurred")))
  }

  /** `login`: success never carries data, even when the server sent some. */
  function Login<T>(f: Fetch<T>): (r: Resource<T>)
    ensures r.Success? <==> f.Body? && f.envelope.success
    ensures r.Success? ==> r.data.None?
    ensures f.Body? && !f.envelope.success ==>
              r == Error(Some(ParseLoginError(f.envelope.errorCode, f.envelope.message)))
    ensures f.HttpFailure? ==> r == Error(Some(ErrorBodyText(f.errorBody, ParseLoginError, "Login failed")))
    ensures f.IOFailure? ==> r == Error(Some(ConnectionFailed))
    ensures f.Thrown? ==> r == Error(Some(f.message.OrElse("Login failed")))
  {
    match f
    case Body(e) =>
      if e.success then Success(None) else Error(Some(ParseLoginError(e.errorCode, e.message)))
    case HttpFailure(_, eb) => Error(Some(ErrorBodyText(eb, ParseLoginError, "Login failed")))
    case IOFailure => Error(Some(ConnectionFailed))
    case Thrown(m) => Error(Some(m.OrElse("Login failed")))
  }

  /** An HTTP error whose body has an error code reads exactly as a 2xx
      failure envelope with that code and message. */
  lemma HttpBodyReadsLikeEnvelope(code: int, fields: map<string, string>, e: Envelope<string>)
    requires !e.success
    requires ("errorCode" in fields ==> e.errorCode == Some(fields["errorCode"])) && ("errorCode" !in fields ==> e.errorCode.None?)
    requires ("message" in fields ==> e.message == Some(fields["message"])) && ("message" !in fields ==> e.message.None?)
    ensures Register(HttpFailure(code, Some(Fields(fields)))) == Register(Body(e))
    ensures Login(HttpFailure(code, Some(Fields(fields)))) == Login(Body(e))
  {
  }
}

=== FILE: booking_confirmation.dfy ===
/** The booking confirmation screen: what the status of the loaded booking
    offers (pay button, QR card, status texts), the checks made before a
    payment is attempted, and the translation of payment errors into
    user-facing texts. */
module BookingConfirmation {

  import opened Outcomes
  import opened Text
  import opened Domain

  // ---------------------------------------------------------------------
  // Pre-payment check

  /** The outcome of pressing Pay: nothing (no booking loaded yet), an
      error dialog, or the payment confirmation dialog. */
  datatype PaymentCheck = NothingLoaded | Refused(title: string, message: string) | Proceed

  /** `validateBeforePayment` on the booking currently shown: the status
      must be "PENDING", then the booking must hold between one and ten
      tickets, counted as `sumOf` counts them in a 32-bit `Int`. */
  function ValidateBeforePayment(current: Option<BookingDetail>): (r: PaymentCheck)
    ensures r.NothingLoaded? <==> current.None?
    ensures r.Proceed? <==> current.Some? && current.value.status == "PENDING" &&
                            1 <= Int32(TicketCount(current.value.items)) <= 10
    ensures current.Some? && current.value.status != "PENDING" ==>
              r == Refused("Cannot Process Payment", "This booking cannot be paid. Status: " + current.value.status)
    ensures current.Some? && current.value.status == "PENDING" && Int32(TicketCount(current.value.items)) < 1 ==>
              r == Refused("Invalid Booking", "No tickets found in this booking")
    ensures current.Some? && current.value.status == "PENDING" && Int32(TicketCount(current.value.items)) > 10 ==>
              r.Refused? && r.title == "Invalid Booking" &&
              exists digits :: r.message == "Maximum 10 tickets per transaction. This booking has " + digits + " tickets." &&
                               Writes(digits, Int32(TicketCount(current.value.items)))
  {
    match current
    case None => NothingLoaded
    case Some(b) =>
      var n := Int32(TicketCount(b.items));
      if b.status != "PENDING" then
        Refused("Cannot Process Payment", "This booking cannot be paid. Status: " + b.status)
      else if n < 1 then Refused("Invalid Booking", "No tickets found in this booking")
      else if n > 10 then
        var digits := SignedDecimal(n);
        Refused("Invalid Booking", "Maximum 10 tickets per transaction. This booking has " + digits + " tickets.")
      else Proceed
  }

  /** While the exact number of tickets fits in an `Int`, the check is on
      that exact number. */
  lemma ValidateCountsExactlyInRange(b: BookingDetail)
    requires -0x8000_0000 <= TicketCount(b.items) < 0x8000_0000
    ensures ValidateBeforePayment(Some(b)).Proceed? <==> b.status == "PENDING" && 1 <= TicketCount(b.items) <= 10
  {
  }

  /** A booking whose quantities add up past the `Int` range can wrap back
      into one to ten and proceed: two items of 2^31 - 1 tickets and one of
      three. */
  lemma WrappedCountProceeds(b: BookingDetail)
    requires b.status == "PENDING" && |b.items| == 3
    requires b.items[0].quantity == 0x7FFF_FFFF && b.items[1].quantity == 0x7FFF_FFFF && b.items[2].quantity == 3
    ensures TicketCount(b.items) > 10
    ensures ValidateBeforePayment(Some(b)).Proceed?
  {
    var xs := b.items;
    assert xs[1..][1..] == [xs[2]] && [xs[2]][1..] == [];
    assert TicketCount(xs[1..][1..]) == 3;
    assert TicketCount(xs[1..]) == 0x7FFF_FFFF + 3;
    assert TicketCount(xs) == 0x1_0000_0001;
  }

  /** A paid or cancelled booking is never sent for payment, whatever its
      tickets. */
  lemma NoPaymentOutsidePending(b: BookingDetail)
    requires b.status == "PAID" || b.status == "CANCELLED"
    ensures ValidateBeforePayment(Some(b)).Refused?
    ensures ValidateBeforePayment(Some(b)).title == "Cannot Process Payment"
  {
  }

  // ---------------------------------------------------------------------
  // Payment error texts

  const PaymentFailedDefault: string := "Payment failed. Please try again."
  const AlreadyPaidText: string := "This booking has already been paid."
  const CancelledText: string := "This booking has been cancelled and cannot be paid."
  const NotFoundText: string := "Booking not found. It may have been deleted."
  const AccessText: string := "You don't have permission to pay this booking."
  const SoldOutText: string := "Tickets are sold out. This event is no longer available."
  const QuotaText: string := "Requested tickets exceed available quota. Please create a new booking with fewer tickets."
  const ConnectionText: string := "Connection failed. Please check your internet connection and try again."

  /** The keyword rules of `getPaymentErrorMessage`, in the order they are
      tried. */
  const PaymentRules: seq<Rule<string>> := [
    Rule(["already paid"], AlreadyPaidText),
    Rule(["cancelled"], CancelledText),
    Rule(["not found"], NotFoundText),
    Rule(["access"], AccessText),
    Rule(["sold out"], SoldOutText),
    Rule(["quota", "stock"], QuotaText),
    Rule(["connection", "network"], ConnectionText)
  ]

  /** `getPaymentErrorMessage`: a default for a missing message; otherwise
      the text of the first rule with a keyword in the message (any case),
      or the message itself when no rule fires. */
  function PaymentErrorMessage(m: Option<string>): (r: string)
    ensures m.None? ==> r == PaymentFailedDefault
    ensures m.Some? && Route(PaymentRules, m.value).None? ==> r == m.value
    ensures m.Some? && Route(PaymentRules, m.value).Some? ==> r == Route(PaymentRules, m.value).value
    ensures m.Some? ==> forall k :: 0 <= k < |PaymentRules| && Fires(m.value, PaymentRules[k]) &&
                                    (forall j :: 0 <= j < k ==> !Fires(m.value, PaymentRules[j])) ==>
                                    r == PaymentRules[k].outcome
  {
    match m
    case None => PaymentFailedDefault
    case Some(msg) =>
      FirstMatchDecides(PaymentRules, msg);
      Route(PaymentRules, msg).OrElse(msg)
  }

  /** "already paid" is tried first: a message that mentions it gets that
      text even if it also mentions cancellation or anything else. */
  lemma AlreadyPaidFirst(msg: string)
    requires ContainsIgnoreCase(msg, "already paid")
    ensures PaymentErrorMessage(Some(msg)) == AlreadyPaidText
  {
    RouteSingles(PaymentRules, msg, 0);
  }

  /** A message that mentions "stock" but none of the keywords of the
      earlier rules gets the quota text. */
  lemma StockMeansQuota(msg: string)
    requires ContainsIgnoreCase(msg, "stock")
    requires !ContainsIgnoreCase(msg, "already paid") && !ContainsIgnoreCase(msg, "cancelled")
    requires !ContainsIgnoreCase(msg, "not found") && !ContainsIgnoreCase(msg, "access")
    requires !ContainsIgnoreCase(msg, "sold out")
    ensures PaymentErrorMessage(Some(msg)) == QuotaText
  {
    RouteByKeyword(PaymentRules, msg, 5, 1);
  }

  /** A message that mentions no keyword is shown as it is. */
  lemma UnmatchedShownAsIs(msg: string)
    requires forall k, w :: 0 <= k < |PaymentRules| && w in PaymentRules[k].keywords ==> !ContainsIgnoreCase(msg, w)
    ensures PaymentErrorMessage(Some(msg)) == msg
  {
    forall k | 0 <= k < |PaymentRules| ensures !Fires(msg, PaymentRules[k]) {
      forall j | 0 <= j < |PaymentRules[k].keywords| ensures !ContainsIgnoreCase(msg, PaymentRules[k].keywords[j]) {
        assert PaymentRules[k].keywords[j] in PaymentRules[k].keywords;
      }
    }
  }

  // ---------------------------------------------------------------------
  // Status panel

  /** What the status part of the screen shows. */
  datatype Panel = Panel(payVisible: bool, qrVisible: bool, statusTitle: string, statusMessage: string)

  predicate KnownStatus(status: string)
  {
    status == "PENDING" || status == "PAID" || status == "CANCELLED"
  }

  /** Kotlin's `isNullOrEmpty`. */
  predicate NullOrEmpty(s: Option<string>)
  {
    s.None? || s.value == ""
  }

  /** The status dispatch of `displayBookingDetail`: PENDING offers the pay
      button; PAID hides it and shows the QR card when there is a QR code
      (leaving the card as it was otherwise); CANCELLED hides both; any
      other status changes nothing. */
  function DisplayStatus(p: Panel, b: BookingDetail): (r: Panel)
    ensures KnownStatus(b.status) ==> (r.payVisible <==> b.status == "PENDING")
    ensures b.status == "PAID" && !NullOrEmpty(b.qrCode) ==> r.qrVisible
    ensures b.status == "PAID" && NullOrEmpty(b.qrCode) ==> r.qrVisible == p.qrVisible
    ensures b.status == "PENDING" || b.status == "CANCELLED" ==> !r.qrVisible
    ensures !KnownStatus(b.status) ==> r == p
  {
    if b.status == "PENDING" then
      Panel(true, false, "Payment Pending", "Please complete your payment to get your e-ticket")
    else if b.status == "PAID" then
      Panel(false, if !NullOrEmpty(b.qrCode) then true else p.qrVisible,
            "Payment Successful", "Your booking is confirmed")
    else if b.status == "CANCELLED" then
      Panel(false, false, "Booking Cancelled", "This booking has been cancelled")
    else p
  }

  /** Starting from a screen whose QR card is hidden, the card is shown
      exactly for a paid booking with a QR code. */
  lemma QrOnlyWhenPaid(p: Panel, b: BookingDetail)
    requires !p.qrVisible
    ensures DisplayStatus(p, b).qrVisible <==> b.status == "PAID" && !NullOrEmpty(b.qrCode)
  {
  }

  // ---------------------------------------------------------------------
  // Reactions to loading and paying

  /** The screen's own state: the booking on display, if any, and the
      status panel. */
  datatype Screen = Screen(current: Option<BookingDetail>, panel: Panel)

  datatype Dialog = Dialog(title: string, message: string, finishScreen: bool)

  /** The booking-detail observer: a delivered booking becomes the current
      one and drives the panel; an error shows a dialog that closes the
      screen; a success without data changes nothing. */
  function OnBookingDetail(sc: Screen, res: Resource<BookingDetail>): (r: (Screen, Option<Dialog>))
    ensures res.Success? && res.data.Some? ==>
              r.0 == Screen(res.data, DisplayStatus(sc.panel, res.data.value)) && r.1.None?
    ensures res.Error? ==> r.0 == sc
    ensures res.Error? ==> r.1 == Some(Dialog("Failed to Load Booking", res.message.OrElse("Failed to load booking detail"), true))
    ensures res.Loading? || (res.Success? && res.data.None?) ==> r == (sc, None)
  {
    match res
    case Loading => (sc, None)
    case Success(d) =>
      if d.Some? then (Screen(d, DisplayStatus(sc.panel, d.value)), None) else (sc, None)
    case Error(m) => (sc, Some(Dialog("Failed to Load Booking", m.OrElse("Failed to load booking detail"), true)))
  }

  /** What the pay-result observer does. */
  datatype PayReaction = ShowPaymentLoading | ReloadDetail(bookingId: int) | PaymentFailed(dialog: Dialog)

  /** The pay-result observer: success reloads the booking from the server
      (the paid booking in the answer is not used); an error shows the
      translated message and keeps the screen open. */
  function OnPayResult(bookingId: int, res: Resource<BookingDetail>): (r: PayReaction)
    ensures res.Success? ==> r == ReloadDetail(bookingId)
    ensures res.Error? ==> r == PaymentFailed(Dialog("Payment Failed", PaymentErrorMessage(res.message), false))
  {
    match res
    case Loading => ShowPaymentLoading
    case Success(_) => ReloadDetail(bookingId)
    case Error(m) => PaymentFailed(Dialog("Payment Failed", PaymentErrorMessage(m), false))
  }

  /** The reaction to a successful payment does not depend on its payload. */
  lemma PayResultIgnoresPayload(bookingId: int, a: Option<BookingDetail>, b: Option<BookingDetail>)
    ensures OnPayResult(bookingId, Success(a)) == OnPayResult(bookingId, Success(b))
  {
  }
}

=== FILE: booking_list.dfy ===
/** A row of the "my bookings" list: the status badge, the ticket count,
    which actions the row offers, and the list's identity and content
    comparisons. */
module BookingList {

  import opened Outcomes
  import opened Text
  import opened Domain

  datatype BadgeBackground = PendingBackground | PaidBackground | CancelledBackground

  datatype Badge = Badge(text: string, background: BadgeBackground)

  /** `setupStatusBadge`: the raw status as text; any status other than
      PAID or CANCELLED gets the pending background. */
  function StatusBadge(status: string): (r: Badge)
    ensures r.text == status
    ensures r.background == PaidBackground <==> status == "PAID"
    ensures r.background == CancelledBackground <==> status == "CANCELLED"
  {
    Badge(status,
      if status == "PAID" then PaidBackground
      else if status == "CANCELLED" then CancelledBackground
      else PendingBackground)
  }

  /** The pay and cancel buttons of a recycled row: whether each is shown
      and which booking their click listeners were last wired to. */
  datatype Buttons = Buttons(payVisible: bool, cancelVisible: bool, wiredTo: Option<int>)

  /** `setupButtons`: a PENDING booking shows both buttons and wires them to
      itself; PAID and CANCELLED hide both; any other status leaves the row
      as the previous binding left it. */
  function SetupButtons(prev: Buttons, b: Booking): (r: Buttons)
    ensures b.status == "PENDING" ==> r.payVisible && r.cancelVisible && r.wiredTo == Some(b.bookingId)
    ensures b.status == "PAID" || b.status == "CANCELLED" ==> !r.payVisible && !r.cancelVisible
    ensures b.status != "PENDING" ==> r.wiredTo == prev.wiredTo
    ensures b.status != "PENDING" && b.status != "PAID" && b.status != "CANCELLED" ==> r == prev
  {
    if b.status == "PENDING" then Buttons(true, true, Some(b.bookingId))
    else if b.status == "PAID" || b.status == "CANCELLED" then Buttons(false, false, prev.wiredTo)
    else prev
  }

  /** For the three statuses the backend uses, a row offers its actions
      exactly when the booking is pending, and visible actions always act
      on the booking the row shows. */
  lemma ActionsOnlyForPending(prev: Buttons, b: Booking)
    requires b.status == "PENDING" || b.status == "PAID" || b.status == "CANCELLED"
    ensures SetupButtons(prev, b).payVisible <==> b.status == "PENDING"
    ensures SetupButtons(prev, b).cancelVisible <==> b.status == "PENDING"
    ensures SetupButtons(prev, b).payVisible ==> SetupButtons(prev, b).wiredTo == Some(b.bookingId)
  {
  }

  /** The ticket count shown on a row: "<n> ticket(s)", where `n` is the
      sum of the item quantities as `sumOf` computes it in a 32-bit `Int`
      (a wrapped sum is the exact sum wrapped once). */
  function TicketsLabel(b: Booking): (r: string)
    ensures |r| > 10 && r[|r| - 10..] == " ticket(s)"
    ensures Writes(r[..|r| - 10], Int32(TicketCount(b.items)))
    ensures 0 <= TicketCount(b.items) < 0x8000_0000 ==> r == Decimal(TicketCount(b.items)) + " ticket(s)"
  {
    var s := SignedDecimal(Int32(TicketCount(b.items)));
    assert (s + " ticket(s)")[..|s|] == s;
    s + " ticket(s)"
  }

  /** The count adds up every item's quantity. */
  lemma {:induction false} TicketCountCountsEveryItem(items: seq<BookingItem>, i: nat)
    requires i < |items|
    requires forall k :: 0 <= k < |items| ==> items[k].quantity >= 0
    ensures TicketCount(items) >= items[i].quantity
    decreases i
  {
    NonNegativeCount(items[1..]);
    if i > 0 {
      TicketCountCountsEveryItem(items[1..], i - 1);
    }
  }

  lemma {:induction false} NonNegativeCount(items: seq<BookingItem>)
    requires forall k :: 0 <= k < |items| ==> items[k].quantity >= 0
    ensures TicketCount(items) >= 0
  {
    if items != [] {
      NonNegativeCount(items[1..]);
    }
  }

  /** `areItemsTheSame`: the same booking id. */
  predicate AreItemsTheSame(a: Booking, b: Booking)
  {
    a.bookingId == b.bookingId
  }

  /** `areContentsTheSame`: structural equality of the data class. */
  predicate AreContentsTheSame(a: Booking, b: Booking)
  {
    a == b
  }

  /** Equal contents imply the same item, and the same item with a changed
      status is a content change. */
  lemma DiffConsistent(a: Booking, b: Booking)
    ensures AreContentsTheSame(a, b) ==> AreItemsTheSame(a, b)
    ensures AreItemsTheSame(a, b) && a.status != b.status ==> !AreContentsTheSame(a, b)
    ensures AreContentsTheSame(a, b) <==>
              (AreItemsTheSame(a, b) && a.eventTitle == b.eventTitle && a.items == b.items &&
               a.totalPrice == b.totalPrice && a.status == b.status && a.createdAt == b.createdAt)
  {
  }
}

=== FILE: booking_repository.dfy ===
/** How the booking calls' outcomes become `Resource`s: envelope
    unwrapping, the per-operation HTTP-code texts, and the error-body
    message extraction. These calls return the HTTP response itself, so a
    non-2xx answer arrives as a value rather than an exception. */
module BookingRepository {

  import opened Outcomes
  import opened Domain

  const ConnectionFailed: string := "Connection failed. Please check your internet"
  const UnexpectedError: string := "Unexpected error occurred"
  const GenericError: string := "An error occurred"

  /** `parseErrorMessage`: the error body's "message" field, else its
      "error" field, else a generic text. Never fails, whatever the body. */
  function ParseErrorMessage(body: Option<JsonBody>): (r: string)
    ensures FieldOf(body, "message").Some? ==> r == FieldOf(body, "message").value
    ensures FieldOf(body, "message").None? && FieldOf(body, "error").Some? ==> r == FieldOf(body, "error").value
    ensures FieldOf(body, "message").None? && FieldOf(body, "error").None? ==> r == GenericError
  {
    match body
    case None => GenericError
    case Some(Blank) => GenericError
    case Some(Malformed) => GenericError
    case Some(Fields(f)) =>
      if "message" in f then f["message"]
      else if "error" in f then f["error"]
      else GenericError
  }

  /** Bodies that are absent, empty, unparsable or lack both keys give the
      generic text. */
  lemma ParseErrorMessageFallback(body: Option<JsonBody>)
    ensures (body.None? || body.value.Blank? || body.value.Malformed?) ==> ParseErrorMessage(body) == GenericError
    ensures body.Some? && body.value.Fields? && "message" !in body.value.fields && "error" !in body.value.fields
            ==> ParseErrorMessage(body) == GenericError
  {
  }

  /** A 2xx answer: the data when the envelope says success and carries
      data, else the envelope's message, else the operation's default. */
  function UnwrapResponse<T>(body: Option<Envelope<T>>, default: string): (r: Resource<T>)
    ensures r.Success? <==> body.Some? && Carries(body.value)
    ensures r.Success? ==> r.data == body.value.data
    ensures r.Error? ==> r.message.Some?
    ensures body.None? ==> r == Error(Some(default))
  {
    if body.Some? && Carries(body.value) then Success(body.value.data)
    else if body.Some? then Error(Some(body.value.message.OrElse(default)))
    else Error(Some(default))
  }

  /** `createBooking`. */
  function CreateBooking(c: Call<Booking>): (r: Resource<Booking>)
    ensures c.Http? ==> r == Error(Some(ParseErrorMessage(c.errorBody)))
  {
    match c
    case Ok(body) => UnwrapResponse(body, "Failed to create booking")
    case Http(_, eb) => Error(Some(ParseErrorMessage(eb)))
    case IOErr => Error(Some(ConnectionFailed))
    case OtherErr(_) => Error(Some(UnexpectedError))
  }

  /** `getMyBookings`: a 2xx answer is always a success, with an empty
      list when the envelope does not deliver one. */
  function GetMyBookings(c: Call<seq<Booking>>): (r: Resource<seq<Booking>>)
    ensures r.Success? <==> c.Ok?
    ensures c.Ok? && !Delivered(c) ==> r == Success(Some([]))
    ensures c.Http? ==> r == Error(Some("Failed to load bookings"))
  {
    match c
    case Ok(body) => if Delivered(c) then Success(body.value.data) else Success(Some([]))
    case Http(_, _) => Error(Some("Failed to load bookings"))
    case IOErr => Error(Some(ConnectionFailed))
    case OtherErr(_) => Error(Some(UnexpectedError))
  }

  /** `getBookingDetail`. */
  function GetBookingDetail(c: Call<BookingDetail>): (r: Resource<BookingDetail>)
    ensures c.Http? ==> r == Error(Some(
      if c.code == 404 then "Booking not found"
      else if c.code == 403 then "You don't have access to this booking"
      else "Failed to load booking detail"))
  {
    match c
    case Ok(body) => UnwrapResponse(body, "Failed to load booking detail")
    case Http(code, _) =>
      if code == 404 then Error(Some("Booking not found"))
      else if code == 403 then Error(Some("You don't have access to this booking"))
      else Error(Some("Failed to load booking detail"))
    case IOErr => Error(Some(ConnectionFailed))
    case OtherErr(_) => Error(Some(UnexpectedError))
  }

  /** `payBooking`. A 400 answer carries the parsed error body's message;
      the parser never fails, so the source's fallback text for 400 is
      never produced. */
  function PayBooking(c: Call<BookingDetail>): (r: Resource<BookingDetail>)
    ensures c.Http? && c.code == 400 ==> r == Error(Some(ParseErrorMessage(c.errorBody)))
    ensures c.Http? && c.code != 400 ==> r == Error(Some(
      if c.code == 404 then "Booking not found"
      else if c.code == 403 then "You don't have access to this booking"
      else "Payment failed"))
  {
    match c
    case Ok(body) => UnwrapResponse(body, "Payment failed")
    case Http(code, eb) =>
      if code == 404 then Error(Some("Booking not found"))
      else if code == 400 then Error(Some(ParseErrorMessage(eb)))
      else if code == 403 then Error(Some("You don't have access to this booking"))
      else Error(Some("Payment failed"))
    case IOErr => Error(Some(ConnectionFailed))
    case OtherErr(_) => Error(Some(UnexpectedError))
  }

  /** `cancelBooking`. It takes no booking status: the client does not
      check one before cancelling. */
  function CancelBooking(c: Call<Booking>): (r: Resource<Booking>)
    ensures c.Http? ==> r == Error(Some(
      if c.code == 404 then "Booking not found"
      else if c.code == 400 then "Cannot cancel this booking"
      else "Failed to cancel booking"))
  {
    match c
    case Ok(body) => UnwrapResponse(body, "Failed to cancel booking")
    case Http(code, _) =>
      if code == 404 then Error(Some("Booking not found"))
      else if code == 400 then Error(Some("Cannot cancel this booking"))
      else Error(Some("Failed to cancel booking"))
    case IOErr => Error(Some(ConnectionFailed))
    case OtherErr(_) => Error(Some(UnexpectedError))
  }

  /** Create, detail, pay and cancel succeed exactly on a delivering 2xx
      envelope, and then hand over its data unchanged. */
  lemma SuccessIffDelivered(cb: Call<Booking>, cd: Call<BookingDetail>)
    ensures CreateBooking(cb).Success? <==> Delivered(cb)
    ensures CancelBooking(cb).Success? <==> Delivered(cb)
    ensures GetBookingDetail(cd).Success? <==> Delivered(cd)
    ensures PayBooking(cd).Success? <==> Delivered(cd)
    ensures Delivered(cb) ==> CreateBooking(cb).data == cb.body.value.data == CancelBooking(cb).data
    ensures Delivered(cd) ==> GetBookingDetail(cd).data == cd.body.value.data == PayBooking(cd).data
  {
  }

  /** Every failure of every booking operation carries a message, and
      transport failures and other exceptions get the same texts in all
      five. */
  lemma ErrorsCarryMessages(cb: Call<Booking>, cd: Call<BookingDetail>, cl: Call<seq<Booking>>)
    ensures CreateBooking(cb).Error? ==> CreateBooking(cb).message.Some?
    ensures CancelBooking(cb).Error? ==> CancelBooking(cb).message.Some?
    ensures GetBookingDetail(cd).Error? ==> GetBookingDetail(cd).message.Some?
    ensures PayBooking(cd).Error? ==> PayBooking(cd).message.Some?
    ensures GetMyBookings(cl).Error? ==> GetMyBookings(cl).message.Some?
    ensures cb.IOErr? ==> CreateBooking(cb) == CancelBooking(cb) == Error(Some(ConnectionFailed))
    ensures cd.IOErr? ==> GetBookingDetail(cd) == PayBooking(cd) == Error(Some(ConnectionFailed))
    ensures cl.IOErr? ==> GetMyBookings(cl) == Error(Some(ConnectionFailed))
    ensures cb.OtherErr? ==> CreateBooking(cb) == CancelBooking(cb) == Error(Some(UnexpectedError))
    ensures cd.OtherErr? ==> GetBookingDetail(cd) == PayBooking(cd) == Error(Some(UnexpectedError))
    ensures cl.OtherErr? ==> GetMyBookings(cl) == Error(Some(UnexpectedError))
  {
  }

  /** A 2xx envelope that does not deliver reports its own message when it
      has one. */
  lemma EnvelopeMessageWins(e: Envelope<Booking>)
    requires !Carries(e) && e.message.Some?
    ensures CreateBooking(Ok(Some(e))) == Error(e.message)
    ensures CancelBooking(Ok(Some(e))) == Error(e.message)
  {
  }
}

=== FILE: domain.dfy ===
/** The records the client exchanges with the backend. Money amounts
    (`BigDecimal`/`Double`/`Int` in the client) are integers in minor
    units here; identifiers (`Long`) are integers. */
module Domain {

  import opened Outcomes
  import opened EventCategories
  import opened EventTypes

  /** A ticket type offered for an event; `quantity` is how many are still
      available. */
  datatype Ticket = Ticket(ticketId: int, ticketName: string, price: int, quantity: int)

  /** One line of a booking request. */
  datatype TicketOrder = TicketOrder(ticketId: int, quantity: int)

  /** The body of the create-booking call. */
  datatype CreateBookingRequest = CreateBookingRequest(eventId: int, tickets: seq<TicketOrder>)

  datatype BookingItem = BookingItem(ticketId: int, ticketName: string, quantity: int, price: int, subtotal: int)

  /** A booking as listed on the "my bookings" screen. */
  datatype Booking = Booking(
    bookingId: int, eventTitle: string, items: seq<BookingItem>,
    totalPrice: int, status: string, createdAt: string)

  /** A booking as shown on the confirmation screen. */
  datatype BookingDetail = BookingDetail(
    bookingId: int, eventTitle: string, items: seq<BookingItem>,
    totalPrice: int, status: string, paidAt: Option<string>,
    qrCode: Option<string>, createdAt: string)

  /** An event in the home list. */
  datatype Event = Event(
    eventId: int, title: string, eventType: EventType, category: EventCategory,
    price: int, totalCapacity: int, remainingCapacity: int)

  /** The part of an event's detail page the booking flow uses. */
  datatype EventDetail = EventDetail(
    title: string, totalCapacity: int, remainingCapacity: int, tickets: seq<Ticket>)

  datatype UserProfile = UserProfile(
    firstName: string, lastName: string, userName: string,
    profilePicture: Option<string>, email: string, phoneNumber: string)

  /** The full replacement sent by the profile screen. */
  datatype UpdateUserRequest = UpdateUserRequest(
    firstName: string, lastName: string, userName: string, email: string, phoneNumber: string)

  /** A partial update: only non-null fields are changed. */
  datatype PatchUserRequest = PatchUserRequest(
    firstName: Option<string>, lastName: Option<string>, userName: Option<string>,
    email: Option<string>, phoneNumber: Option<string>, profilePicture: Option<string>)

  datatype RegisterRequest = RegisterRequest(
    firstName: string, lastName: string, userName: string, email: string,
    phoneNumber: string, password: string, confirmPassword: string)

  /** The user record returned by registration. */
  datatype UserResponse = UserResponse(
    userId: int, firstName: string, lastName: string, userName: string,
    email: string, phoneNumber: string, role: string, profilePicture: Option<string>)

  /** The sum of the item quantities of a booking. */
  function TicketCount(items: seq<BookingItem>): int
  {
    if items == [] then 0 else items[0].quantity + TicketCount(items[1..])
  }

  /** The count splits over concatenation. */
  lemma {:induction false} TicketCountAppend(a: seq<BookingItem>, b: seq<BookingItem>)
    ensures TicketCount(a + b) == TicketCount(a) + TicketCount(b)
  {
    if a == [] {
      assert a + b == b;
    } else {
      assert (a + b)[1..] == a[1..] + b;
      TicketCountAppend(a[1..], b);
    }
  }
}

=== FILE: event_categories.dfy ===
/** The event categories the backend knows, with their display labels, and
    the case-insensitive lookup by constant name. */
module EventCategories {

  import opened Outcomes
  import opened Text

  datatype EventCategory =
    | SPORTS | MUSIC | CONFERENCE | WORKSHOP | EXHIBITION
    | FESTIVALS | SEMINAR | ARTS_THEATRE | COMPETITION

  /** `values()`: every category, in declaration order. */
  const Values: seq<EventCategory> :=
    [SPORTS, MUSIC, CONFERENCE, WORKSHOP, EXHIBITION, FESTIVALS, SEMINAR, ARTS_THEATRE, COMPETITION]

  /** The constant's `name`, which is also its wire form. */
  function Name(c: EventCategory): string
  {
    match c
    case SPORTS => "SPORTS"
    case MUSIC => "MUSIC"
    case CONFERENCE => "CONFERENCE"
    case WORKSHOP => "WORKSHOP"
    case EXHIBITION => "EXHIBITION"
    case FESTIVALS => "FESTIVALS"
    case SEMINAR => "SEMINAR"
    case ARTS_THEATRE => "ARTS_THEATRE"
    case COMPETITION => "COMPETITION"
  }

  /** The label shown to users. */
  function DisplayValue(c: EventCategory): string
  {
    match c
    case SPORTS => "Sports"
    case MUSIC => "Music"
    case CONFERENCE => "Conference"
    case WORKSHOP => "Workshop"
    case EXHIBITION => "Exhibition"
    case FESTIVALS => "Festivals"
    case SEMINAR => "Seminar"
    case ARTS_THEATRE => "Arts & Theatre"
    case COMPETITION => "Competition"
  }

  /** The first category, from position `i` of `Values` on, whose name
      equals `value` up to case. */
  function FindFrom(value: string, i: nat): (r: Option<EventCategory>)
    requires i <= |Values|
    decreases |Values| - i
    ensures r.Some? ==> EqualsIgnoreCase(Name(r.value), value)
    ensures r.None? <==> forall k :: i <= k < |Values| ==> !EqualsIgnoreCase(Name(Values[k]), value)
  {
    if i == |Values| then None
    else if EqualsIgnoreCase(Name(Values[i]), value) then Some(Values[i])
    else FindFrom(value, i + 1)
  }

  /** `fromString`: the category whose constant name equals `value`
      ignoring case, or null. Display labels are not accepted. */
  function FromString(value: string): (r: Option<EventCategory>)
    ensures r.Some? ==> EqualsIgnoreCase(Name(r.value), value)
  {
    FindFrom(value, 0)
  }

  /** `valueOf`: the category whose constant name is exactly `name`; the
      source's `IllegalArgumentException` becomes `None`. */
  function ValueOf(name: string): (r: Option<EventCategory>)
    ensures r.Some? ==> Name(r.value) == name
    ensures r.None? ==> forall c :: Name(c) != name
  {
    if name == "SPORTS" then Some(SPORTS)
    else if name == "MUSIC" then Some(MUSIC)
    else if name == "CONFERENCE" then Some(CONFERENCE)
    else if name == "WORKSHOP" then Some(WORKSHOP)
    else if name == "EXHIBITION" then Some(EXHIBITION)
    else if name == "FESTIVALS" then Some(FESTIVALS)
    else if name == "SEMINAR" then Some(SEMINAR)
    else if name == "ARTS_THEATRE" then Some(ARTS_THEATRE)
    else if name == "COMPETITION" then Some(COMPETITION)
    else None
  }

  /** Kotlin's `ordinal`: the position of `c` in declaration order. */
  function Ordinal(c: EventCategory): (i: nat)
    ensures i < |Values| && Values[i] == c
  {
    match c
    case SPORTS => 0
    case MUSIC => 1
    case CONFERENCE => 2
    case WORKSHOP => 3
    case EXHIBITION => 4
    case FESTIVALS => 5
    case SEMINAR => 6
    case ARTS_THEATRE => 7
    case COMPETITION => 8
  }

  /** There are exactly nine categories and `Values` lists each once. */
  lemma ValuesComplete()
    ensures |Values| == 9
    ensures forall c :: c in Values
    ensures forall i, j :: 0 <= i < j < |Values| ==> Values[i] != Values[j]
  {
    forall c: EventCategory ensures c in Values {
      assert Values[Ordinal(c)] == c;
    }
  }

  /** No two categories have names that differ only in letter case. */
  lemma NamesDistinctIgnoringCase(c: EventCategory, d: EventCategory)
    ensures c != d ==> !EqualsIgnoreCase(Name(c), Name(d))
  {
    if c != d && |Name(c)| == |Name(d)| {
      assert LowerChar(Name(c)[0]) != LowerChar(Name(d)[0]);
    }
  }

  /** `fromString` finds a category exactly when its name matches. */
  lemma FromStringExact(value: string, c: EventCategory)
    ensures FromString(value) == Some(c) <==> EqualsIgnoreCase(Name(c), value)
  {
    ValuesComplete();
    var r := FromString(value);
    if EqualsIgnoreCase(Name(c), value) {
      var k :| 0 <= k < |Values| && Values[k] == c;
      assert r.Some?;
      assert EqualsIgnoreCase(Name(r.value), Name(c));
      NamesDistinctIgnoringCase(r.value, c);
    }
  }

  /** Round trip: every category is found again from its name. */
  lemma FromStringName(c: EventCategory)
    ensures FromString(Name(c)) == Some(c)
  {
    FromStringExact(Name(c), c);
  }

  /** The lookup ignores the case of its argument. */
  lemma FromStringIgnoresCase(v: string, w: string)
    requires EqualsIgnoreCase(v, w)
    ensures FromString(v) == FromString(w)
  {
    if FromString(v).Some? {
      FromStringExact(w, FromString(v).value);
    } else if FromString(w).Some? {
      FromStringExact(v, FromString(w).value);
    }
  }

  /** Every name is spelled like a constant name. */
  lemma NameIsConstantName(c: EventCategory)
    ensures IsConstantName(Name(c))
  {
  }

  /** Looking up the upper-cased string by exact name is the same as the
      case-insensitive lookup. */
  lemma ValueOfUpperIsFromString(v: string)
    ensures ValueOf(Upper(v)) == FromString(v)
  {
    var r := ValueOf(Upper(v));
    if r.Some? {
      NameIsConstantName(r.value);
      UpperMatchesConstantName(Name(r.value), v);
      FromStringExact(v, r.value);
    } else if FromString(v).Some? {
      var c := FromString(v).value;
      NameIsConstantName(c);
      UpperMatchesConstantName(Name(c), v);
    }
  }

  /** The label "Arts & Theatre" is longer than every name, so it finds
      nothing. */
  lemma FromStringArtsLabel()
    ensures FromString(DisplayValue(ARTS_THEATRE)) == None
  {
    var shown := DisplayValue(ARTS_THEATRE);
    assert |shown| == 14;
    forall c: EventCategory ensures !EqualsIgnoreCase(Name(c), shown) {
      assert |Name(c)| <= 12;
    }
    if FromString(shown).Some? {
      FromStringExact(shown, FromString(shown).value);
    }
  }

  /** A name written in lower case finds its category. */
  lemma FromStringLowerCase(c: EventCategory)
    ensures FromString(Lower(Name(c))) == Some(c)
  {
    var v := Lower(Name(c));
    forall k | 0 <= k < |v| ensures LowerChar(Name(c)[k]) == LowerChar(v[k]) {
      assert v[k] == LowerChar(Name(c)[k]);
    }
    FromStringExact(v, c);
  }
}

=== FILE: event_detail_screen.dfy ===
/** The event detail screen's booking flow: the view model's running
    totals, the Book Now button, the pre-submission checks that turn the
    selections into a booking request, the almost-sold-out banner, and the
    reaction to the create-booking result. */
module EventDetailScreen {

  import opened Outcomes
  import opened Text
  import opened Domain
  import opened TicketSelection

  // ---------------------------------------------------------------------
  // View model totals

  /** What the view model publishes: the last selection list it was given
      (null until the first change), the ticket count and the price. */
  datatype Totals = Totals(selectedTickets: Option<seq<Selection>>, totalTickets: int, totalPrice: int)

  /** The values before any selection has changed. */
  const InitialTotals: Totals := Totals(None, 0, 0)

  /** The price of the selections: each ticket's price times its quantity,
      summed exactly over integer prices. */
  function TotalPrice(s: seq<Selection>): int
  {
    if s == [] then 0
    else s[0].ticket.price * s[0].selectedQuantity + TotalPrice(s[1..])
  }

  /** `updateTicketSelections`: keeps the list and recomputes both totals. */
  function UpdateTicketSelections(selections: seq<Selection>): (r: Totals)
    ensures r.selectedTickets == Some(selections)
    ensures selections == [] ==> r.totalTickets == 0 && r.totalPrice == 0
  {
    Totals(Some(selections), Total(selections), TotalPrice(selections))
  }

  /** Changing one selection's quantity moves the price by that ticket's
      price times the change. */
  lemma {:induction false} TotalPriceUpdate(s: seq<Selection>, i: nat, q: int)
    requires i < |s|
    ensures TotalPrice(s[i := s[i].(selectedQuantity := q)]) ==
            TotalPrice(s) + s[i].ticket.price * (q - s[i].selectedQuantity)
    decreases i
  {
    var t := s[i := s[i].(selectedQuantity := q)];
    if i > 0 {
      assert t[1..] == s[1..][i - 1 := s[i].(selectedQuantity := q)];
      TotalPriceUpdate(s[1..], i - 1, q);
    } else {
      assert t[1..] == s[1..];
    }
  }

  /** A fresh selection list costs nothing. */
  lemma {:induction false} SubmitListCostsNothing(tickets: seq<Ticket>)
    ensures TotalPrice(SubmitList(tickets)) == 0
  {
    if tickets != [] {
      assert SubmitList(tickets)[1..] == SubmitList(tickets[1..]);
      SubmitListCostsNothing(tickets[1..]);
    }
  }

  // ---------------------------------------------------------------------
  // The screen: the adapter's rows and the view model's totals

  /** The ticket rows shown by the adapter and the totals the view model
      last computed. */
  datatype Screen = Screen(rows: seq<Selection>, totals: Totals)

  /** The screen right after the event's tickets are displayed. */
  function Open(tickets: seq<Ticket>): Screen
  {
    Screen(SubmitList(tickets), InitialTotals)
  }

  /** A click: the adapter updates its rows and, only when a row actually
      changed, hands the whole list to the view model. */
  function Click(sc: Screen, c: TicketSelection.Click): (r: Screen)
    ensures Apply(sc.rows, c) == sc.rows ==> r.totals == sc.totals
    ensures Apply(sc.rows, c) != sc.rows ==> r.totals.selectedTickets == Some(r.rows)
  {
    var rows := Apply(sc.rows, c);
    if rows == sc.rows then Screen(rows, sc.totals)
    else Screen(rows, UpdateTicketSelections(rows))
  }

  function ClickAll(sc: Screen, clicks: seq<TicketSelection.Click>): Screen
    decreases |clicks|
  {
    if clicks == [] then sc else ClickAll(Click(sc, clicks[0]), clicks[1..])
  }

  /** The view model agrees with the adapter: its totals are those of the
      rows on screen, and the list it holds, once it holds one, is the rows. */
  predicate InSync(sc: Screen)
  {
    && sc.totals.totalTickets == Total(sc.rows)
    && sc.totals.totalPrice == TotalPrice(sc.rows)
    && (sc.totals.selectedTickets.Some? ==> sc.totals.selectedTickets.value == sc.rows)
  }

  /** The view model never falls out of step with the adapter. */
  lemma {:induction false} ClickAllInSync(tickets: seq<Ticket>, clicks: seq<TicketSelection.Click>)
    ensures InSync(ClickAll(Open(tickets), clicks))
  {
    SubmitListValid(tickets);
    SubmitListCostsNothing(tickets);
    StaysInSync(Open(tickets), clicks);
  }

  lemma {:induction false} StaysInSync(sc: Screen, clicks: seq<TicketSelection.Click>)
    requires InSync(sc)
    ensures InSync(ClickAll(sc, clicks))
    decreases |clicks|
  {
    if clicks != [] {
      StaysInSync(Click(sc, clicks[0]), clicks[1..]);
    }
  }

  // ---------------------------------------------------------------------
  // Showing the event again

  /** The event shown again while the view model lives on, as after the
      activity is recreated: the detail observer submits the tickets
      afresh, which zeroes the rows, while the view model keeps the totals
      it computed before. */
  function Redisplay(sc: Screen, tickets: seq<Ticket>): (r: Screen)
    ensures Total(r.rows) == 0 && SelectedTickets(r.rows) == []
    ensures r.totals == sc.totals
  {
    SubmitListValid(tickets);
    SelectedTicketsEmpty(SubmitList(tickets));
    Screen(SubmitList(tickets), sc.totals)
  }

  /** As written, showing the event again loses step: the rows select
      nothing, yet Book Now still confirms the earlier orders. */
  lemma RedisplayDesyncs(sc: Screen, tickets: seq<Ticket>)
    requires InSync(sc) && HandleBookNow(sc.totals).ConfirmDialog?
    ensures var sc' := Redisplay(sc, tickets);
      && SelectedTickets(sc'.rows) == []
      && HandleBookNow(sc'.totals) == HandleBookNow(sc.totals)
      && HandleBookNow(sc'.totals).orders != []
      && !InSync(sc')
  {
    var sel := sc.totals.selectedTickets.OrElse([]);
    SelectedTicketsEmpty(sel);
    SelectedTicketsEmpty(SubmitList(tickets));
  }

  /** The corrected re-display: the fresh rows are also handed to the view
      model, as every click already does. */
  function RedisplayFixed(sc: Screen, tickets: seq<Ticket>): (r: Screen)
    ensures r.rows == Redisplay(sc, tickets).rows
    ensures r.totals.selectedTickets == Some(r.rows)
  {
    Screen(SubmitList(tickets), UpdateTicketSelections(SubmitList(tickets)))
  }

  /** With the correction, whatever the screen held before, showing the
      event again and clicking on keeps the view model in step with the
      rows, and Book Now refuses until a ticket is picked again. */
  lemma RedisplayFixedInSync(sc: Screen, tickets: seq<Ticket>, clicks: seq<TicketSelection.Click>)
    ensures InSync(ClickAll(RedisplayFixed(sc, tickets), clicks))
    ensures HandleBookNow(RedisplayFixed(sc, tickets).totals).NoTicketSelected?
  {
    SubmitListValid(tickets);
    SubmitListCostsNothing(tickets);
    SelectedTicketsEmpty(SubmitList(tickets));
    StaysInSync(RedisplayFixed(sc, tickets), clicks);
  }

  // ---------------------------------------------------------------------
  // Book Now

  datatype BookNowButton = BookNowButton(enabled: bool, text: string)

  /** The Book Now button for a ticket total: enabled only for a positive
      total, which its label then shows. */
  function BookNowButtonFor(total: int): (r: BookNowButton)
    ensures r.enabled <==> total > 0
    ensures !r.enabled ==> r.text == "Book Now"
    ensures r.enabled ==> exists digits :: r.text == "Book Now (" + digits + " tickets)" &&
                                           |digits| > 0 && IsNumeral(digits) && DigitsValue(digits) == total
  {
    if total > 0 then
      DecimalValue(total);
      BookNowButton(true, "Book Now (" + Decimal(total) + " tickets)")
    else BookNowButton(false, "Book Now")
  }

  /** What pressing Book Now leads to. */
  datatype BookNow =
    | NoTicketSelected
    | TooManyTickets
    | ConfirmDialog(orders: seq<TicketOrder>, totalTickets: int)

  /** The toast shown when booking is refused. */
  function RefusalMessage(b: BookNow): (r: Option<string>)
    ensures r.Some? <==> !b.ConfirmDialog?
  {
    match b
    case NoTicketSelected => Some("Please select at least one ticket")
    case TooManyTickets => Some("Maximum 10 tickets per booking")
    case ConfirmDialog(_, _) => None
  }

  /** `handleBookNow`: refuse when no selection is positive, then when more
      than ten tickets are counted; otherwise confirm the positive
      selections, in order, as orders. */
  function HandleBookNow(t: Totals): (r: BookNow)
    ensures var sel := t.selectedTickets.OrElse([]);
      && (r.NoTicketSelected? <==> forall i :: 0 <= i < |sel| ==> sel[i].selectedQuantity <= 0)
      && (r.TooManyTickets? <==> (exists i :: 0 <= i < |sel| && sel[i].selectedQuantity > 0) && t.totalTickets > MaxTotalTickets)
      && (r.ConfirmDialog? ==> r.totalTickets == t.totalTickets && r.totalTickets <= MaxTotalTickets)
      && (r.ConfirmDialog? ==> r.orders == SelectedTickets(sel))
  {
    var sel := t.selectedTickets.OrElse([]);
    var orders := SelectedTickets(sel);
    SelectedTicketsEmpty(sel);
    if orders == [] then NoTicketSelected
    else if t.totalTickets > 10 then TooManyTickets
    else ConfirmDialog(orders, t.totalTickets)
  }

  /** Confirmed orders are exactly the positive selections with their
      ticket ids and quantities. */
  lemma ConfirmedOrders(t: Totals, o: TicketOrder)
    requires HandleBookNow(t).ConfirmDialog?
    ensures var sel := t.selectedTickets.value;
      o in HandleBookNow(t).orders <==>
        exists i :: 0 <= i < |sel| && sel[i].selectedQuantity > 0 &&
                    o == TicketOrder(sel[i].ticket.ticketId, sel[i].selectedQuantity)
  {
    SelectedTicketsMembers(t.selectedTickets.OrElse([]), o);
  }

  /** The "Book" button of the dialog: the request for this event. */
  function ConfirmBooking(eventId: int, b: BookNow): (r: Option<CreateBookingRequest>)
    ensures r.Some? <==> b.ConfirmDialog?
    ensures r.Some? ==> r.value.eventId == eventId && r.value.tickets == b.orders
  {
    if b.ConfirmDialog? then Some(CreateBookingRequest(eventId, b.orders)) else None
  }

  /** Whenever the dialog appears for a screen reached by clicks, the
      request sums to the ticket count, which is between 1 and 10, and
      every order names one of the event's tickets and asks for no more
      than that ticket's availability. */
  lemma RequestWithinCap(tickets: seq<Ticket>, clicks: seq<TicketSelection.Click>, eventId: int)
    requires forall k :: 0 <= k < |tickets| ==> tickets[k].quantity >= 0
    requires HandleBookNow(ClickAll(Open(tickets), clicks).totals).ConfirmDialog?
    ensures var req := ConfirmBooking(eventId, HandleBookNow(ClickAll(Open(tickets), clicks).totals));
      req.Some? && 1 <= OrderedQuantity(req.value.tickets) <= MaxTotalTickets
    ensures var req := ConfirmBooking(eventId, HandleBookNow(ClickAll(Open(tickets), clicks).totals));
      req.Some? &&
      forall o :: o in req.value.tickets ==>
        exists k :: 0 <= k < |tickets| && tickets[k].ticketId == o.ticketId && o.quantity <= tickets[k].quantity
  {
    var sc := ClickAll(Open(tickets), clicks);
    ClickAllInSync(tickets, clicks);
    ClickAllRows(tickets, clicks);
    SelectionBounds(tickets, clicks);
    var sel := sc.totals.selectedTickets.value;
    SelectedTicketsTotal(sel);
    SelectedTicketsEmpty(sel);
    var i :| 0 <= i < |sel| && sel[i].selectedQuantity > 0;
    PositivePart(sel, i);
    forall o | o in HandleBookNow(sc.totals).orders
      ensures exists k :: 0 <= k < |tickets| && tickets[k].ticketId == o.ticketId && o.quantity <= tickets[k].quantity
    {
      SelectedTicketsMembers(sel, o);
      var j :| 0 <= j < |sel| && sel[j].selectedQuantity > 0 &&
               o == TicketOrder(sel[j].ticket.ticketId, sel[j].selectedQuantity);
      assert tickets[j].ticketId == o.ticketId && o.quantity <= tickets[j].quantity;
    }
  }

  /** The screen's rows are the adapter's rows after the same clicks. */
  lemma {:induction false} ClickAllRows(tickets: seq<Ticket>, clicks: seq<TicketSelection.Click>)
    ensures ClickAll(Open(tickets), clicks).rows == Run(SubmitList(tickets), clicks)
  {
    RowsFollowRun(Open(tickets), clicks);
  }

  lemma {:induction false} RowsFollowRun(sc: Screen, clicks: seq<TicketSelection.Click>)
    ensures ClickAll(sc, clicks).rows == Run(sc.rows, clicks)
    decreases |clicks|
  {
    if clicks != [] {
      RowsFollowRun(Click(sc, clicks[0]), clicks[1..]);
    }
  }

  /** With no negative quantity, one positive selection makes the total
      positive. */
  lemma {:induction false} PositivePart(s: seq<Selection>, i: nat)
    requires i < |s| && s[i].selectedQuantity > 0
    requires forall j :: 0 <= j < |s| ==> s[j].selectedQuantity >= 0
    ensures Total(s) >= s[i].selectedQuantity
    decreases i
  {
    NonNegativeTotal(s[1..]);
    if i > 0 {
      PositivePart(s[1..], i - 1);
    }
  }

  lemma {:induction false} NonNegativeTotal(s: seq<Selection>)
    requires forall j :: 0 <= j < |s| ==> s[j].selectedQuantity >= 0
    ensures Total(s) >= 0
  {
    if s != [] {
      NonNegativeTotal(s[1..]);
    }
  }

  // ---------------------------------------------------------------------
  // Almost-sold-out banner

  /** The banner condition as the source computes it, with exact rather
      than floating-point arithmetic: the remaining share is at most ten
      percent and something remains. */
  predicate WarningByPercentage(remaining: int, total: int)
    requires total != 0
  {
    (remaining as real / total as real) * 100.0 <= 10.0 && remaining > 0
  }

  /** `showWarningIfNeeded`: the banner text, or nothing. Never shown for a
      zero capacity; otherwise shown iff something remains and ten times
      the remainder is at most the capacity (for a positive capacity). */
  function Warning(remaining: int, total: int): (r: Option<string>)
    ensures total == 0 ==> r.None?
    ensures total > 0 ==> (r.Some? <==> 0 < remaining && remaining * 10 <= total)
    ensures r.Some? ==> remaining > 0 && r.value == "Almost sold out! Only " + Decimal(remaining) + " spots remaining."
  {
    if total == 0 then None
    else if remaining > 0 && (if total > 0 then remaining * 10 <= total else remaining * 10 >= total)
    then Some("Almost sold out! Only " + Decimal(remaining) + " spots remaining.")
    else None
  }

  /** The integer test agrees with the percentage for every capacity,
      including negative ones. */
  lemma WarningMatchesPercentage(remaining: int, total: int)
    requires total != 0
    ensures Warning(remaining, total).Some? <==> WarningByPercentage(remaining, total)
  {
    var x := remaining as real;
    var t := total as real;
    assert x / t * 100.0 <= 10.0 <==> x / t <= 0.1;
    if total > 0 {
      QuotientAtMost(x, t, 0.1);
    } else {
      QuotientAtMostNegative(x, t, 0.1);
    }
  }

  /** Dividing by a positive number keeps the direction of a bound. */
  lemma QuotientAtMost(x: real, t: real, y: real)
    requires t > 0.0
    ensures x / t <= y <==> x <= y * t
  {
    assert x / t * t == x;
  }

  /** Dividing by a negative number turns a bound around. */
  lemma QuotientAtMostNegative(x: real, t: real, y: real)
    requires t < 0.0
    ensures x / t <= y <==> x >= y * t
  {
    assert x / t * t == x;
  }

  // ---------------------------------------------------------------------
  // Create-booking result

  datatype BookingReaction = ShowBookingLoading | GoToMyBookings | BookingFailedDialog(message: string)

  /** The create-booking observer: on success, go to the bookings tab
      whatever the payload; on error, show the message or a default. */
  function OnCreateBooking<T>(res: Resource<T>): (r: BookingReaction)
    ensures r.GoToMyBookings? <==> res.Success?
    ensures res.Error? ==> r == BookingFailedDialog(res.message.OrElse("Failed to create booking"))
  {
    match res
    case Loading => ShowBookingLoading
    case Success(_) => GoToMyBookings
    case Error(m) => BookingFailedDialog(m.OrElse("Failed to create booking"))
  }
}

=== FILE: event_list.dfy ===
/** The home screen's view model: the cached list of bookable events, the
    list on show, and how a full load, a category load, a local category
    filter and a search update them. Each fetching operation is modelled
    as one step from the state before it to the state once the repository
    has answered; the repository's answer is a parameter. */
module EventList {

  import opened Outcomes
  import opened Text
  import opened Domain
  import opened EventCategories

  /** The two published values, `events` (the cache of bookable events)
      and `filteredEvents` (what the list shows); `None` until something
      has been published. */
  datatype Lists = Lists(events: Option<Resource<seq<Event>>>, filtered: Option<Resource<seq<Event>>>)

  /** Nothing published yet. */
  const Initial: Lists := Lists(None, None)

  const NoEvents: string := "No events available"
  const NoneInCategory: string := "No events found in this category"
  const NoneMatching: string := "No events found matching your search"
  const LoadFailed: string := "Failed to load events. Please try again."
  const SearchFailed: string := "Failed to search events."

  // ---------------------------------------------------------------------
  // Filtering

  /** Which events a filter keeps: those with seats left, or those with
      seats left in a category (`None` is a name that is no category, and
      matches no event). */
  datatype Keep = HasSeats | SeatsIn(category: Option<EventCategory>)

  predicate Kept(k: Keep, e: Event)
  {
    match k
    case HasSeats => e.remainingCapacity > 0
    case SeatsIn(c) => c == Some(e.category) && e.remainingCapacity > 0
  }

  /** Kotlin's `filter`: the kept events, in their original order. */
  function Filter(s: seq<Event>, k: Keep): (r: seq<Event>)
    ensures |r| <= |s|
    ensures forall e :: e in r <==> e in s && Kept(k, e)
  {
    if s == [] then []
    else if Kept(k, s[0]) then [s[0]] + Filter(s[1..], k)
    else Filter(s[1..], k)
  }

  /** The events a fetched list is reduced to: sold-out ones dropped. */
  function Available(s: seq<Event>): (r: seq<Event>)
    ensures forall e :: e in r ==> e.remainingCapacity > 0
  {
    Filter(s, HasSeats)
  }

  /** `r` is `s` with some elements left out and the rest in order. */
  predicate IsSubsequence(r: seq<Event>, s: seq<Event>)
    decreases |s|
  {
    if r == [] then true
    else if s == [] then false
    else (r[0] == s[0] && IsSubsequence(r[1..], s[1..])) || IsSubsequence(r, s[1..])
  }

  /** Filtering keeps the original order. */
  lemma {:induction false} FilterKeepsOrder(s: seq<Event>, k: Keep)
    ensures IsSubsequence(Filter(s, k), s)
  {
    if s != [] {
      FilterKeepsOrder(s[1..], k);
      var r := Filter(s, k);
      if Kept(k, s[0]) {
        assert r[0] == s[0] && r[1..] == Filter(s[1..], k);
      }
    }
  }

  /** Filtering a concatenation filters each part. */
  lemma {:induction false} FilterAppend(a: seq<Event>, b: seq<Event>, k: Keep)
    ensures Filter(a + b, k) == Filter(a, k) + Filter(b, k)
  {
    if a == [] {
      assert a + b == b;
    } else {
      var ab := a + b;
      assert ab[0] == a[0] && ab[1..] == a[1..] + b;
      FilterAppend(a[1..], b, k);
      var head: seq<Event> := if Kept(k, a[0]) then [a[0]] else [];
      assert Filter(ab, k) == head + Filter(ab[1..], k);
      assert Filter(a, k) == head + Filter(a[1..], k);
      assert head + (Filter(a[1..], k) + Filter(b, k)) == (head + Filter(a[1..], k)) + Filter(b, k);
    }
  }

  /** A list whose every event is kept passes unchanged. */
  lemma {:induction false} FilterKeepsAll(s: seq<Event>, k: Keep)
    requires forall e :: e in s ==> Kept(k, e)
    ensures Filter(s, k) == s
  {
    if s != [] {
      assert s[0] in s;
      assert forall e :: e in s[1..] ==> e in s;
      FilterKeepsAll(s[1..], k);
      assert [s[0]] + s[1..] == s;
    }
  }

  /** Filtering twice is filtering once. */
  lemma FilterIdempotent(s: seq<Event>, k: Keep)
    ensures Filter(Filter(s, k), k) == Filter(s, k)
  {
    FilterKeepsAll(Filter(s, k), k);
  }

  /** Keeping one category's events with seats after dropping sold-out
      events is the same as keeping them from the start. */
  lemma {:induction false} CategoryAfterSeats(s: seq<Event>, c: Option<EventCategory>)
    ensures Filter(Available(s), SeatsIn(c)) == Filter(s, SeatsIn(c))
  {
    if s != [] {
      CategoryAfterSeats(s[1..], c);
      if s[0].remainingCapacity > 0 {
        assert Available(s) == [s[0]] + Available(s[1..]);
        assert Available(s)[0] == s[0] && Available(s)[1..] == Available(s[1..]);
      }
    }
  }

  /** A filter for a name that is no category finds nothing. */
  lemma NoCategoryKeepsNothing(s: seq<Event>)
    ensures Filter(s, SeatsIn(None)) == []
  {
  }

  // ---------------------------------------------------------------------
  // The repository calls the operations make

  /** The repository call an operation makes: `getAllEvents`,
      `getEventsByCategory(category)` or `searchEvents(keyword)`. */
  datatype Request = AllEvents | EventsIn(category: string) | Matching(keyword: string)

  /** Kotlin's `category.equals("ALL", ignoreCase = true)`. */
  predicate IsAll(category: string)
  {
    EqualsIgnoreCase(category, "ALL")
  }

  /** The call `loadEventsByCategory` makes: all events for "ALL" in any
      letter case, otherwise the upper-cased category. */
  function CategoryRequest(category: string): (q: Request)
    ensures q == AllEvents <==> IsAll(category)
    ensures !IsAll(category) ==> q == EventsIn(Upper(category))
  {
    if IsAll(category) then AllEvents else EventsIn(Upper(category))
  }

  /** A category named in any letter case is asked for by its exact
      constant name. */
  lemma CategoryRequestByName(category: string, c: EventCategory)
    requires EqualsIgnoreCase(Name(c), category)
    ensures CategoryRequest(category) == EventsIn(Name(c))
  {
    assert |Name(c)| >= 5;
    NameIsConstantName(c);
    UpperMatchesConstantName(Name(c), category);
  }

  /** The call `searchEvents` makes: a blank keyword falls back to all
      events; otherwise the trimmed keyword is sent, and it is never blank,
      so the repository never refuses it. */
  function SearchRequest(keyword: string): (q: Request)
    ensures q == AllEvents <==> IsBlank(keyword)
    ensures !IsBlank(keyword) ==> q == Matching(Trim(keyword)) && !IsBlank(q.keyword)
  {
    TrimEmptyIffBlank(keyword);
    TrimEmptyIffBlank(Trim(keyword));
    TrimIdempotent(keyword);
    if IsBlank(keyword) then AllEvents else Matching(Trim(keyword))
  }

  // ---------------------------------------------------------------------
  // Operations

  /** The list shown for fetched events: the bookable ones, or `empty` as
      an error when none is left. */
  function Show(avail: seq<Event>, empty: string): Resource<seq<Event>>
  {
    if avail == [] then Error(Some(empty)) else Success(Some(avail))
  }

  /** How the shown list reacts to the repository's answer: bookable
      events, `empty` when none, the repository's message (or `failed`)
      on error, and loading while loading. */
  function Outcome(result: Resource<seq<Event>>, empty: string, failed: string): Resource<seq<Event>>
  {
    match result
    case Success(d) => Show(Available(d.OrElse([])), empty)
    case Error(m) => Error(Some(m.OrElse(failed)))
    case Loading => Loading
  }

  /** `loadAllEvents`, once `getAllEvents` has answered `result`: the
      cache receives the bookable events, or the error itself. */
  function LoadAll(st: Lists, result: Resource<seq<Event>>): (r: Lists)
    ensures r.filtered == Some(Outcome(result, NoEvents, LoadFailed))
    ensures result.Success? ==> r.events == Some(Success(Some(Available(result.data.OrElse([])))))
    ensures result.Error? ==> r.events == Some(result)
    ensures result.Loading? ==> r.events == st.events
  {
    match result
    case Success(d) =>
      Lists(Some(Success(Some(Available(d.OrElse([]))))), Some(Show(Available(d.OrElse([])), NoEvents)))
    case Error(m) => Lists(Some(result), Some(Error(Some(m.OrElse(LoadFailed)))))
    case Loading => st.(filtered := Some(Loading))
  }

  /** `loadEventsByCategory`, once the call `CategoryRequest(category)`
      has answered `result`: only the shown list changes, and its empty
      message depends on whether all events were asked for. */
  function ByCategory(st: Lists, category: string, result: Resource<seq<Event>>): (r: Lists)
    ensures r.events == st.events
  {
    st.(filtered := Some(Outcome(result, if IsAll(category) then NoEvents else NoneInCategory, LoadFailed)))
  }

  /** `filterEventsLocally`: nothing happens unless the cache holds a
      successful list; "ALL" shows the cached list, any other name the
      cached events of the category it names (none for a name that is no
      category). An empty or null outcome shows "No events available". */
  function FilterLocally(st: Lists, category: string): (r: Lists)
    ensures r.events == st.events
  {
    match st.events
    case Some(Success(data)) =>
      var shown: Option<seq<Event>> :=
        if IsAll(category) then data
        else match data
          case Some(d) => Some(Filter(d, SeatsIn(ValueOf(Upper(category)))))
          case None => None;
      st.(filtered := Some(if shown.None? || shown.value == [] then Error(Some(NoEvents)) else Success(shown)))
    case _ => st
  }

  /** `searchEvents`, once the call `SearchRequest(keyword)` has answered
      `result`. */
  function Search(st: Lists, keyword: string, result: Resource<seq<Event>>): (r: Lists)
    ensures IsBlank(keyword) ==> r == LoadAll(st, result)
    ensures !IsBlank(keyword) ==> r.events == st.events &&
                                  r.filtered == Some(Outcome(result, NoneMatching, SearchFailed))
  {
    if IsBlank(keyword) then LoadAll(st, result)
    else st.(filtered := Some(Outcome(result, NoneMatching, SearchFailed)))
  }

  // ---------------------------------------------------------------------
  // Properties

  /** Every published successful list holds only events with seats left,
      and a successful shown list is never empty. */
  predicate SeatsOnly(st: Lists)
  {
    (st.events.Some? && st.events.value.Success? && st.events.value.data.Some? ==>
       forall e :: e in st.events.value.data.value ==> e.remainingCapacity > 0)
    && (st.filtered.Some? && st.filtered.value.Success? ==>
       st.filtered.value.data.Some? && st.filtered.value.data.value != [] &&
       forall e :: e in st.filtered.value.data.value ==> e.remainingCapacity > 0)
  }

  /** Every operation keeps sold-out events off every published list and
      never shows an empty success, starting from nothing published. */
  lemma OperationsKeepSeatsOnly(st: Lists, category: string, keyword: string, result: Resource<seq<Event>>)
    requires SeatsOnly(st)
    ensures SeatsOnly(Initial)
    ensures SeatsOnly(LoadAll(st, result))
    ensures SeatsOnly(ByCategory(st, category, result))
    ensures SeatsOnly(FilterLocally(st, category))
    ensures SeatsOnly(Search(st, keyword, result))
  {
  }

  /** A fetched list is shown as its bookable events in their original
      order; when none is bookable, each operation names its own empty
      case. */
  lemma FetchedListShown(st: Lists, category: string, keyword: string, d: Option<seq<Event>>)
    requires !IsBlank(keyword)
    ensures var avail := Available(d.OrElse([]));
      && IsSubsequence(avail, d.OrElse([]))
      && (avail != [] ==>
            && LoadAll(st, Success(d)).filtered == Some(Success(Some(avail)))
            && ByCategory(st, category, Success(d)).filtered == Some(Success(Some(avail)))
            && Search(st, keyword, Success(d)).filtered == Some(Success(Some(avail))))
      && (avail == [] ==>
            && LoadAll(st, Success(d)).filtered == Some(Error(Some(NoEvents)))
            && ByCategory(st, category, Success(d)).filtered ==
                 Some(Error(Some(if IsAll(category) then NoEvents else NoneInCategory)))
            && Search(st, keyword, Success(d)).filtered == Some(Error(Some(NoneMatching))))
  {
    FilterKeepsOrder(d.OrElse([]), HasSeats);
  }

  /** An upstream error's message is passed on, or the operation's default
      when it is null; only a full load records the error in the cache. */
  lemma ErrorsForwarded(st: Lists, category: string, keyword: string, m: Option<string>)
    requires !IsBlank(keyword)
    ensures LoadAll(st, Error(m)) == Lists(Some(Error(m)), Some(Error(Some(m.OrElse(LoadFailed)))))
    ensures ByCategory(st, category, Error(m)) == st.(filtered := Some(Error(Some(m.OrElse(LoadFailed)))))
    ensures Search(st, keyword, Error(m)) == st.(filtered := Some(Error(Some(m.OrElse(SearchFailed)))))
    ensures m.Some? ==> Search(st, keyword, Error(m)).filtered == Some(Error(m))
  {
  }

  /** Asking for "ALL" by category shows what a full load shows, but
      leaves the cache alone. */
  lemma AllCategoryIsLoadAll(st: Lists, category: string, result: Resource<seq<Event>>)
    requires IsAll(category)
    ensures CategoryRequest(category) == AllEvents
    ensures ByCategory(st, category, result).filtered == LoadAll(st, result).filtered
    ensures ByCategory(st, category, result).events == st.events
  {
  }

  /** A blank search is a full load. */
  lemma BlankSearchIsLoadAll(st: Lists, keyword: string, result: Resource<seq<Event>>)
    requires IsBlank(keyword)
    ensures SearchRequest(keyword) == AllEvents
    ensures Search(st, keyword, result) == LoadAll(st, result)
  {
  }

  /** Local filtering needs a successful cache and otherwise does nothing. */
  lemma LocalFilterNeedsCache(st: Lists, category: string)
    requires !(st.events.Some? && st.events.value.Success?)
    ensures FilterLocally(st, category) == st
  {
  }

  /** After a successful full load, filtering "ALL" locally shows the same
      list again. */
  lemma LocalAllAfterLoad(st: Lists, category: string, d: Option<seq<Event>>)
    requires IsAll(category)
    ensures FilterLocally(LoadAll(st, Success(d)), category) == LoadAll(st, Success(d))
  {
  }

  /** After a successful full load of `d`, filtering locally by a
      category's name in any letter case shows exactly the events of `d`
      in that category with seats left, in their original order, or "No
      events available" when there are none. */
  lemma LocalCategoryAfterLoad(st: Lists, category: string, c: EventCategory, d: seq<Event>)
    requires EqualsIgnoreCase(Name(c), category)
    ensures var shown := Filter(d, SeatsIn(Some(c)));
      && (forall e :: e in shown <==> e in d && e.category == c && e.remainingCapacity > 0)
      && IsSubsequence(shown, d)
      && FilterLocally(LoadAll(st, Success(Some(d))), category).filtered ==
           Some(if shown == [] then Error(Some(NoEvents)) else Success(Some(shown)))
  {
    var st' := LoadAll(st, Success(Some(d)));
    assert st'.events == Some(Success(Some(Available(d))));
    LocalNamedCategory(st', category, c, Available(d));
    CategoryAfterSeats(d, Some(c));
    FilterKeepsOrder(d, SeatsIn(Some(c)));
  }

  /** With a cached list `x`, filtering locally by a category's name in
      any letter case shows that category's events of `x` with seats. */
  lemma LocalNamedCategory(st: Lists, category: string, c: EventCategory, x: seq<Event>)
    requires EqualsIgnoreCase(Name(c), category)
    requires st.events == Some(Success(Some(x)))
    ensures FilterLocally(st, category).filtered == Some(Show(Filter(x, SeatsIn(Some(c))), NoEvents))
  {
    NamedCategoryFound(category, c);
  }

  /** A category's name in any letter case is not "ALL", and `valueOf`
      on its upper-cased form finds that category. */
  lemma NamedCategoryFound(category: string, c: EventCategory)
    requires EqualsIgnoreCase(Name(c), category)
    ensures !IsAll(category) && ValueOf(Upper(category)) == Some(c)
  {
    CategoryRequestByName(category, c);
    ValueOfUpperIsFromString(category);
    FromStringExact(category, c);
  }

  /** A name that is neither "ALL" nor a category shows "No events
      available" whatever the cache holds, as long as it is a success. */
  lemma LocalUnknownCategory(st: Lists, category: string)
    requires st.events.Some? && st.events.value.Success?
    requires !IsAll(category) && FromString(category).None?
    ensures FilterLocally(st, category).filtered == Some(Error(Some(NoEvents)))
  {
    ValueOfUpperIsFromString(category);
    if st.events.value.data.Some? {
      NoCategoryKeepsNothing(st.events.value.data.value);
    }
  }
}

=== FILE: event_repository.dfy ===
/** How the event calls' outcomes become `Resource`s. These calls return
    the envelope directly, so a non-2xx answer arrives as an
    `HttpException`. */
module EventRepository {

  import opened Outcomes
  import opened Text
  import opened Domain

  /** `getAllEvents`. */
  function GetAllEvents(f: Fetch<seq<Event>>): (r: Resource<seq<Event>>)
    ensures f.HttpFailure? ==> r == Error(Some(
      if f.code == 404 then "No events available"
      else if f.code == 500 then "Server error. Please try again later"
      else "Failed to load events. Please try again."))
    ensures f.IOFailure? ==> r == Error(Some("Connection failed. Please check your internet."))
    ensures f.Thrown? ==> r == Error(Some(f.message.OrElse("Unknown error occurred")))
  {
    match f
    case Body(e) => Unwrap(e)
    case HttpFailure(code, _) =>
      if code == 404 then Error(Some("No events available"))
      else if code == 500 then Error(Some("Server error. Please try again later"))
      else Error(Some("Failed to load events. Please try again."))
    case IOFailure => Error(Some("Connection failed. Please check your internet."))
    case Thrown(m) => Error(Some(m.OrElse("Unknown error occurred")))
  }

  /** `getEventsByCategory`. */
  function GetEventsByCategory(f: Fetch<seq<Event>>): (r: Resource<seq<Event>>)
    ensures f.HttpFailure? ==> r == Error(Some(
      if f.code == 404 then "No events found in this category" else "Failed to load events."))
    ensures f.IOFailure? ==> r == Error(Some("Connection failed."))
    ensures f.Thrown? ==> r == Error(Some(f.message.OrElse("Unknown error")))
  {
    match f
    case Body(e) => Unwrap(e)
    case HttpFailure(code, _) =>
      if code == 404 then Error(Some("No events found in this category"))
      else Error(Some("Failed to load events."))
    case IOFailure => Error(Some("Connection failed."))
    case Thrown(m) => Error(Some(m.OrElse("Unknown error")))
  }

  /** `getEventDetail`: a body that does not deliver reads as "Event not
      found", whatever its own message. */
  function GetEventDetail(f: Fetch<EventDetail>): (r: Resource<EventDetail>)
    ensures f.Body? && !Carries(f.envelope) ==> r == Error(Some("Event not found"))
    ensures f.HttpFailure? ==> r == Error(Some(
      if f.code == 404 then "Event not found" else "Failed to load event detail."))
    ensures f.IOFailure? ==> r == Error(Some("Connection failed."))
    ensures f.Thrown? ==> r == Error(Some(f.message.OrElse("Unknown error")))
  {
    match f
    case Body(e) => if Carries(e) then Success(e.data) else Error(Some("Event not found"))
    case HttpFailure(code, _) =>
      if code == 404 then Error(Some("Event not found"))
      else Error(Some("Failed to load event detail."))
    case IOFailure => Error(Some("Connection failed."))
    case Thrown(m) => Error(Some(m.OrElse("Unknown error")))
  }

  /** `searchEvents`: a blank keyword is refused before any call is made,
      so `f` (what the call would have returned) is then irrelevant. */
  function SearchEvents(keyword: string, f: Fetch<seq<Event>>): (r: Resource<seq<Event>>)
    ensures IsBlank(keyword) ==> r == Error(Some("Search keyword cannot be empty"))
    ensures !IsBlank(keyword) && f.HttpFailure? ==> r == Error(Some(
      if f.code == 404 then "No events found matching your search" else "Failed to search events."))
    ensures !IsBlank(keyword) && f.IOFailure? ==> r == Error(Some("Connection failed."))
    ensures !IsBlank(keyword) && f.Thrown? ==> r == Error(Some(f.message.OrElse("Unknown error")))
  {
    if IsBlank(keyword) then Error(Some("Search keyword cannot be empty"))
    else match f
      case Body(e) => Unwrap(e)
      case HttpFailure(code, _) =>
        if code == 404 then Error(Some("No events found matching your search"))
        else Error(Some("Failed to search events."))
      case IOFailure => Error(Some("Connection failed."))
      case Thrown(m) => Error(Some(m.OrElse("Unknown error")))
  }

  /** Every event operation succeeds exactly when the call returned an
      envelope that says success and carries data, and then hands over
      that data; for search this needs a non-blank keyword. */
  lemma SuccessIffCarried(f: Fetch<seq<Event>>, g: Fetch<EventDetail>, keyword: string)
    ensures GetAllEvents(f).Success? <==> f.Body? && Carries(f.envelope)
    ensures GetEventsByCategory(f).Success? <==> f.Body? && Carries(f.envelope)
    ensures GetEventDetail(g).Success? <==> g.Body? && Carries(g.envelope)
    ensures SearchEvents(keyword, f).Success? <==> !IsBlank(keyword) && f.Body? && Carries(f.envelope)
    ensures GetAllEvents(f).Success? ==> GetAllEvents(f).data == f.envelope.data
  {
  }

  /** A blank keyword gives the same answer whatever the server would have
      said. */
  lemma BlankSearchIndependentOfCall(keyword: string, f: Fetch<seq<Event>>, g: Fetch<seq<Event>>)
    requires IsBlank(keyword)
    ensures SearchEvents(keyword, f) == SearchEvents(keyword, g)
  {
  }
}

=== FILE: event_types.dfy ===
/** Whether an event takes place online or at a venue, with the
    case-insensitive lookup by constant name. */
module EventTypes {

  import opened Outcomes
  import opened Text

  datatype EventType = ONLINE | OFFLINE

  /** The constant's `name`, which is also its wire form. */
  function Name(t: EventType): string
  {
    match t
    case ONLINE => "ONLINE"
    case OFFLINE => "OFFLINE"
  }

  /** `fromString`: the first of `values()` (ONLINE, then OFFLINE) whose
      name equals `value` ignoring case, or null. */
  function FromString(value: string): (r: Option<EventType>)
    ensures r.Some? ==> EqualsIgnoreCase(Name(r.value), value)
  {
    if EqualsIgnoreCase("ONLINE", value) then Some(ONLINE)
    else if EqualsIgnoreCase("OFFLINE", value) then Some(OFFLINE)
    else None
  }

  /** The lookup finds a type exactly when the string is that type's name
      up to letter case. */
  lemma FromStringExact(value: string, t: EventType)
    ensures FromString(value) == Some(t) <==> EqualsIgnoreCase(Name(t), value)
  {
    if t == OFFLINE && EqualsIgnoreCase(Name(t), value) {
      assert !EqualsIgnoreCase("ONLINE", value) by {
        assert |value| == 7;
      }
    }
  }

  /** `fromString(t.name) == t`. */
  lemma FromStringName(t: EventType)
    ensures FromString(Name(t)) == Some(t)
  {
    FromStringExact(Name(t), t);
  }

  /** A name written in lower case finds its type. */
  lemma FromStringLowerCase(t: EventType)
    ensures FromString(Lower(Name(t))) == Some(t)
  {
    var v := Lower(Name(t));
    forall k | 0 <= k < |v| ensures LowerChar(Name(t)[k]) == LowerChar(v[k]) {
      assert v[k] == LowerChar(Name(t)[k]);
    }
    FromStringExact(v, t);
  }

  /** A string that names no type finds nothing. */
  lemma FromStringNone(value: string)
    ensures FromString(value) == None <==> forall t :: !EqualsIgnoreCase(Name(t), value)
  {
    if FromString(value) == None {
      forall t ensures !EqualsIgnoreCase(Name(t), value) {
        FromStringExact(value, t);
      }
    }
  }
}

=== FILE: form_checks.dfy ===
/** What the sign-up, sign-in and profile forms share: the outcome of one
    field check, and the regular expressions they test passwords and phone
    numbers with. Android's e-mail pattern is not modelled; the forms take
    it as a parameter. */
module FormChecks {

  import opened Text

  /** The outcome of one field check: no error, or the error text the field
      shows. */
  datatype Verdict = Accept | Reject(error: string)

  /** A transient message: none, a snackbar, or a toast. */
  datatype Notice = Quiet | Snackbar(text: string) | Toast(text: string)

  /** The characters Java's `.` does not match: the line terminators. */
  predicate IsLineTerminator(c: char)
  {
    c == '\n' || c == '\r' || c == '\U{85}' || c == '\U{2028}' || c == '\U{2029}'
  }

  predicate IsAsciiLetter(c: char)
  {
    'A' <= c <= 'Z' || 'a' <= c <= 'z'
  }

  /** `s.matches(Regex(".*[A-Za-z].*"))`: the whole string must be matched,
      and `.` stops at line terminators, so this asks for an ASCII letter in
      a string with no line terminator. */
  predicate HasLetter(s: string)
  {
    (forall i :: 0 <= i < |s| ==> !IsLineTerminator(s[i])) &&
    exists i :: 0 <= i < |s| && IsAsciiLetter(s[i])
  }

  /** `s.matches(Regex(".*[0-9].*"))`, read the same way. */
  predicate HasNumber(s: string)
  {
    (forall i :: 0 <= i < |s| ==> !IsLineTerminator(s[i])) &&
    exists i :: 0 <= i < |s| && IsDigit(s[i])
  }

  /** `s.matches(Regex("^[0-9]+$"))`: one or more ASCII digits and nothing
      else. */
  predicate DigitsOnly(s: string)
  {
    |s| > 0 && IsNumeral(s)
  }

  /** A password with a line break matches neither pattern, whatever its
      letters and digits. */
  lemma LineBreakFailsPatterns(s: string, i: nat)
    requires i < |s| && s[i] == '\n'
    ensures !HasLetter(s) && !HasNumber(s)
  {
    assert IsLineTerminator(s[i]);
  }
}

=== FILE: login_form.dfy ===
/** The sign-in screen: its two field checks (same rules as sign-up, other
    texts and another order for the e-mail), the whole-form check on
    trimmed input, how a server error is placed, and what a successful
    answer does to the session. */
module LoginForm {

  import opened Outcomes
  import opened Text
  import opened FormChecks
  import opened AuthRepository
  import opened Session
  import RegisterForm

  const FillOut: string := "Please fill out this field"

  /** The "@" is tested before the pattern. */
  function ValidateEmail(email: string, matchesEmail: string -> bool): (r: Verdict)
    ensures r == Accept <==> email != [] && '@' in email && matchesEmail(email)
    ensures r == Reject(FillOut) <==> email == []
    ensures r == Reject("Email must contain @") <==> email != [] && '@' !in email
    ensures r == Reject("Please enter a valid email address") <==> '@' in email && !matchesEmail(email)
  {
    if email == [] then Reject(FillOut)
    else if '@' !in email then Reject("Email must contain @")
    else if !matchesEmail(email) then Reject("Please enter a valid email address")
    else Accept
  }

  function ValidatePassword(password: string): (r: Verdict)
    ensures r == Accept <==> |password| >= 8 && HasLetter(password) && HasNumber(password)
    ensures r == Reject(FillOut) <==> password == []
    ensures r == Reject("Password must be at least 8 characters") <==> 0 < |password| < 8
    ensures r == Reject("Password must contain both letters and numbers") <==>
              |password| >= 8 && !(HasLetter(password) && HasNumber(password))
  {
    if password == [] then Reject(FillOut)
    else if |password| < 8 then Reject("Password must be at least 8 characters")
    else if !HasLetter(password) || !HasNumber(password) then Reject("Password must contain both letters and numbers")
    else Accept
  }

  /** Both screens accept the same e-mails and passwords. */
  lemma SameRulesAsSignUp(email: string, password: string, matchesEmail: string -> bool)
    ensures ValidateEmail(email, matchesEmail).Accept? <==> RegisterForm.ValidateEmail(email, matchesEmail).Accept?
    ensures ValidatePassword(password).Accept? <==> RegisterForm.ValidatePassword(password).Accept?
  {
  }

  /** The two screens test the e-mail in opposite orders: a text with
      neither an "@" nor the pattern's approval gets different messages. */
  lemma EmailCheckOrderDiffers(email: string, matchesEmail: string -> bool)
    requires email != [] && '@' !in email && !matchesEmail(email)
    ensures ValidateEmail(email, matchesEmail) == Reject("Email must contain @")
    ensures RegisterForm.ValidateEmail(email, matchesEmail) == Reject("Please enter a valid email address")
  {
  }

  datatype Report = Report(email: Verdict, password: Verdict)

  /** `validateAllFields`: both checks on the trimmed texts, both run. */
  function ValidateAll(email: string, password: string, matchesEmail: string -> bool): (r: Report)
    ensures r.email == ValidateEmail(Trim(email), matchesEmail)
    ensures r.password == ValidatePassword(Trim(password))
  {
    Report(ValidateEmail(Trim(email), matchesEmail), ValidatePassword(Trim(password)))
  }

  /** The sign-in click: the trimmed credentials, when both checks pass. */
  function SignIn(email: string, password: string, matchesEmail: string -> bool): (r: Option<(string, string)>)
    ensures r.Some? <==> ValidateAll(email, password, matchesEmail) == Report(Accept, Accept)
    ensures r.Some? ==> r.value == (Trim(email), Trim(password))
  {
    var rep := ValidateAll(email, password, matchesEmail);
    if rep.email.Accept? && rep.password.Accept? then Some((Trim(email), Trim(password))) else None
  }

  /** Credentials that are sent meet the password rule and contain an "@". */
  lemma SignInCredentials(email: string, password: string, matchesEmail: string -> bool)
    requires SignIn(email, password, matchesEmail).Some?
    ensures var (e, p) := SignIn(email, password, matchesEmail).value;
      '@' in e && matchesEmail(e) && |p| >= 8 && HasLetter(p) && HasNumber(p) && IsTrimmed(p)
  {
  }

  // ---------------------------------------------------------------------
  // Placing a server error

  datatype Placement = EmailField | PasswordField | InSnackbar | InToast

  /** The routing of `handleLoginError`, in order. */
  const LoginRules: seq<Rule<Placement>> := [
    Rule(["Email not registered", "Email is not registered"], EmailField),
    Rule(["Incorrect password"], PasswordField),
    Rule(["Connection failed"], InSnackbar)
  ]

  function PlaceError(msg: string): (r: Placement)
    ensures Route(LoginRules, msg).Some? ==> r == Route(LoginRules, msg).value
    ensures Route(LoginRules, msg).None? <==> r == InToast
  {
    Route(LoginRules, msg).OrElse(InToast)
  }

  /** The sign-in screen as the login observer changes it, with the
      session store it writes the token to. */
  datatype View = View(
    loading: bool, emailError: Option<string>, passwordError: Option<string>,
    notice: Notice, navigated: bool, session: Store)

  /** `handleLoginError`: clears both field errors, reads null as "Login
      failed", and shows either a fixed text under a field or the message
      itself in a snackbar or toast. */
  function HandleLoginError(v: View, m: Option<string>): (r: View)
    ensures r.session == v.session && r.navigated == v.navigated && r.loading == v.loading
    ensures var msg := m.OrElse("Login failed");
      && (r.emailError.Some? <==> PlaceError(msg) == EmailField)
      && (r.emailError.Some? ==> r.emailError.value == "Email is not registered")
      && (r.passwordError.Some? <==> PlaceError(msg) == PasswordField)
      && (r.passwordError.Some? ==> r.passwordError.value == "Incorrect password")
      && (r.notice == Snackbar(msg) <==> PlaceError(msg) == InSnackbar)
      && (r.notice == Toast(msg) <==> PlaceError(msg) == InToast)
  {
    var msg := m.OrElse("Login failed");
    var cleared := v.(emailError := None, passwordError := None);
    match PlaceError(msg)
    case EmailField => cleared.(emailError := Some("Email is not registered"), notice := Quiet)
    case PasswordField => cleared.(passwordError := Some("Incorrect password"), notice := Quiet)
    case InSnackbar => cleared.(notice := Snackbar(msg))
    case InToast => cleared.(notice := Toast(msg))
  }

  /** The login observer: a success that carries a token saves it and goes
      home; a success without one shows "Login failed"; an error is placed
      by `HandleLoginError`. */
  function OnLoginResult(v: View, res: Resource<string>): (r: View)
    ensures res.Loading? ==> r == v.(loading := true)
    ensures r.navigated <==> v.navigated || (res.Success? && res.data.Some?)
    ensures res.Success? && res.data.Some? ==>
              r.session == SaveAuthToken(v.session, res.data.value) && r.notice == Toast("Login successful!")
    ensures !(res.Success? && res.data.Some?) ==> r.session == v.session
    ensures res.Success? && res.data.None? ==> r == v.(loading := false, notice := Toast("Login failed"))
    ensures res.Error? ==> r == HandleLoginError(v.(loading := false), res.message)
  {
    match res
    case Loading => v.(loading := true)
    case Success(token) =>
      if token.Some? then
        v.(session := SaveAuthToken(v.session, token.value), notice := Toast("Login successful!"), navigated := true)
      else v.(loading := false, notice := Toast("Login failed"))
    case Error(m) => HandleLoginError(v.(loading := false), m)
  }

  /** A message naming an unregistered e-mail, in either wording, goes
      under the e-mail field whatever else it says. */
  lemma UnregisteredEmailFirst(msg: string, k: nat)
    requires k < 2 && ContainsIgnoreCase(msg, ["Email not registered", "Email is not registered"][k])
    ensures PlaceError(msg) == EmailField
  {
    RouteByKeyword(LoginRules, msg, 0, k);
  }

  /** Code "01" from the server ends as the e-mail field's error. */
  lemma CodeOneReachesEmailField(v: View, m: Option<string>, d: Option<string>)
    ensures OnLoginResult(v, Login(Body(Envelope(false, m, Some("01"), d)))).emailError == Some("Email is not registered")
  {
    UnregisteredTextPlaced();
  }

  lemma UnregisteredTextPlaced()
    ensures PlaceError("Email not registered") == EmailField
  {
    ContainsItself("Email not registered", "Email not registered");
    UnregisteredEmailFirst("Email not registered", 0);
  }

  /** A message naming a wrong password, and neither wording of an
      unregistered e-mail, goes under the password field. */
  lemma IncorrectPasswordPlacement(msg: string)
    requires !ContainsIgnoreCase(msg, "Email not registered") && !ContainsIgnoreCase(msg, "Email is not registered")
    requires ContainsIgnoreCase(msg, "Incorrect password")
    ensures PlaceError(msg) == PasswordField
  {
    RouteByKeyword(LoginRules, msg, 1, 0);
  }

  /** Code "02" from the server ends as the password field's error: its
      text is shorter than both e-mail keywords. */
  lemma CodeTwoReachesPasswordField(v: View, m: Option<string>, d: Option<string>)
    ensures OnLoginResult(v, Login(Body(Envelope(false, m, Some("02"), d)))).passwordError == Some("Incorrect password")
  {
    IncorrectTextPlaced();
  }

  lemma IncorrectTextPlaced()
    ensures PlaceError("Incorrect password") == PasswordField
  {
    var msg := "Incorrect password";
    LongerNotContained(msg, "Email not registered");
    LongerNotContained(msg, "Email is not registered");
    ContainsItself(msg, msg);
    IncorrectPasswordPlacement(msg);
  }

  // ---------------------------------------------------------------------
  // The successful sign-in

  /** As written, the repository answers every successful login with no
      data, so the screen never saves a token or leaves: it reports
      "Login failed" instead. */
  lemma LoginNeverNavigates(v: View, f: Fetch<string>)
    ensures OnLoginResult(v, Login(f)).navigated == v.navigated
    ensures OnLoginResult(v, Login(f)).session == v.session
  {
  }

  /** The server accepts the credentials and sends a token, and the screen
      still says "Login failed". */
  lemma AcceptedLoginReportsFailure(v: View)
    ensures var f := Body(Envelope(true, Some("Login successful"), None, Some("token")));
      OnLoginResult(v, Login(f)) == v.(loading := false, notice := Toast("Login failed"))
  {
  }

  /** The login call as the screen needs it: the same mapping, except that
      a success hands over the envelope's data (the token). */
  function LoginPassingToken(f: Fetch<string>): (r: Resource<string>)
    ensures r.Success? <==> f.Body? && f.envelope.success
    ensures r.Success? ==> r.data == f.envelope.data
    ensures !r.Success? ==> r == Login(f)
  {
    match f
    case Body(e) => if e.success then Success(e.data) else Login(f)
    case _ => Login(f)
  }

  /** With the token passed on, an accepted login that carries a token
      saves it, logs the user in, and goes home; every failure is handled
      exactly as before. */
  lemma PassingTokenLogsIn(v: View, f: Fetch<string>)
    ensures f.Body? && Carries(f.envelope) ==>
      var r := OnLoginResult(v, LoginPassingToken(f));
      r.navigated && IsLoggedIn(r.session) && GetAuthToken(r.session) == f.envelope.data
    ensures !(f.Body? && f.envelope.success) ==> OnLoginResult(v, LoginPassingToken(f)) == OnLoginResult(v, Login(f))
  {
    if f.Body? && Carries(f.envelope) {
      SaveAuthTokenLogsIn(v.session, f.envelope.data.value, "Bearer");
    }
  }
}

=== FILE: outcomes.dfy ===
/** Value shapes shared by every layer of the client: Kotlin's nullable
    values, the three-state `Resource` the repositories publish, the
    `{success, message, errorCode, data}` response envelope, the abstract
    form of a parsed JSON error body, and the outcome of one HTTP call. */
module Outcomes {

  /** A Kotlin nullable value. */
  datatype Option<+T> = None | Some(value: T) {

    /** Kotlin's elvis operator `this ?: default`. */
    function OrElse(default: T): (r: T)
      ensures Some? ==> r == value
      ensures None? ==> r == default
    {
      match this
      case Some(v) => v
      case None => default
    }
  }

  /** What a repository hands to the screens: in flight, a (possibly null)
      payload, or a (possibly null) error message. */
  datatype Resource<+T> = Loading | Success(data: Option<T>) | Error(message: Option<string>)

  /** The backend's uniform response wrapper. Gson does not enforce Kotlin
      nullability, so `message` may be absent at run time. */
  datatype Envelope<+T> = Envelope(success: bool, message: Option<string>, errorCode: Option<string>, data: Option<T>)

  /** An error body as the JSON readers see it: the empty string, an object
      whose fields read back as the given strings, or text that does not
      parse as an object. */
  datatype JsonBody = Blank | Fields(fields: map<string, string>) | Malformed

  /** The outcome of one call to the HTTP API:
      - `Ok(body)`: a 2xx answer with its (possibly null) decoded body;
      - `Http(code, errorBody)`: a non-2xx answer with its raw error body;
      - `IOErr`: no answer at all (transport failure);
      - `OtherErr(message)`: any other exception, with its message. */
  datatype Call<+T> =
    | Ok(body: Option<Envelope<T>>)
    | Http(code: int, errorBody: Option<JsonBody>)
    | IOErr
    | OtherErr(message: Option<string>)

  /** The outcome of a call whose declared result is the envelope itself
      (no `Response` wrapper): a non-2xx answer surfaces as an
      `HttpException`, and a 2xx answer without a body makes the HTTP
      library throw, which lands with the other exceptions in `Thrown`.
      - `Body(envelope)`: the decoded envelope;
      - `HttpFailure(code, errorBody)`: the `HttpException`;
      - `IOFailure`: transport failure;
      - `Thrown(message)`: any other exception, with its message. */
  datatype Fetch<+T> =
    | Body(envelope: Envelope<T>)
    | HttpFailure(code: int, errorBody: Option<JsonBody>)
    | IOFailure
    | Thrown(message: Option<string>)

  /** True when a 2xx answer carries an envelope with `success == true`
      and a non-null `data`: the one shape every repository accepts. */
  predicate Delivered<T>(c: Call<T>)
  {
    c.Ok? && c.body.Some? && Carries(c.body.value)
  }

  /** The envelope says success and carries data. */
  predicate Carries<T>(e: Envelope<T>)
  {
    e.success && e.data.Some?
  }

  /** A decoded envelope as the direct-call repositories read it: its
      data when it says success and carries data, else its message (which
      the decoder may have left null). */
  function Unwrap<T>(e: Envelope<T>): (r: Resource<T>)
    ensures r.Success? <==> Carries(e)
    ensures r.Success? ==> r.data == e.data
    ensures r.Error? ==> r.message == e.message
  {
    if Carries(e) then Success(e.data) else Error(e.message)
  }

  /** The value of a field of a parsed error body, if the body is an object
      that has it. */
  function FieldOf(body: Option<JsonBody>, key: string): (r: Option<string>)
    ensures r.Some? <==> body.Some? && body.value.Fields? && key in body.value.fields
    ensures r.Some? ==> r.value == body.value.fields[key]
  {
    if body.Some? && body.value.Fields? && key in body.value.fields
    then Some(body.value.fields[key])
    else None
  }
}

=== FILE: profile_screen.dfy ===
/** The profile screen: change tracking against the loaded profile, the
    ordered input check, the trimmed update request, what loading and
    updating do to the screen and the session, and the logout on an
    unauthorized load. */
module ProfileScreen {

  import opened Outcomes
  import opened Text
  import opened Domain
  import opened FormChecks
  import opened Session
  import UserRepository

  /** The five editable texts as typed. */
  datatype Inputs = Inputs(firstName: string, lastName: string, userName: string, email: string, phoneNumber: string)

  function InputsOf(p: UserProfile): Inputs
  {
    Inputs(p.firstName, p.lastName, p.userName, p.email, p.phoneNumber)
  }

  datatype Screen = Screen(
    original: Option<UserProfile>, fields: Inputs,
    hasChanges: bool, buttonEnabled: bool, updating: bool,
    notice: Notice, session: Store, loggedOut: bool)

  /** Any of the five texts, untrimmed, differs from the loaded profile. */
  predicate Differs(f: Inputs, p: UserProfile)
  {
    f != InputsOf(p)
  }

  /** `checkForChanges`: with a profile loaded, the flag says whether any
      text differs from it and the button follows the flag; without one
      nothing changes. */
  function CheckForChanges(s: Screen): (r: Screen)
    ensures s.original.None? ==> r == s
    ensures s.original.Some? ==> r == s.(hasChanges := Differs(s.fields, s.original.value),
                                         buttonEnabled := Differs(s.fields, s.original.value))
  {
    match s.original
    case None => s
    case Some(p) =>
      var changed := Differs(s.fields, p);
      s.(hasChanges := changed, buttonEnabled := changed)
  }

  /** Typing in a field: the new texts, then the change check the text
      watchers run. */
  function Edit(s: Screen, f: Inputs): (r: Screen)
    ensures r.fields == f && r.original == s.original
    ensures s.original.Some? ==> (r.hasChanges <==> f != InputsOf(s.original.value))
    ensures s.original.Some? ==> r.buttonEnabled == r.hasChanges
    ensures s.original.None? ==> r == s.(fields := f)
  {
    CheckForChanges(s.(fields := f))
  }

  /** Typing the loaded texts back clears the flag and disables the
      button. */
  lemma EditBackToOriginal(s: Screen)
    requires s.original.Some?
    ensures var r := Edit(s, InputsOf(s.original.value)); !r.hasChanges && !r.buttonEnabled
  {
  }

  // ---------------------------------------------------------------------
  // Input check and request

  /** `validateInput`: the first failing check's message, in the order
      first name, last name, user name, e-mail present, e-mail format,
      phone number; all on trimmed texts. */
  function ValidateInput(f: Inputs, matchesEmail: string -> bool): (r: Option<string>)
    ensures r == Some("First name is required") <==> Trim(f.firstName) == []
    ensures r == Some("Last name is required") <==> Trim(f.firstName) != [] && Trim(f.lastName) == []
    ensures r == Some("Username is required") <==>
              Trim(f.firstName) != [] && Trim(f.lastName) != [] && Trim(f.userName) == []
    ensures r == Some("Email is required") <==>
              Trim(f.firstName) != [] && Trim(f.lastName) != [] && Trim(f.userName) != [] && Trim(f.email) == []
    ensures r == Some("Invalid email format") <==>
              Trim(f.firstName) != [] && Trim(f.lastName) != [] && Trim(f.userName) != [] && Trim(f.email) != [] &&
              !matchesEmail(Trim(f.email))
    ensures r == Some("Phone number is required") <==>
              Trim(f.firstName) != [] && Trim(f.lastName) != [] && Trim(f.userName) != [] &&
              Trim(f.email) != [] && matchesEmail(Trim(f.email)) && Trim(f.phoneNumber) == []
  {
    if Trim(f.firstName) == [] then Some("First name is required")
    else if Trim(f.lastName) == [] then Some("Last name is required")
    else if Trim(f.userName) == [] then Some("Username is required")
    else if Trim(f.email) == [] then Some("Email is required")
    else if !matchesEmail(Trim(f.email)) then Some("Invalid email format")
    else if Trim(f.phoneNumber) == [] then Some("Phone number is required")
    else None
  }

  /** The input passes exactly when no field is blank and the trimmed
      e-mail matches the pattern. */
  lemma ValidateInputPasses(f: Inputs, matchesEmail: string -> bool)
    ensures ValidateInput(f, matchesEmail).None? <==>
      && !IsBlank(f.firstName) && !IsBlank(f.lastName) && !IsBlank(f.userName)
      && !IsBlank(f.email) && matchesEmail(Trim(f.email)) && !IsBlank(f.phoneNumber)
  {
    TrimEmptyIffBlank(f.firstName);
    TrimEmptyIffBlank(f.lastName);
    TrimEmptyIffBlank(f.userName);
    TrimEmptyIffBlank(f.email);
    TrimEmptyIffBlank(f.phoneNumber);
  }

  /** `updateProfile`: the request carries the user's input, each field
      trimmed. */
  function UpdateRequest(f: Inputs): (r: UpdateUserRequest)
    ensures IsTrimmed(r.firstName) && IsTrimmed(r.lastName) && IsTrimmed(r.userName)
    ensures IsTrimmed(r.email) && IsTrimmed(r.phoneNumber)
    ensures r.firstName == Trim(f.firstName) && r.lastName == Trim(f.lastName)
    ensures r.userName == Trim(f.userName) && r.email == Trim(f.email)
    ensures r.phoneNumber == Trim(f.phoneNumber)
  {
    UpdateUserRequest(Trim(f.firstName), Trim(f.lastName), Trim(f.userName), Trim(f.email), Trim(f.phoneNumber))
  }

  /** The update click: the request when the input passes. A request that
      is sent has no empty field, and re-trimming it changes nothing. */
  function UpdateClick(s: Screen, matchesEmail: string -> bool): (r: Option<UpdateUserRequest>)
    ensures r.Some? <==> ValidateInput(s.fields, matchesEmail).None?
    ensures r.Some? ==> r.value == UpdateRequest(s.fields)
    ensures r.Some? ==> r.value.firstName != [] && r.value.lastName != [] && r.value.userName != []
    ensures r.Some? ==> r.value.email != [] && matchesEmail(r.value.email) && r.value.phoneNumber != []
  {
    if ValidateInput(s.fields, matchesEmail).None? then Some(UpdateRequest(s.fields)) else None
  }

  lemma UpdateRequestStable(f: Inputs)
    ensures var q := UpdateRequest(f);
      UpdateRequest(Inputs(q.firstName, q.lastName, q.userName, q.email, q.phoneNumber)) == q
  {
    TrimIdempotent(f.firstName);
    TrimIdempotent(f.lastName);
    TrimIdempotent(f.userName);
    TrimIdempotent(f.email);
    TrimIdempotent(f.phoneNumber);
  }

  // ---------------------------------------------------------------------
  // Loading the profile

  /** `displayUserProfile`: the texts show the profile (so the watchers
      find no change), the button is disabled, and the session records the
      user's details (the id is not passed). */
  function Display(s: Screen, u: UserProfile): (r: Screen)
    ensures r.fields == InputsOf(u) && !r.hasChanges && !r.buttonEnabled
    ensures r.session == SaveLoginSession(s.session, u.email, u.userName, Some(u.firstName), Some(u.lastName),
                                          Some(u.phoneNumber), None, u.profilePicture)
  {
    s.(fields := InputsOf(u), hasChanges := false, buttonEnabled := false,
       session := SaveLoginSession(s.session, u.email, u.userName, Some(u.firstName), Some(u.lastName),
                                   Some(u.phoneNumber), None, u.profilePicture))
  }

  /** `performLogout`: the whole session is cleared and the screen leaves. */
  function PerformLogout(s: Screen): (r: Screen)
    ensures r.session == map[] && r.loggedOut
  {
    s.(session := ClearSession(s.session), loggedOut := true, notice := Toast("Logged out successfully"))
  }

  /** The profile observer: a delivered profile becomes the original and is
      shown; an error is toasted (null read as "Failed to load profile") and
      one that mentions "Unauthorized" in any case logs out. */
  function OnProfileLoad(s: Screen, res: Resource<UserProfile>): (r: Screen)
    ensures res.Success? && res.data.Some? ==> r == Display(s.(original := res.data), res.data.value)
    ensures res.Loading? || (res.Success? && res.data.None?) ==> r == s
    ensures res.Error? ==>
      var msg := res.message.OrElse("Failed to load profile");
      (r.loggedOut <==> s.loggedOut || ContainsIgnoreCase(msg, "Unauthorized")) &&
      (ContainsIgnoreCase(msg, "Unauthorized") ==> r == PerformLogout(s.(notice := Toast(msg)))) &&
      (!ContainsIgnoreCase(msg, "Unauthorized") ==> r == s.(notice := Toast(msg)))
  {
    match res
    case Loading => s
    case Success(d) => if d.Some? then Display(s.(original := d), d.value) else s
    case Error(m) =>
      var msg := m.OrElse("Failed to load profile");
      var shown := s.(notice := Toast(msg));
      if ContainsIgnoreCase(msg, "Unauthorized") then PerformLogout(shown) else shown
  }

  /** A freshly shown profile agrees with its own change check: no change,
      button disabled. */
  lemma LoadedProfileIsUnchanged(s: Screen, u: UserProfile)
    ensures var r := OnProfileLoad(s, Success(Some(u)));
      r.original == Some(u) && CheckForChanges(r) == r
  {
  }

  /** Loading a profile records its names in the session, so the session's
      full name is built from them. */
  lemma LoadRecordsNames(s: Screen, u: UserProfile)
    ensures var st := OnProfileLoad(s, Success(Some(u))).session;
      GetString(st, KeyFirstName) == Some(u.firstName) && GetString(st, KeyLastName) == Some(u.lastName) &&
      GetString(st, KeyUserName) == Some(u.userName) && GetString(st, KeyUserEmail) == Some(u.email)
  {
    var st := OnProfileLoad(s, Success(Some(u))).session;
    SaveLoginSessionWrites(s.session, u.email, u.userName, Some(u.firstName), Some(u.lastName),
                           Some(u.phoneNumber), None, u.profilePicture);
    assert Stored(st, KeyFirstName) == Some(Str(u.firstName));
    assert Stored(st, KeyLastName) == Some(Str(u.lastName));
    assert Stored(st, KeyUserName) == Some(Str(u.userName));
    assert Stored(st, KeyUserEmail) == Some(Str(u.email));
  }

  /** A 401 from the profile call logs the user out and empties the
      session. */
  lemma UnauthorizedLoadLogsOut(s: Screen, body: Option<JsonBody>)
    ensures var r := OnProfileLoad(s, UserRepository.GetMyProfile(HttpFailure(401, body)));
      r.loggedOut && r.session == map[] && !IsLoggedIn(r.session)
  {
    var msg := UserRepository.Unauthorized;
    assert msg[..12] == "Unauthorized";
    ContainsPrefix(msg, "Unauthorized");
  }

  /** Any other HTTP failure of the profile call keeps the user logged
      in. */
  lemma OtherLoadFailuresStay(s: Screen, code: int, body: Option<JsonBody>)
    requires code != 401
    ensures var r := OnProfileLoad(s, UserRepository.GetMyProfile(HttpFailure(code, body)));
      r.session == s.session && r.loggedOut == s.loggedOut
  {
    // "Unauthorized" has a 'z'; neither other text does.
    assert "Unauthorized"[9] == 'z';
    if code == 404 {
      assert LacksChar("User not found", 'z');
      CharAbsent("User not found", "Unauthorized", 9);
    } else {
      FailedLoadLacksZ();
      CharAbsent("Failed to load profile", "Unauthorized", 9);
    }
  }

  lemma FailedLoadLacksZ()
    ensures LacksChar("Failed to load profile", 'z')
  {
  }

  // ---------------------------------------------------------------------
  // Updating the profile

  /** The update observer as written: loading disables the button and
      shows "Updating..."; a success re-enables it, records the returned
      profile in the session and as the original, and clears the change
      flag; an error re-enables it and toasts the message. */
  function OnUpdateResult(s: Screen, res: Resource<UserProfile>): (r: Screen)
    ensures res.Loading? ==> r == s.(buttonEnabled := false, updating := true)
    ensures res.Success? ==> r.buttonEnabled && !r.updating && !r.hasChanges
    ensures res.Success? && res.data.Some? ==>
              r.original == res.data && r.session == UpdateUserProfile(s.session, res.data.value)
    ensures res.Success? && res.data.None? ==> r.original == s.original && r.session == s.session
    ensures res.Error? ==> r == s.(buttonEnabled := true, updating := false,
                                   notice := Toast(res.message.OrElse("Failed to update profile")))
  {
    match res
    case Loading => s.(buttonEnabled := false, updating := true)
    case Success(d) =>
      var kept := if d.Some? then s.(original := d, session := UpdateUserProfile(s.session, d.value)) else s;
      kept.(buttonEnabled := true, updating := false, hasChanges := false,
            notice := Toast("Profile updated successfully!"))
    case Error(m) =>
      s.(buttonEnabled := true, updating := false, notice := Toast(m.OrElse("Failed to update profile")))
  }

  /** Outside an update, the button is enabled exactly when there are
      changes. */
  predicate ButtonFollowsChanges(s: Screen)
  {
    !s.updating ==> s.buttonEnabled == s.hasChanges
  }

  /** As written, a successful update leaves the button enabled while the
      change flag says there is nothing to save. */
  lemma UpdateSuccessBreaksButton(s: Screen, d: Option<UserProfile>)
    ensures !ButtonFollowsChanges(OnUpdateResult(s, Success(d)))
  {
  }

  /** The update observer with the button disabled along with the change
      flag after a success; otherwise as written. */
  function OnUpdateResultFixed(s: Screen, res: Resource<UserProfile>): (r: Screen)
    ensures res.Success? ==> r == OnUpdateResult(s, res).(buttonEnabled := false)
    ensures !res.Success? ==> r == OnUpdateResult(s, res)
  {
    var r := OnUpdateResult(s, res);
    if res.Success? then r.(buttonEnabled := false) else r
  }

  /** With the fix, every step of the screen keeps the button in line with
      the change flag (an error after an update started from an enabled
      button leaves the changes in place). */
  lemma FixedScreenKeepsButton(s: Screen, res: Resource<UserProfile>, f: Inputs)
    requires ButtonFollowsChanges(s)
    ensures ButtonFollowsChanges(Edit(s, f)) || s.original.None?
    ensures ButtonFollowsChanges(OnProfileLoad(s, res))
    ensures !res.Error? || s.hasChanges ==> ButtonFollowsChanges(OnUpdateResultFixed(s, res))
  {
  }
}

=== FILE: register_form.dfy ===
/** The sign-up screen: its five field checks, the whole-form check on
    trimmed input, the request it builds (first/last name split and user
    name), and how it places a server error on the form. */
module RegisterForm {

  import opened Outcomes
  import opened Text
  import opened Domain
  import opened FormChecks
  import opened AuthRepository

  const Required: string := "This field is required"

  // ---------------------------------------------------------------------
  // Field checks

  function ValidateFullName(fullName: string): (r: Verdict)
    ensures r == Accept <==> |fullName| >= 3
    ensures r == Reject(Required) <==> fullName == []
    ensures r == Reject("Name must be at least 3 characters") <==> 0 < |fullName| < 3
  {
    if fullName == [] then Reject(Required)
    else if |fullName| < 3 then Reject("Name must be at least 3 characters")
    else Accept
  }

  /** The pattern is tested before the "@": a text without "@" that the
      pattern rejects gets the pattern's message. */
  function ValidateEmail(email: string, matchesEmail: string -> bool): (r: Verdict)
    ensures r == Accept <==> email != [] && matchesEmail(email) && '@' in email
    ensures r == Reject(Required) <==> email == []
    ensures r == Reject("Please enter a valid email address") <==> email != [] && !matchesEmail(email)
    ensures r == Reject("Email must contain @") <==> email != [] && matchesEmail(email) && '@' !in email
  {
    if email == [] then Reject(Required)
    else if !matchesEmail(email) then Reject("Please enter a valid email address")
    else if '@' !in email then Reject("Email must contain @")
    else Accept
  }

  function ValidatePhone(phone: string): (r: Verdict)
    ensures r == Accept <==> DigitsOnly(phone) && |phone| >= 10
    ensures r == Reject(Required) <==> phone == []
    ensures r == Reject("Phone number must contain numbers only") <==> phone != [] && !DigitsOnly(phone)
    ensures r == Reject("Phone number must be at least 10 digits") <==> DigitsOnly(phone) && |phone| < 10
  {
    if phone == [] then Reject(Required)
    else if !DigitsOnly(phone) then Reject("Phone number must contain numbers only")
    else if |phone| < 10 then Reject("Phone number must be at least 10 digits")
    else Accept
  }

  const PasswordRule: string := "Password must be at least 8 characters and contain both letters and numbers"

  function ValidatePassword(password: string): (r: Verdict)
    ensures r == Accept <==> |password| >= 8 && HasLetter(password) && HasNumber(password)
    ensures r == Reject(Required) <==> password == []
    ensures r == Reject("Password must be at least 8 characters") <==> 0 < |password| < 8
    ensures r == Reject(PasswordRule) <==> |password| >= 8 && !(HasLetter(password) && HasNumber(password))
  {
    if password == [] then Reject(Required)
    else if |password| < 8 then Reject("Password must be at least 8 characters")
    else if !HasLetter(password) || !HasNumber(password) then Reject(PasswordRule)
    else Accept
  }

  function ValidateConfirmPassword(password: string, confirmPassword: string): (r: Verdict)
    ensures r == Accept <==> confirmPassword != [] && confirmPassword == password
    ensures r == Reject(Required) <==> confirmPassword == []
    ensures r == Reject("Passwords do not match") <==> confirmPassword != [] && confirmPassword != password
  {
    if confirmPassword == [] then Reject(Required)
    else if password != confirmPassword then Reject("Passwords do not match")
    else Accept
  }

  // ---------------------------------------------------------------------
  // The whole form

  /** The five texts as typed. */
  datatype Form = Form(fullName: string, email: string, phone: string, password: string, confirmPassword: string)

  /** What each field shows after a whole-form check: every check runs, so
      every field gets its own verdict. */
  datatype Report = Report(fullName: Verdict, email: Verdict, phone: Verdict, password: Verdict, confirmPassword: Verdict)

  predicate AllAccepted(r: Report)
  {
    r.fullName.Accept? && r.email.Accept? && r.phone.Accept? && r.password.Accept? && r.confirmPassword.Accept?
  }

  /** `validateAllFields`: each check on the trimmed text, all five run. */
  function ValidateAll(f: Form, matchesEmail: string -> bool): (r: Report)
    ensures r.fullName == ValidateFullName(Trim(f.fullName))
    ensures r.email == ValidateEmail(Trim(f.email), matchesEmail)
    ensures r.phone == ValidatePhone(Trim(f.phone))
    ensures r.password == ValidatePassword(Trim(f.password))
    ensures r.confirmPassword == ValidateConfirmPassword(Trim(f.password), Trim(f.confirmPassword))
  {
    var password := Trim(f.password);
    Report(ValidateFullName(Trim(f.fullName)), ValidateEmail(Trim(f.email), matchesEmail),
           ValidatePhone(Trim(f.phone)), ValidatePassword(password),
           ValidateConfirmPassword(password, Trim(f.confirmPassword)))
  }

  /** The form passes exactly when the trimmed texts meet every rule. */
  lemma ValidateAllMeaning(f: Form, matchesEmail: string -> bool)
    ensures AllAccepted(ValidateAll(f, matchesEmail)) <==>
      && |Trim(f.fullName)| >= 3
      && Trim(f.email) != [] && matchesEmail(Trim(f.email)) && '@' in Trim(f.email)
      && DigitsOnly(Trim(f.phone)) && |Trim(f.phone)| >= 10
      && |Trim(f.password)| >= 8 && HasLetter(Trim(f.password)) && HasNumber(Trim(f.password))
      && Trim(f.confirmPassword) == Trim(f.password)
  {
  }

  /** Whitespace around the texts does not matter: the check of a form is
      the check of its trimmed form. */
  lemma ValidateAllIgnoresPadding(f: Form, matchesEmail: string -> bool)
    ensures ValidateAll(f, matchesEmail) ==
            ValidateAll(Form(Trim(f.fullName), Trim(f.email), Trim(f.phone), Trim(f.password), Trim(f.confirmPassword)), matchesEmail)
  {
    TrimIdempotent(f.fullName);
    TrimIdempotent(f.email);
    TrimIdempotent(f.phone);
    TrimIdempotent(f.password);
    TrimIdempotent(f.confirmPassword);
  }

  // ---------------------------------------------------------------------
  // Building the request

  /** `fullName.split(" ", limit = 2)`, then the first part and the second
      part or "": the text before the first space, and everything after it. */
  function SplitName(fullName: string): (r: (string, string))
    ensures ' ' !in r.0
    ensures ' ' in fullName ==> r.0 + " " + r.1 == fullName
    ensures ' ' !in fullName ==> r == (fullName, "")
  {
    match IndexOf(fullName, ' ')
    case None => (fullName, "")
    case Some(i) =>
      assert fullName == fullName[..i] + " " + fullName[i + 1..];
      (fullName[..i], fullName[i + 1..])
  }

  /** `fullName.replace(" ", "").lowercase()`. */
  function UserName(fullName: string): (r: string)
    ensures ' ' !in r
  {
    var r := Lower(RemoveSpaces(fullName));
    assert forall i :: 0 <= i < |r| ==> r[i] != ' ';
    r
  }

  /** The user name is the two name parts run together, spaces removed and
      lower-cased. */
  lemma UserNameFromParts(fullName: string)
    ensures UserName(fullName) == Lower(RemoveSpaces(SplitName(fullName).0)) + Lower(RemoveSpaces(SplitName(fullName).1))
  {
    var (first, last) := SplitName(fullName);
    if ' ' in fullName {
      RemoveSpacesAppend(first + " ", last);
      RemoveSpacesAppend(first, " ");
      assert RemoveSpaces(" ") == [];
      assert RemoveSpaces(first + " ") == RemoveSpaces(first);
    } else {
      assert RemoveSpaces(last) == [];
      assert RemoveSpaces(fullName) == RemoveSpaces(fullName) + RemoveSpaces(last);
    }
    LowerAppend(RemoveSpaces(first), RemoveSpaces(last));
  }

  /** The sign-up click: when the whole form passes, the request built from
      the trimmed texts. */
  function SignUp(f: Form, matchesEmail: string -> bool): (r: Option<RegisterRequest>)
    ensures r.Some? <==> AllAccepted(ValidateAll(f, matchesEmail))
    ensures r.Some? ==>
      var fullName := Trim(f.fullName);
      && r.value.firstName == SplitName(fullName).0
      && r.value.lastName == SplitName(fullName).1
      && r.value.userName == UserName(fullName)
      && r.value.email == Trim(f.email) && r.value.phoneNumber == Trim(f.phone)
      && r.value.password == Trim(f.password) && r.value.confirmPassword == Trim(f.confirmPassword)
  {
    if AllAccepted(ValidateAll(f, matchesEmail)) then
      var fullName := Trim(f.fullName);
      var (first, last) := SplitName(fullName);
      Some(RegisterRequest(first, last, UserName(fullName), Trim(f.email), Trim(f.phone),
                           Trim(f.password), Trim(f.confirmPassword)))
    else None
  }

  /** Every request sent satisfies the server's own rules: a non-empty first
      name without spaces, a user name without spaces, a phone number of at
      least ten digits, and a password of at least eight characters with a
      letter and a digit that equals its confirmation. */
  lemma SignUpRequestWellFormed(f: Form, matchesEmail: string -> bool)
    requires SignUp(f, matchesEmail).Some?
    ensures var q := SignUp(f, matchesEmail).value;
      && q.firstName != [] && ' ' !in q.firstName && ' ' !in q.userName
      && DigitsOnly(q.phoneNumber) && |q.phoneNumber| >= 10
      && |q.password| >= 8 && HasLetter(q.password) && HasNumber(q.password)
      && q.password == q.confirmPassword
  {
    var fullName := Trim(f.fullName);
    assert |fullName| >= 3;
    assert !IsWhitespace(fullName[0]);
  }

  // ---------------------------------------------------------------------
  // Placing a server error

  /** Where a server error goes on the form. */
  datatype Placement = EmailField | PhoneField | ConfirmPasswordField | PasswordField | InSnackbar | InToast

  /** The routing of the register observer's error branch, in order. */
  const RegisterRules: seq<Rule<Placement>> := [
    Rule(["Email already exists"], EmailField),
    Rule(["Phone number already exists"], PhoneField),
    Rule(["Passwords do not match"], ConfirmPasswordField),
    Rule(["Password must be at least"], PasswordField),
    Rule(["Connection failed"], InSnackbar)
  ]

  /** The first rule with its keyword in the message (any case), else a
      toast. */
  function PlaceError(msg: string): (r: Placement)
    ensures Route(RegisterRules, msg).Some? ==> r == Route(RegisterRules, msg).value
    ensures Route(RegisterRules, msg).None? <==> r == InToast
  {
    Route(RegisterRules, msg).OrElse(InToast)
  }

  /** The error texts under the five fields. */
  datatype FieldErrors = FieldErrors(
    fullName: Option<string>, email: Option<string>, phone: Option<string>,
    password: Option<string>, confirmPassword: Option<string>)

  const NoFieldErrors: FieldErrors := FieldErrors(None, None, None, None, None)

  /** The screen as the register observer changes it. */
  datatype View = View(loading: bool, errors: FieldErrors, notice: Notice, finished: bool)

  /** The register observer: loading shows the spinner; success shows a
      toast and closes the screen; an error (null read as "Registration
      failed") clears every field error and then shows the message in the
      one place the routing picks. */
  function OnRegisterResult(v: View, res: Resource<string>): (r: View)
    ensures res.Loading? ==> r == v.(loading := true)
    ensures res.Success? ==> r.finished && !r.loading && r.notice == Toast("Registration successful! Please login.")
    ensures res.Success? ==> r.errors == v.errors
    ensures res.Error? ==> !r.loading && !r.finished && r.errors.fullName.None?
    ensures res.Error? ==>
      var msg := res.message.OrElse("Registration failed");
      && (r.errors.email.Some? <==> PlaceError(msg) == EmailField)
      && (r.errors.phone.Some? <==> PlaceError(msg) == PhoneField)
      && (r.errors.password.Some? <==> PlaceError(msg) == PasswordField)
      && (r.errors.confirmPassword.Some? <==> PlaceError(msg) == ConfirmPasswordField)
      && (r.notice == Snackbar(msg) <==> PlaceError(msg) == InSnackbar)
      && (r.notice == Toast(msg) <==> PlaceError(msg) == InToast)
      && (r.errors != NoFieldErrors ==> r.notice == Quiet)
  {
    match res
    case Loading => v.(loading := true)
    case Success(_) => v.(loading := false, notice := Toast("Registration successful! Please login."), finished := true)
    case Error(m) =>
      var msg := m.OrElse("Registration failed");
      var placed :=
        match PlaceError(msg)
        case EmailField => View(false, NoFieldErrors.(email := Some(msg)), Quiet, false)
        case PhoneField => View(false, NoFieldErrors.(phone := Some(msg)), Quiet, false)
        case ConfirmPasswordField => View(false, NoFieldErrors.(confirmPassword := Some(msg)), Quiet, false)
        case PasswordField => View(false, NoFieldErrors.(password := Some(msg)), Quiet, false)
        case InSnackbar => View(false, NoFieldErrors, Snackbar(msg), false)
        case InToast => View(false, NoFieldErrors, Toast(msg), false);
      placed
  }

  /** A message that mentions an existing e-mail goes under the e-mail field,
      whatever else it says. */
  lemma EmailErrorFirst(msg: string)
    requires ContainsIgnoreCase(msg, "Email already exists")
    ensures PlaceError(msg) == EmailField
  {
    RouteSingles(RegisterRules, msg, 0);
  }

  /** Code "02" from the server puts "Email already exists" under the
      e-mail field. */
  lemma DuplicateEmailReachesEmailField(v: View, m: Option<string>, d: Option<string>)
    ensures OnRegisterResult(v, Register(Body(Envelope(false, m, Some("02"), d)))).errors.email == Some("Email already exists")
  {
    EmailTextPlaced();
  }

  lemma EmailTextPlaced()
    ensures PlaceError("Email already exists") == EmailField
  {
    ContainsItself("Email already exists", "Email already exists");
    EmailErrorFirst("Email already exists");
  }

  /** A message that mentions a password mismatch, and neither an existing
      e-mail nor an existing phone number, goes under the confirmation
      field. */
  lemma MismatchErrorPlacement(msg: string)
    requires !ContainsIgnoreCase(msg, "Email already exists")
    requires !ContainsIgnoreCase(msg, "Phone number already exists")
    requires ContainsIgnoreCase(msg, "Passwords do not match")
    ensures PlaceError(msg) == ConfirmPasswordField
  {
    RouteSingles(RegisterRules, msg, 2);
  }

  /** Code "04" from the server puts "Passwords do not match" under the
      confirmation field. */
  lemma MismatchReachesConfirmField(v: View, m: Option<string>, d: Option<string>)
    ensures OnRegisterResult(v, Register(Body(Envelope(false, m, Some("04"), d)))).errors.confirmPassword == Some("Passwords do not match")
  {
    MismatchTextPlaced();
  }

  lemma MismatchTextPlaced()
    ensures PlaceError("Passwords do not match") == ConfirmPasswordField
  {
    var msg := "Passwords do not match";
    assert "Email already exists"[15] == 'x';
    assert LacksChar(msg, 'x');
    CharAbsent(msg, "Email already exists", 15);
    LongerNotContained(msg, "Phone number already exists");
    ContainsItself(msg, msg);
    MismatchErrorPlacement(msg);
  }

  /** A message that mentions an existing phone number, and not an existing
      e-mail, goes under the phone field. */
  lemma PhoneErrorPlacement(msg: string)
    requires !ContainsIgnoreCase(msg, "Email already exists")
    requires ContainsIgnoreCase(msg, "Phone number already exists")
    ensures PlaceError(msg) == PhoneField
  {
    RouteSingles(RegisterRules, msg, 1);
  }

  /** Code "03" from the server puts "Phone number already exists" under the
      phone field. */
  lemma DuplicatePhoneReachesPhoneField(v: View, m: Option<string>, d: Option<string>)
    ensures OnRegisterResult(v, Register(Body(Envelope(false, m, Some("03"), d)))).errors.phone == Some("Phone number already exists")
  {
    PhoneTextPlaced();
  }

  lemma PhoneTextPlaced()
    ensures PlaceError("Phone number already exists") == PhoneField
  {
    var msg := "Phone number already exists";
    // "Em" never occurs in it.
    assert "Email already exists"[..2] == "Em";
    PhoneTextLacksEm();
    PairAbsent(msg, "Email already exists", 0);
    ContainsItself(msg, msg);
    PhoneErrorPlacement(msg);
  }

  /** A message that states the password rule, and none of the three
      earlier keywords, goes under the password field. */
  lemma PasswordRulePlacement(msg: string)
    requires !ContainsIgnoreCase(msg, "Email already exists")
    requires !ContainsIgnoreCase(msg, "Phone number already exists")
    requires !ContainsIgnoreCase(msg, "Passwords do not match")
    requires ContainsIgnoreCase(msg, "Password must be at least")
    ensures PlaceError(msg) == PasswordField
  {
    RouteSingles(RegisterRules, msg, 3);
  }

  lemma PhoneTextLacksEm()
    ensures LacksPair("Phone number already exists", 'E', 'm')
  {
  }
}

=== FILE: session.dfy ===
/** The local session store: a key-value map of strings, flags and one
    long, with the operations that save and clear the login state and the
    getters that derive values from it. A missing key reads as the
    getter's default, as in Android's shared preferences. */
module Session {

  import opened Outcomes
  import opened Text
  import opened Domain

  datatype Value = Str(text: string) | Flag(on: bool) | Long(number: int)

  /** The keys the store uses; `Spelling` gives each one's stored name. */
  datatype Key =
    | KeyIsLoggedIn | KeyAuthToken | KeyRefreshToken | KeyTokenType
    | KeyUserId | KeyUserEmail | KeyUserName | KeyFirstName | KeyLastName
    | KeyPhoneNumber | KeyProfilePicture | KeyFirstTime

  function Spelling(k: Key): string
  {
    match k
    case KeyIsLoggedIn => "is_logged_in"
    case KeyAuthToken => "auth_token"
    case KeyRefreshToken => "refresh_token"
    case KeyTokenType => "token_type"
    case KeyUserId => "user_id"
    case KeyUserEmail => "user_email"
    case KeyUserName => "user_name"
    case KeyFirstName => "first_name"
    case KeyLastName => "last_name"
    case KeyPhoneNumber => "phone_number"
    case KeyProfilePicture => "profile_picture"
    case KeyFirstTime => "is_first_time"
  }

  /** The key stored under `name`, if the store uses that name. */
  function KeyNamed(name: string): (r: Option<Key>)
    ensures r.Some? ==> Spelling(r.value) == name
  {
    if name == "is_logged_in" then Some(KeyIsLoggedIn)
    else if name == "auth_token" then Some(KeyAuthToken)
    else if name == "refresh_token" then Some(KeyRefreshToken)
    else if name == "token_type" then Some(KeyTokenType)
    else if name == "user_id" then Some(KeyUserId)
    else if name == "user_email" then Some(KeyUserEmail)
    else if name == "user_name" then Some(KeyUserName)
    else if name == "first_name" then Some(KeyFirstName)
    else if name == "last_name" then Some(KeyLastName)
    else if name == "phone_number" then Some(KeyPhoneNumber)
    else if name == "profile_picture" then Some(KeyProfilePicture)
    else if name == "is_first_time" then Some(KeyFirstTime)
    else None
  }

  /** Every key is found again from its stored name, so distinct keys have
      distinct names and modelling the store by `Key` loses nothing. */
  lemma SpellingsDistinct(j: Key, k: Key)
    ensures KeyNamed(Spelling(k)) == Some(k)
    ensures j != k ==> Spelling(j) != Spelling(k)
  {
  }

  type Store = map<Key, Value>

  /** The keys `clearAuthData` removes. */
  const AuthKeys: set<Key> := {KeyIsLoggedIn, KeyAuthToken, KeyRefreshToken, KeyTokenType}

  predicate IsFlagKey(k: Key)
  {
    k == KeyIsLoggedIn || k == KeyFirstTime
  }

  /** The kind of value each key is written with. */
  predicate Fits(k: Key, v: Value)
  {
    if IsFlagKey(k) then v.Flag? else if k == KeyUserId then v.Long? else v.Str?
  }

  /** Every stored value has the kind its key is written with, so no getter
      ever meets a value of the wrong type. */
  predicate WellTyped(st: Store)
  {
    forall k :: k in st ==> Fits(k, st[k])
  }

  // ---------------------------------------------------------------------
  // Typed reads

  /** The value stored under `k`, if any. */
  function Stored(st: Store, k: Key): (r: Option<Value>)
    ensures r.Some? <==> k in st
    ensures r.Some? ==> r.value == st[k]
  {
    if k in st then Some(st[k]) else None
  }

  /** A write that may or may not happen over the value already there. */
  function Overlay(written: Option<Value>, previous: Option<Value>): Option<Value>
  {
    if written.Some? then written else previous
  }

  function GetString(st: Store, key: Key): (r: Option<string>)
    ensures r.Some? <==> key in st && st[key].Str?
    ensures r.Some? ==> st[key] == Str(r.value)
  {
    if key in st && st[key].Str? then Some(st[key].text) else None
  }

  function GetBoolean(st: Store, key: Key, default: bool): (r: bool)
    ensures key !in st ==> r == default
    ensures key in st && st[key].Flag? ==> r == st[key].on
  {
    if key in st && st[key].Flag? then st[key].on else default
  }

  // ---------------------------------------------------------------------
  // Auth token

  /** `saveAuthToken`: writes the token, its type and the logged-in flag,
      and no other key. */
  function SaveAuthToken(st: Store, token: string, tokenType: string := "Bearer"): (r: Store)
    ensures GetString(r, KeyAuthToken) == Some(token)
    ensures GetString(r, KeyTokenType) == Some(tokenType)
    ensures GetBoolean(r, KeyIsLoggedIn, false)
    ensures forall k :: k != KeyAuthToken && k != KeyTokenType && k != KeyIsLoggedIn ==>
              (k in r <==> k in st) && (k in st ==> r[k] == st[k])
  {
    st[KeyAuthToken := Str(token)][KeyTokenType := Str(tokenType)][KeyIsLoggedIn := Flag(true)]
  }

  /** `getAuthToken`: the stored token, or null. */
  function GetAuthToken(st: Store): (r: Option<string>)
    ensures r.Some? <==> KeyAuthToken in st && st[KeyAuthToken].Str?
    ensures r.Some? ==> st[KeyAuthToken] == Str(r.value)
  {
    GetString(st, KeyAuthToken)
  }

  /** `getAuthorizationHeader`: "<type> <token>" with the type defaulting
      to "Bearer", or nothing without a token. */
  function GetAuthorizationHeader(st: Store): (r: Option<string>)
    ensures r.Some? <==> GetAuthToken(st).Some?
    ensures r.Some? ==> r.value == GetString(st, KeyTokenType).OrElse("Bearer") + " " + GetAuthToken(st).value
  {
    match GetAuthToken(st)
    case Some(token) => Some(GetString(st, KeyTokenType).OrElse("Bearer") + " " + token)
    case None => None
  }

  /** `saveRefreshToken`: writes the refresh token and no other key. */
  function SaveRefreshToken(st: Store, refreshToken: string): (r: Store)
    ensures GetRefreshToken(r) == Some(refreshToken)
    ensures forall k :: k != KeyRefreshToken ==> (k in r <==> k in st) && (k in st ==> r[k] == st[k])
  {
    st[KeyRefreshToken := Str(refreshToken)]
  }

  /** `getRefreshToken`: the stored refresh token, or null. */
  function GetRefreshToken(st: Store): (r: Option<string>)
    ensures r.Some? <==> KeyRefreshToken in st && st[KeyRefreshToken].Str?
    ensures r.Some? ==> st[KeyRefreshToken] == Str(r.value)
  {
    GetString(st, KeyRefreshToken)
  }

  /** `isLoggedIn`: the flag is set and a token is stored. */
  predicate IsLoggedIn(st: Store): (r: bool)
    ensures r <==> KeyIsLoggedIn in st && st[KeyIsLoggedIn] == Flag(true) &&
                   KeyAuthToken in st && st[KeyAuthToken].Str?
  {
    GetBoolean(st, KeyIsLoggedIn, false) && GetAuthToken(st).Some?
  }

  /** After saving a token the user is logged in, the token reads back, and
      the header combines the type and the token. */
  lemma SaveAuthTokenLogsIn(st: Store, token: string, tokenType: string)
    ensures var r := SaveAuthToken(st, token, tokenType);
      IsLoggedIn(r) && GetAuthToken(r) == Some(token) &&
      GetAuthorizationHeader(r) == Some(tokenType + " " + token)
    ensures GetAuthorizationHeader(SaveAuthToken(st, token)) == Some("Bearer " + token)
  {
    assert "Bearer" + " " + token == "Bearer " + token;
  }

  // ---------------------------------------------------------------------
  // User info

  /** Writes `key` only when a value is given. */
  function PutIfPresent(st: Store, key: Key, v: Option<string>): (r: Store)
    ensures v.None? ==> r == st
    ensures v.Some? ==> r == st[key := Str(v.value)]
  {
    if v.Some? then st[key := Str(v.value)] else st
  }

  /** The value `saveLoginSession` writes under `k`, or `None` when it
      leaves `k` alone. */
  function LoginSessionValue(
    email: string, userName: string, firstName: Option<string>, lastName: Option<string>,
    phoneNumber: Option<string>, userId: Option<int>, profilePicture: Option<string>, k: Key): Option<Value>
  {
    match k
    case KeyIsLoggedIn => Some(Flag(true))
    case KeyUserEmail => Some(Str(email))
    case KeyUserName => Some(Str(userName))
    case KeyFirstName => if firstName.Some? then Some(Str(firstName.value)) else None
    case KeyLastName => if lastName.Some? then Some(Str(lastName.value)) else None
    case KeyPhoneNumber => if phoneNumber.Some? then Some(Str(phoneNumber.value)) else None
    case KeyUserId => if userId.Some? then Some(Long(userId.value)) else None
    case KeyProfilePicture => if profilePicture.Some? then Some(Str(profilePicture.value)) else None
    case _ => None
  }

  /** `saveLoginSession`: sets the logged-in flag, the email and the user
      name, and each optional field only when it is given; every other key
      keeps its value. */
  function SaveLoginSession(
    st: Store, email: string, userName: string,
    firstName: Option<string> := None, lastName: Option<string> := None,
    phoneNumber: Option<string> := None, userId: Option<int> := None,
    profilePicture: Option<string> := None): (r: Store)
    ensures GetBoolean(r, KeyIsLoggedIn, false)
  {
    var a := st[KeyIsLoggedIn := Flag(true)][KeyUserEmail := Str(email)][KeyUserName := Str(userName)];
    var b := PutIfPresent(PutIfPresent(PutIfPresent(a, KeyFirstName, firstName), KeyLastName, lastName), KeyPhoneNumber, phoneNumber);
    var c := if userId.Some? then b[KeyUserId := Long(userId.value)] else b;
    PutIfPresent(c, KeyProfilePicture, profilePicture)
  }

  /** `saveLoginSession` writes exactly what `LoginSessionValue` lists and
      keeps every other key. */
  lemma SaveLoginSessionWrites(
    st: Store, email: string, userName: string, firstName: Option<string>, lastName: Option<string>,
    phoneNumber: Option<string>, userId: Option<int>, profilePicture: Option<string>)
    ensures var r := SaveLoginSession(st, email, userName, firstName, lastName, phoneNumber, userId, profilePicture);
      forall k :: Stored(r, k) == Overlay(LoginSessionValue(email, userName, firstName, lastName, phoneNumber, userId, profilePicture, k), Stored(st, k))
  {
  }

  /** Saving the user's details sets the flag but stores no token, so the
      user counts as logged in only if a token was already there. */
  lemma SaveLoginSessionNeedsToken(st: Store, email: string, userName: string)
    ensures IsLoggedIn(SaveLoginSession(st, email, userName)) <==> GetAuthToken(st).Some?
  {
  }

  /** `updateUserProfile`: the five profile fields always, the picture only
      when present. */
  function UpdateUserProfile(st: Store, p: UserProfile): (r: Store)
    ensures GetString(r, KeyFirstName) == Some(p.firstName) && GetString(r, KeyLastName) == Some(p.lastName)
    ensures GetString(r, KeyUserName) == Some(p.userName) && GetString(r, KeyUserEmail) == Some(p.email)
    ensures GetString(r, KeyPhoneNumber) == Some(p.phoneNumber)
    ensures GetString(r, KeyProfilePicture) == (if p.profilePicture.Some? then p.profilePicture else GetString(st, KeyProfilePicture))
    ensures IsLoggedIn(r) <==> IsLoggedIn(st)
    ensures forall k :: k !in {KeyFirstName, KeyLastName, KeyUserName, KeyUserEmail, KeyPhoneNumber, KeyProfilePicture} ==>
              Stored(r, k) == Stored(st, k)
  {
    var a := st[KeyFirstName := Str(p.firstName)][KeyLastName := Str(p.lastName)][KeyUserName := Str(p.userName)]
               [KeyUserEmail := Str(p.email)][KeyPhoneNumber := Str(p.phoneNumber)];
    PutIfPresent(a, KeyProfilePicture, p.profilePicture)
  }

  /** `getUserId`: the stored id, with the sentinel -1 (and a missing id)
      reading as null. */
  function GetUserId(st: Store): (r: Option<int>)
    ensures r.Some? <==> KeyUserId in st && st[KeyUserId].Long? && st[KeyUserId].number != -1
    ensures r.Some? ==> r.value == st[KeyUserId].number
  {
    var id := if KeyUserId in st && st[KeyUserId].Long? then st[KeyUserId].number else -1;
    if id != -1 then Some(id) else None
  }

  /** `getFullName`: "first last" trimmed, with missing parts as empty;
      when that is empty, the user name, else "User". */
  function GetFullName(st: Store): (r: string)
    ensures var joined := Trim(GetString(st, KeyFirstName).OrElse("") + " " + GetString(st, KeyLastName).OrElse(""));
      (joined != [] ==> r == joined) &&
      (joined == [] ==> r == GetString(st, KeyUserName).OrElse("User"))
  {
    var joined := Trim(GetString(st, KeyFirstName).OrElse("") + " " + GetString(st, KeyLastName).OrElse(""));
    if joined != [] then joined else GetString(st, KeyUserName).OrElse("User")
  }

  /** Without any stored name the full name falls back to the user name,
      then to "User"; with a non-blank first name it is never a fallback. */
  lemma FullNameFallback(st: Store)
    ensures GetString(st, KeyFirstName).None? && GetString(st, KeyLastName).None? ==>
              GetFullName(st) == GetString(st, KeyUserName).OrElse("User")
  {
    var joined := GetString(st, KeyFirstName).OrElse("") + " " + GetString(st, KeyLastName).OrElse("");
    if GetString(st, KeyFirstName).None? && GetString(st, KeyLastName).None? {
      assert joined == " ";
      assert IsBlank(joined);
      TrimEmptyIffBlank(joined);
    }
  }

  /** A first name with a non-whitespace character gives a non-empty full
      name, so no fallback is used. */
  lemma FullNameUsesFirstName(st: Store, i: nat)
    requires GetString(st, KeyFirstName).Some?
    requires i < |GetString(st, KeyFirstName).value| && !IsWhitespace(GetString(st, KeyFirstName).value[i])
    ensures GetFullName(st) == Trim(GetString(st, KeyFirstName).value + " " + GetString(st, KeyLastName).OrElse(""))
    ensures GetFullName(st) != []
  {
    var first := GetString(st, KeyFirstName).value;
    var joined := first + " " + GetString(st, KeyLastName).OrElse("");
    assert joined[i] == first[i];
    assert !IsBlank(joined);
    TrimEmptyIffBlank(joined);
  }

  // ---------------------------------------------------------------------
  // Clearing and first launch

  /** `clearSession`: everything goes. */
  function ClearSession(st: Store): (r: Store)
    ensures r == map[]
  {
    map[]
  }

  /** `clearAuthData`: removes the four auth keys and nothing else. */
  function ClearAuthData(st: Store): (r: Store)
    ensures forall k :: k in r <==> k in st && k !in AuthKeys
    ensures forall k :: k in r ==> r[k] == st[k]
  {
    st - AuthKeys
  }

  /** `isFirstTime`: true until the flag is cleared. */
  predicate IsFirstTime(st: Store): (r: bool)
    ensures !r <==> KeyFirstTime in st && st[KeyFirstTime] == Flag(false)
  {
    GetBoolean(st, KeyFirstTime, true)
  }

  /** `setFirstTimeDone`: clears the first-launch flag and no other key. */
  function SetFirstTimeDone(st: Store): (r: Store)
    ensures !IsFirstTime(r)
    ensures forall k :: k != KeyFirstTime ==> (k in r <==> k in st) && (k in st ==> r[k] == st[k])
  {
    st[KeyFirstTime := Flag(false)]
  }

  /** After clearing the auth data nobody is logged in and neither a
      header nor a refresh token is produced. */
  lemma ClearAuthDataLogsOut(st: Store)
    ensures !IsLoggedIn(ClearAuthData(st))
    ensures GetAuthorizationHeader(ClearAuthData(st)).None?
    ensures GetRefreshToken(ClearAuthData(st)).None?
  {
  }

  /** Clearing the auth data keeps the user's details and the first-launch
      flag, so the full name and the id read as before. */
  lemma ClearAuthDataKeepsUser(st: Store)
    ensures GetFullName(ClearAuthData(st)) == GetFullName(st)
    ensures GetUserId(ClearAuthData(st)) == GetUserId(st)
    ensures IsFirstTime(ClearAuthData(st)) == IsFirstTime(st)
  {
    var r := ClearAuthData(st);
    KeepsUnlessAuth(st, KeyFirstName);
    KeepsUnlessAuth(st, KeyLastName);
    KeepsUnlessAuth(st, KeyUserName);
    KeepsUnlessAuth(st, KeyUserId);
    KeepsUnlessAuth(st, KeyFirstTime);
    SameNamesSameFullName(r, st);
  }

  lemma KeepsUnlessAuth(st: Store, k: Key)
    requires k !in AuthKeys
    ensures Stored(ClearAuthData(st), k) == Stored(st, k)
  {
  }

  /** The full name depends on the three stored names only. */
  lemma SameNamesSameFullName(a: Store, b: Store)
    requires GetString(a, KeyFirstName) == GetString(b, KeyFirstName)
    requires GetString(a, KeyLastName) == GetString(b, KeyLastName)
    requires GetString(a, KeyUserName) == GetString(b, KeyUserName)
    ensures GetFullName(a) == GetFullName(b)
  {
    var ja := GetString(a, KeyFirstName).OrElse("") + " " + GetString(a, KeyLastName).OrElse("");
    var jb := GetString(b, KeyFirstName).OrElse("") + " " + GetString(b, KeyLastName).OrElse("");
    assert ja == jb;
  }

  /** After clearing the session nobody is logged in, every stored value
      is gone, and the app is on its first launch again. */
  lemma ClearSessionResets(st: Store)
    ensures !IsLoggedIn(ClearSession(st))
    ensures IsFirstTime(ClearSession(st))
    ensures GetUserId(ClearSession(st)).None?
    ensures GetFullName(ClearSession(st)) == "User"
  {
    FullNameFallback(ClearSession(st));
  }

  lemma SetFirstTimeDoneSticks(st: Store)
    ensures !IsFirstTime(SetFirstTimeDone(st))
    ensures IsFirstTime(ClearSession(SetFirstTimeDone(st)))
  {
  }

  /** Every operation keeps each key's value of its own kind. */
  lemma SaveAuthTokenKeepsTypes(st: Store, token: string, tokenType: string)
    requires WellTyped(st)
    ensures WellTyped(SaveAuthToken(st, token, tokenType))
    ensures WellTyped(SaveRefreshToken(st, token))
    ensures WellTyped(SetFirstTimeDone(st))
  {
  }

  lemma SaveLoginSessionKeepsTypes(st: Store, email: string, userName: string, first: Option<string>,
                                   last: Option<string>, phone: Option<string>, id: Option<int>, picture: Option<string>)
    requires WellTyped(st)
    ensures WellTyped(SaveLoginSession(st, email, userName, first, last, phone, id, picture))
  {
    var r := SaveLoginSession(st, email, userName, first, last, phone, id, picture);
    SaveLoginSessionWrites(st, email, userName, first, last, phone, id, picture);
    forall k | k in r ensures Fits(k, r[k]) {
      assert Stored(r, k) == Some(r[k]);
    }
  }

  lemma UpdateUserProfileKeepsTypes(st: Store, p: UserProfile)
    requires WellTyped(st)
    ensures WellTyped(UpdateUserProfile(st, p))
  {
  }

  lemma ClearingKeepsTypes(st: Store)
    requires WellTyped(st)
    ensures WellTyped(ClearSession(st))
    ensures WellTyped(ClearAuthData(st))
  {
  }
}

=== FILE: text.dfy ===
/** The string operations the client leans on: Kotlin's `trim`/`isBlank`,
    case conversion, case-insensitive equality and `contains`, and the
    "first rule whose keyword occurs in the message wins" routing that the
    screens use to turn server messages into user-facing reactions.
    Case conversion and folding are ASCII-only. */
module Text {

  import opened Outcomes

  // ---------------------------------------------------------------------
  // Whitespace, trimming, blankness

  /** Kotlin's `Char.isWhitespace()` on the JVM: Java whitespace (tab, line
      feed, vertical tab, form feed, carriage return, the four information
      separators, space) together with the Unicode space, line and
      paragraph separators. */
  predicate IsWhitespace(c: char)
  {
    || ('\U{9}' <= c <= '\U{D}')
    || ('\U{1C}' <= c <= '\U{20}')
    || c == '\U{A0}' || c == '\U{1680}'
    || ('\U{2000}' <= c <= '\U{200A}')
    || c == '\U{2028}' || c == '\U{2029}' || c == '\U{202F}' || c == '\U{205F}' || c == '\U{3000}'
  }

  /** Kotlin's `isBlank()`: empty or whitespace only. */
  predicate IsBlank(s: string)
  {
    forall i :: 0 <= i < |s| ==> IsWhitespace(s[i])
  }

  /** Every character of `s` from `lo` up to `hi` is whitespace. */
  predicate AllWhitespace(s: string, lo: int, hi: int)
    requires 0 <= lo && hi <= |s|
  {
    forall k :: lo <= k < hi ==> IsWhitespace(s[k])
  }

  /** Neither end of `s` is whitespace. */
  predicate IsTrimmed(s: string)
  {
    |s| == 0 || (!IsWhitespace(s[0]) && !IsWhitespace(s[|s| - 1]))
  }

  /** The first position from `i` on that is not whitespace (or `|s|`). */
  function LeadingEnd(s: string, i: nat): (n: nat)
    requires i <= |s|
    ensures i <= n <= |s| && AllWhitespace(s, i, n)
    ensures n < |s| ==> !IsWhitespace(s[n])
    decreases |s| - i
  {
    if i < |s| && IsWhitespace(s[i]) then LeadingEnd(s, i + 1) else i
  }

  /** The end of the last character before `j`, and not before `lo`, that
      is not whitespace (or `lo`). */
  function TrailingStart(s: string, lo: nat, j: nat): (m: nat)
    requires lo <= j <= |s|
    ensures lo <= m <= j && AllWhitespace(s, m, j)
    ensures m > lo ==> !IsWhitespace(s[m - 1])
    decreases j - lo
  {
    if j > lo && IsWhitespace(s[j - 1]) then TrailingStart(s, lo, j - 1) else j
  }

  /** `r` sits in `s` at offset `i` with only whitespace around it. */
  predicate SurroundedByWhitespace(s: string, r: string, i: nat)
  {
    && i + |r| <= |s|
    && s[i..i + |r|] == r
    && AllWhitespace(s, 0, i)
    && AllWhitespace(s, i + |r|, |s|)
  }

  /** Kotlin's `trim()`: drops leading and trailing whitespace. The result
      is a contiguous piece of the input with no whitespace at either end,
      and everything dropped was whitespace. */
  function Trim(s: string): (r: string)
    ensures IsTrimmed(r)
    ensures exists i: nat :: SurroundedByWhitespace(s, r, i)
  {
    var i := LeadingEnd(s, 0);
    var j := TrailingStart(s, i, |s|);
    assert SurroundedByWhitespace(s, s[i..j], i);
    s[i..j]
  }

  /** Trimming is the identity exactly on strings with no whitespace at
      either end. */
  lemma TrimFixesTrimmed(s: string)
    ensures Trim(s) == s <==> IsTrimmed(s)
  {
    if IsTrimmed(s) && s != [] {
      assert LeadingEnd(s, 0) == 0;
      assert TrailingStart(s, 0, |s|) == |s|;
      assert s[0..|s|] == s;
    }
  }

  /** Trimming twice is trimming once. */
  lemma TrimIdempotent(s: string)
    ensures Trim(Trim(s)) == Trim(s)
  {
    TrimFixesTrimmed(Trim(s));
  }

  /** A string trims to nothing exactly when it is blank. */
  lemma TrimEmptyIffBlank(s: string)
    ensures Trim(s) == [] <==> IsBlank(s)
  {
    var r := Trim(s);
    var i: nat :| SurroundedByWhitespace(s, r, i);
    if !IsBlank(s) {
      var k :| 0 <= k < |s| && !IsWhitespace(s[k]);
      if r == [] {
        assert k < i || i <= k;
      }
    }
  }

  // ---------------------------------------------------------------------
  // ASCII case conversion and case-insensitive comparison

  function LowerChar(c: char): char
  {
    if 'A' <= c <= 'Z' then (c as int + 32) as char else c
  }

  function UpperChar(c: char): char
  {
    if 'a' <= c <= 'z' then (c as int - 32) as char else c
  }

  /** Kotlin's `lowercase()`, restricted to ASCII letters. */
  function Lower(s: string): (r: string)
    ensures |r| == |s|
    ensures forall i :: 0 <= i < |s| ==> r[i] == LowerChar(s[i])
  {
    seq(|s|, i requires 0 <= i < |s| => LowerChar(s[i]))
  }

  /** Lower-casing a concatenation lower-cases each part. */
  lemma LowerAppend(a: string, b: string)
    ensures Lower(a + b) == Lower(a) + Lower(b)
  {
  }

  /** Kotlin's `uppercase()`, restricted to ASCII letters. */
  function Upper(s: string): (r: string)
    ensures |r| == |s|
    ensures forall i :: 0 <= i < |s| ==> r[i] == UpperChar(s[i])
  {
    seq(|s|, i requires 0 <= i < |s| => UpperChar(s[i]))
  }

  /** Kotlin's `a.equals(b, ignoreCase = true)`: same length, and the
      characters agree position by position up to letter case. */
  predicate EqualsIgnoreCase(a: string, b: string)
    ensures EqualsIgnoreCase(a, b) <==>
              |a| == |b| && forall i :: 0 <= i < |a| ==> LowerChar(a[i]) == LowerChar(b[i])
  {
    |a| == |b| && MatchFrom(a, b, 0, 0)
  }

  /** A character of a Kotlin enum constant name as this client spells
      them: an upper-case ASCII letter or an underscore. */
  predicate IsConstantChar(ch: char)
  {
    'A' <= ch <= 'Z' || ch == '_'
  }

  predicate ConstantCharsFrom(s: string, i: nat)
    decreases |s| - i
    ensures ConstantCharsFrom(s, i) <==> forall k :: i <= k < |s| ==> IsConstantChar(s[k])
  {
    i >= |s| || (IsConstantChar(s[i]) && ConstantCharsFrom(s, i + 1))
  }

  /** `s` is spelled like an enum constant name. */
  predicate IsConstantName(s: string)
  {
    ConstantCharsFrom(s, 0)
  }

  /** For a constant name, "equal to the upper-cased string" and "equal
      ignoring case" are the same test. */
  lemma UpperMatchesConstantName(n: string, v: string)
    requires IsConstantName(n)
    ensures n == Upper(v) <==> EqualsIgnoreCase(n, v)
  {
    if EqualsIgnoreCase(n, v) {
      forall k | 0 <= k < |n| ensures n[k] == Upper(v)[k] {
        assert LowerChar(n[k]) == LowerChar(v[k]);
      }
    }
    if n == Upper(v) {
      forall k | 0 <= k < |n| ensures LowerChar(n[k]) == LowerChar(v[k]) {
        assert n[k] == UpperChar(v[k]);
      }
    }
  }

  /** The occurrence of `sub` in `s` at offset `i`, up to letter case. */
  predicate RegionMatches(s: string, sub: string, i: nat)
    requires i + |sub| <= |s|
  {
    forall k :: 0 <= k < |sub| ==> LowerChar(s[i + k]) == LowerChar(sub[k])
  }

  /** Scans the characters of `sub` from position `j` against `s` at
      offset `i`. */
  predicate MatchFrom(s: string, sub: string, i: nat, j: nat)
    requires i + |sub| <= |s| && j <= |sub|
    decreases |sub| - j
    ensures MatchFrom(s, sub, i, j) <==>
              forall k :: j <= k < |sub| ==> LowerChar(s[i + k]) == LowerChar(sub[k])
  {
    j == |sub| || (LowerChar(s[i + j]) == LowerChar(sub[j]) && MatchFrom(s, sub, i, j + 1))
  }

  /** Scans the offsets of `s` from `i` on for an occurrence of `sub`. */
  predicate ContainsFrom(s: string, sub: string, i: nat)
    decreases |s| - i
    ensures ContainsFrom(s, sub, i) <==>
              exists p :: i <= p && p + |sub| <= |s| && RegionMatches(s, sub, p)
  {
    if i + |sub| > |s| then false
    else if MatchFrom(s, sub, i, 0) then
      assert RegionMatches(s, sub, i);
      true
    else
      assert !RegionMatches(s, sub, i);
      ContainsFrom(s, sub, i + 1)
  }

  /** Kotlin's `s.contains(sub, ignoreCase = true)`. */
  predicate ContainsIgnoreCase(s: string, sub: string)
  {
    ContainsFrom(s, sub, 0)
  }

  /** Every string contains itself, in any letter case. */
  lemma ContainsItself(s: string, t: string)
    requires EqualsIgnoreCase(s, t)
    ensures ContainsIgnoreCase(s, t)
  {
    assert RegionMatches(s, t, 0);
  }

  /** A message that starts with `sub` (up to case) contains it. */
  lemma ContainsPrefix(s: string, sub: string)
    requires |sub| <= |s| && EqualsIgnoreCase(s[..|sub|], sub)
    ensures ContainsIgnoreCase(s, sub)
  {
    assert RegionMatches(s, sub, 0);
  }

  /** Nothing contains a longer string. */
  lemma LongerNotContained(s: string, sub: string)
    requires |s| < |sub|
    ensures !ContainsIgnoreCase(s, sub)
  {
  }

  /** `c` occurs nowhere in `s`, in either case. */
  predicate LacksChar(s: string, c: char)
  {
    forall i | 0 <= i < |s| :: LowerChar(s[i]) != LowerChar(c)
  }

  /** `a` is never directly followed by `b` in `s`, in either case. */
  predicate LacksPair(s: string, a: char, b: char)
  {
    forall i | 0 <= i < |s| - 1 :: LowerChar(s[i]) != LowerChar(a) || LowerChar(s[i + 1]) != LowerChar(b)
  }

  /** A message in which one character of `sub` never occurs (any case)
      does not contain `sub`. */
  lemma CharAbsent(s: string, sub: string, j: nat)
    requires j < |sub| && LacksChar(s, sub[j])
    ensures !ContainsIgnoreCase(s, sub)
  {
    forall p | 0 <= p && p + |sub| <= |s| ensures !RegionMatches(s, sub, p) {
      assert LowerChar(s[p + j]) != LowerChar(sub[j]);
    }
  }

  /** A message in which two adjacent characters of `sub` never occur side
      by side (any case) does not contain `sub`. */
  lemma PairAbsent(s: string, sub: string, j: nat)
    requires j + 1 < |sub| && LacksPair(s, sub[j], sub[j + 1])
    ensures !ContainsIgnoreCase(s, sub)
  {
    forall p | 0 <= p && p + |sub| <= |s| ensures !RegionMatches(s, sub, p) {
      assert LowerChar(s[p + j]) != LowerChar(sub[j]) || LowerChar(s[p + j + 1]) != LowerChar(sub[j + 1]);
    }
  }

  /** Case-insensitive containment ignores the letter case of the message. */
  lemma ContainsIgnoresCase(s: string, t: string, sub: string)
    requires EqualsIgnoreCase(s, t)
    ensures ContainsIgnoreCase(s, sub) <==> ContainsIgnoreCase(t, sub)
  {
    if ContainsIgnoreCase(s, sub) {
      var p :| 0 <= p && p + |sub| <= |s| && RegionMatches(s, sub, p);
      assert RegionMatches(t, sub, p);
    }
    if ContainsIgnoreCase(t, sub) {
      var p :| 0 <= p && p + |sub| <= |t| && RegionMatches(t, sub, p);
      assert RegionMatches(s, sub, p);
    }
  }

  // ---------------------------------------------------------------------
  // Space handling used when deriving names

  /** Kotlin's `replace(" ", "")`: every space character removed. */
  function RemoveSpaces(s: string): (r: string)
    ensures |r| <= |s|
    ensures forall i :: 0 <= i < |r| ==> r[i] != ' '
  {
    if s == [] then []
    else if s[0] == ' ' then RemoveSpaces(s[1..])
    else [s[0]] + RemoveSpaces(s[1..])
  }

  /** Removing spaces distributes over concatenation, so it keeps every
      other character in its original order. */
  lemma {:induction false} RemoveSpacesAppend(a: string, b: string)
    ensures RemoveSpaces(a + b) == RemoveSpaces(a) + RemoveSpaces(b)
  {
    if a == [] {
      assert a + b == b;
    } else {
      assert (a + b)[0] == a[0];
      assert (a + b)[1..] == a[1..] + b;
      RemoveSpacesAppend(a[1..], b);
    }
  }

  /** A string without spaces is left as it is. */
  lemma {:induction false} RemoveSpacesNoSpace(s: string)
    requires ' ' !in s
    ensures RemoveSpaces(s) == s
  {
    if s != [] {
      assert ' ' !in s[1..];
      RemoveSpacesNoSpace(s[1..]);
    }
  }

  /** Position of the first occurrence of `c` in `s`. */
  function IndexOf(s: string, c: char): (r: Option<nat>)
    ensures r.None? <==> c !in s
    ensures r.Some? ==> r.value < |s| && s[r.value] == c && c !in s[..r.value]
  {
    if s == [] then None
    else if s[0] == c then Some(0)
    else
      var rest := IndexOf(s[1..], c);
      if rest.None? then None
      else
        assert s[..rest.value + 1] == [s[0]] + s[1..][..rest.value];
        Some(rest.value + 1)
  }

  // ---------------------------------------------------------------------
  // Decimal digits

  /** An ASCII decimal digit. */
  predicate IsDigit(c: char)
  {
    '0' <= c <= '9'
  }

  function DigitChar(d: nat): (c: char)
    requires d < 10
    ensures IsDigit(c)
  {
    ('0' as int + d) as char
  }

  /** Every character is a decimal digit. */
  predicate IsNumeral(s: string)
  {
    forall i :: 0 <= i < |s| ==> IsDigit(s[i])
  }

  /** The number a run of digits denotes. */
  function DigitsValue(s: string): nat
    requires IsNumeral(s)
  {
    if s == [] then 0
    else DigitsValue(s[..|s| - 1]) * 10 + (s[|s| - 1] as int - '0' as int)
  }

  /** `toString()` of a non-negative integer: its decimal digits, without
      leading zeros. */
  function Decimal(n: nat): (r: string)
    ensures |r| >= 1 && IsNumeral(r)
    ensures |r| > 1 ==> r[0] != '0'
  {
    if n < 10 then [DigitChar(n)] else Decimal(n / 10) + [DigitChar(n % 10)]
  }

  /** Reading the digits back gives the number. */
  lemma {:induction false} DecimalValue(n: nat)
    ensures DigitsValue(Decimal(n)) == n
  {
    if n >= 10 {
      var r := Decimal(n);
      assert r[..|r| - 1] == Decimal(n / 10);
      DecimalValue(n / 10);
    }
  }

  /** `s` is how `toString()` writes the integer `n`: a minus sign exactly
      when `n` is negative, then the digits of its magnitude. */
  predicate Writes(s: string, n: int)
  {
    && |s| >= 1
    && (s[0] == '-' <==> n < 0)
    && var digits := if n < 0 then s[1..] else s;
       |digits| >= 1 && IsNumeral(digits) && DigitsValue(digits) == (if n < 0 then -n else n)
  }

  /** `toString()` of any integer. */
  function SignedDecimal(n: int): (r: string)
    ensures Writes(r, n)
    ensures n >= 0 ==> r == Decimal(n)
  {
    if n >= 0 then
      DecimalValue(n);
      Decimal(n)
    else
      DecimalValue(-n);
      var d := Decimal(-n);
      assert ("-" + d)[1..] == d;
      "-" + d
  }

  /** Kotlin's 32-bit `Int`: the value congruent to `n` modulo 2^32 in
      [-2^31, 2^31). */
  function Int32(n: int): (r: int)
    ensures -0x8000_0000 <= r < 0x8000_0000
    ensures (n - r) % 0x1_0000_0000 == 0
    ensures -0x8000_0000 <= n < 0x8000_0000 ==> r == n
  {
    var m := n % 0x1_0000_0000;
    if m >= 0x8000_0000 then m - 0x1_0000_0000 else m
  }

  // ---------------------------------------------------------------------
  // First-match routing over case-insensitive keywords

  /** One routing rule: if the message contains any of the keywords (any
      case), the rule fires with its outcome. */
  datatype Rule<T> = Rule(keywords: seq<string>, outcome: T)

  predicate AnyContained(msg: string, keywords: seq<string>)
  {
    exists k :: 0 <= k < |keywords| && ContainsIgnoreCase(msg, keywords[k])
  }

  /** Does `rule` fire on `msg`? */
  predicate Fires<T>(msg: string, rule: Rule<T>)
  {
    AnyContained(msg, rule.keywords)
  }

  /** Kotlin's `when { msg.contains(..) -> ..; ... }`: the outcome of the
      first rule that fires, or nothing if none does. */
  function Route<T>(rules: seq<Rule<T>>, msg: string): (r: Option<T>)
    ensures r.None? <==> forall k :: 0 <= k < |rules| ==> !Fires(msg, rules[k])
    ensures r.Some? ==> exists k :: 0 <= k < |rules| && Fires(msg, rules[k]) && r.value == rules[k].outcome
  {
    if rules == [] then None
    else if Fires(msg, rules[0]) then Some(rules[0].outcome)
    else
      var r := Route(rules[1..], msg);
      assert forall k :: 1 <= k < |rules| ==> rules[k] == rules[1..][k - 1];
      r
  }

  /** The first rule that fires decides the outcome: a rule that fires
      wins exactly when no earlier rule fires. */
  lemma {:induction false} RouteFirstMatch<T>(rules: seq<Rule<T>>, msg: string, k: nat)
    requires k < |rules| && Fires(msg, rules[k])
    requires forall j :: 0 <= j < k ==> !Fires(msg, rules[j])
    ensures Route(rules, msg) == Some(rules[k].outcome)
  {
    if k > 0 {
      assert !Fires(msg, rules[0]);
      assert forall j :: 0 <= j < k - 1 ==> rules[1..][j] == rules[j + 1];
      RouteFirstMatch(rules[1..], msg, k - 1);
    }
  }

  /** Every rule that fires with no earlier rule firing decides the
      outcome. */
  lemma FirstMatchDecides<T>(rules: seq<Rule<T>>, msg: string)
    ensures forall k :: 0 <= k < |rules| && Fires(msg, rules[k]) &&
                        (forall j :: 0 <= j < k ==> !Fires(msg, rules[j])) ==>
                        Route(rules, msg) == Some(rules[k].outcome)
  {
    forall k | 0 <= k < |rules| && Fires(msg, rules[k]) && (forall j :: 0 <= j < k ==> !Fires(msg, rules[j]))
      ensures Route(rules, msg) == Some(rules[k].outcome)
    {
      RouteFirstMatch(rules, msg, k);
    }
  }

  /** Rule `k` decides the outcome when its `i`-th keyword occurs in the
      message and no keyword of an earlier rule does. */
  lemma RouteByKeyword<T>(rules: seq<Rule<T>>, msg: string, k: nat, i: nat)
    requires k < |rules| && i < |rules[k].keywords|
    requires ContainsIgnoreCase(msg, rules[k].keywords[i])
    requires forall j, n :: 0 <= j < k && 0 <= n < |rules[j].keywords| ==> !ContainsIgnoreCase(msg, rules[j].keywords[n])
    ensures Route(rules, msg) == Some(rules[k].outcome)
  {
    RouteFirstMatch(rules, msg, k);
  }

  /** For rules with one keyword each: rule `k` decides the outcome when
      its keyword occurs in the message and no earlier rule's keyword does. */
  lemma RouteSingles<T>(rules: seq<Rule<T>>, msg: string, k: nat)
    requires k < |rules|
    requires forall j :: 0 <= j <= k ==> |rules[j].keywords| == 1
    requires forall j :: 0 <= j < k ==> !ContainsIgnoreCase(msg, rules[j].keywords[0])
    requires ContainsIgnoreCase(msg, rules[k].keywords[0])
    ensures Route(rules, msg) == Some(rules[k].outcome)
  {
    forall j | 0 <= j < k
      ensures !Fires(msg, rules[j])
    {
      assert rules[j].keywords == [rules[j].keywords[0]];
    }
    RouteFirstMatch(rules, msg, k);
  }
}

=== FILE: ticket_selection.dfy ===
/** The per-ticket counter of the event detail screen: one selection per
    ticket type, plus/minus clicks bounded by availability and by a cap of
    ten tickets overall, and the orders built from the selections. */
module TicketSelection {

  import opened Domain

  /** At most this many tickets may be selected across all ticket types. */
  const MaxTotalTickets: int := 10

  /** A ticket type with how many of it the user has picked. */
  datatype Selection = Selection(ticket: Ticket, selectedQuantity: int)

  /** `submitList`: a fresh selection of zero for every ticket, in order. */
  function SubmitList(tickets: seq<Ticket>): (r: seq<Selection>)
    ensures |r| == |tickets|
    ensures forall i :: 0 <= i < |r| ==> r[i] == Selection(tickets[i], 0)
  {
    if tickets == [] then [] else [Selection(tickets[0], 0)] + SubmitList(tickets[1..])
  }

  /** `getTotalSelectedTickets`: the sum of the selected quantities. */
  function Total(s: seq<Selection>): int
  {
    if s == [] then 0 else s[0].selectedQuantity + Total(s[1..])
  }

  /** `getSelectedTickets`: the selections with a positive quantity, in
      order, as `(ticketId, quantity)` orders. */
  function SelectedTickets(s: seq<Selection>): (r: seq<TicketOrder>)
    ensures |r| <= |s|
    ensures forall k :: 0 <= k < |r| ==> r[k].quantity > 0
  {
    if s == [] then []
    else if s[0].selectedQuantity > 0 then
      [TicketOrder(s[0].ticket.ticketId, s[0].selectedQuantity)] + SelectedTickets(s[1..])
    else SelectedTickets(s[1..])
  }

  /** The sum of the quantities of a list of orders. */
  function OrderedQuantity(orders: seq<TicketOrder>): int
  {
    if orders == [] then 0 else orders[0].quantity + OrderedQuantity(orders[1..])
  }

  /** The plus button's `isEnabled` for row `i`. */
  predicate PlusEnabled(s: seq<Selection>, i: nat)
    requires i < |s|
  {
    Total(s) < MaxTotalTickets && s[i].selectedQuantity < s[i].ticket.quantity
  }

  /** The minus button's `isEnabled` for row `i`. */
  predicate MinusEnabled(s: seq<Selection>, i: nat)
    requires i < |s|
  {
    s[i].selectedQuantity > 0
  }

  /** A click on row `i`'s plus button: ignored when ten tickets are already
      selected, or when this row has reached the ticket's availability;
      otherwise this row goes up by one. */
  function Plus(s: seq<Selection>, i: nat): (r: seq<Selection>)
    requires i < |s|
    ensures |r| == |s|
    ensures Total(s) >= MaxTotalTickets ==> r == s
    ensures s[i].selectedQuantity >= s[i].ticket.quantity ==> r == s
    ensures forall j :: 0 <= j < |s| && j != i ==> r[j] == s[j]
    ensures r[i].ticket == s[i].ticket
  {
    if Total(s) >= MaxTotalTickets then s
    else if s[i].selectedQuantity >= s[i].ticket.quantity then s
    else s[i := s[i].(selectedQuantity := s[i].selectedQuantity + 1)]
  }

  /** A click on row `i`'s minus button: one less when above zero. */
  function Minus(s: seq<Selection>, i: nat): (r: seq<Selection>)
    requires i < |s|
    ensures |r| == |s|
    ensures s[i].selectedQuantity <= 0 ==> r == s
    ensures forall j :: 0 <= j < |s| && j != i ==> r[j] == s[j]
    ensures r[i].ticket == s[i].ticket
  {
    if s[i].selectedQuantity > 0
    then s[i := s[i].(selectedQuantity := s[i].selectedQuantity - 1)]
    else s
  }

  /** The state every reachable selection list is in: every quantity lies
      between zero and the ticket's availability (or is zero when nothing
      is available), and the overall total is at most ten. */
  predicate Valid(s: seq<Selection>)
  {
    (forall i :: 0 <= i < |s| ==>
       0 <= s[i].selectedQuantity &&
       (s[i].selectedQuantity == 0 || s[i].selectedQuantity <= s[i].ticket.quantity))
    && Total(s) <= MaxTotalTickets
  }

  /** Changing one selection's quantity changes the total by the same
      amount. */
  lemma {:induction false} TotalUpdate(s: seq<Selection>, i: nat, q: int)
    requires i < |s|
    ensures Total(s[i := s[i].(selectedQuantity := q)]) == Total(s) - s[i].selectedQuantity + q
    decreases i
  {
    var t := s[i := s[i].(selectedQuantity := q)];
    if i > 0 {
      assert t[1..] == s[1..][i - 1 := s[i].(selectedQuantity := q)];
      TotalUpdate(s[1..], i - 1, q);
    } else {
      assert t[1..] == s[1..];
    }
  }

  /** A plus click adds one to the total exactly when the button is
      enabled, and changes nothing otherwise. */
  lemma PlusEffect(s: seq<Selection>, i: nat)
    requires i < |s|
    ensures PlusEnabled(s, i) ==> Plus(s, i)[i].selectedQuantity == s[i].selectedQuantity + 1
    ensures PlusEnabled(s, i) ==> Total(Plus(s, i)) == Total(s) + 1
    ensures Plus(s, i) != s <==> PlusEnabled(s, i)
  {
    if PlusEnabled(s, i) {
      TotalUpdate(s, i, s[i].selectedQuantity + 1);
      assert Plus(s, i)[i] != s[i];
    }
  }

  /** A minus click takes one off the total exactly when the button is
      enabled, and changes nothing otherwise. */
  lemma MinusEffect(s: seq<Selection>, i: nat)
    requires i < |s|
    ensures MinusEnabled(s, i) ==> Minus(s, i)[i].selectedQuantity == s[i].selectedQuantity - 1
    ensures MinusEnabled(s, i) ==> Total(Minus(s, i)) == Total(s) - 1
    ensures Minus(s, i) != s <==> MinusEnabled(s, i)
  {
    if MinusEnabled(s, i) {
      TotalUpdate(s, i, s[i].selectedQuantity - 1);
      assert Minus(s, i)[i] != s[i];
    }
  }

  /** A fresh list is in the invariant. */
  lemma {:induction false} SubmitListValid(tickets: seq<Ticket>)
    ensures Valid(SubmitList(tickets))
    ensures Total(SubmitList(tickets)) == 0
  {
    if tickets != [] {
      SubmitListValid(tickets[1..]);
      assert SubmitList(tickets)[1..] == SubmitList(tickets[1..]);
    }
  }

  lemma PlusValid(s: seq<Selection>, i: nat)
    requires i < |s| && Valid(s)
    ensures Valid(Plus(s, i))
  {
    PlusEffect(s, i);
  }

  lemma MinusValid(s: seq<Selection>, i: nat)
    requires i < |s| && Valid(s)
    ensures Valid(Minus(s, i))
  {
    MinusEffect(s, i);
  }

  /** A button press on a row of the list. */
  datatype Click = PlusAt(row: nat) | MinusAt(row: nat)

  /** One click; a click on a row the list does not have is ignored. */
  function Apply(s: seq<Selection>, c: Click): (r: seq<Selection>)
    ensures |r| == |s|
  {
    if c.row >= |s| then s
    else match c
      case PlusAt(i) => Plus(s, i)
      case MinusAt(i) => Minus(s, i)
  }

  /** The clicks, applied in order. */
  function Run(s: seq<Selection>, clicks: seq<Click>): (r: seq<Selection>)
    ensures |r| == |s|
    decreases |clicks|
  {
    if clicks == [] then s else Run(Apply(s, clicks[0]), clicks[1..])
  }

  /** Every sequence of clicks keeps the invariant. */
  lemma {:induction false} RunValid(s: seq<Selection>, clicks: seq<Click>)
    requires Valid(s)
    ensures Valid(Run(s, clicks))
    decreases |clicks|
  {
    if clicks != [] {
      var c := clicks[0];
      if c.row < |s| {
        match c
        case PlusAt(i) => PlusValid(s, i);
        case MinusAt(i) => MinusValid(s, i);
      }
      RunValid(Apply(s, c), clicks[1..]);
    }
  }

  /** Starting from the ticket list with any clicks, each quantity stays
      within zero and the availability, and at most ten are selected. */
  lemma SelectionBounds(tickets: seq<Ticket>, clicks: seq<Click>)
    requires forall k :: 0 <= k < |tickets| ==> tickets[k].quantity >= 0
    ensures var s := Run(SubmitList(tickets), clicks);
      |s| == |tickets| &&
      (forall i :: 0 <= i < |s| ==>
         s[i].ticket == tickets[i] && 0 <= s[i].selectedQuantity <= tickets[i].quantity) &&
      Total(s) <= MaxTotalTickets
  {
    SubmitListValid(tickets);
    RunValid(SubmitList(tickets), clicks);
    RunKeepsTickets(SubmitList(tickets), clicks);
  }

  /** Clicks never change which ticket a row shows. */
  lemma {:induction false} RunKeepsTickets(s: seq<Selection>, clicks: seq<Click>)
    ensures forall i :: 0 <= i < |s| ==> Run(s, clicks)[i].ticket == s[i].ticket
    decreases |clicks|
  {
    if clicks != [] {
      RunKeepsTickets(Apply(s, clicks[0]), clicks[1..]);
    }
  }

  /** The orders split over concatenation. */
  lemma {:induction false} SelectedTicketsAppend(a: seq<Selection>, b: seq<Selection>)
    ensures SelectedTickets(a + b) == SelectedTickets(a) + SelectedTickets(b)
  {
    if a == [] {
      assert a + b == b;
    } else {
      assert (a + b)[0] == a[0];
      assert (a + b)[1..] == a[1..] + b;
      SelectedTicketsAppend(a[1..], b);
    }
  }

  /** An order is produced exactly for each selection with a positive
      quantity, carrying its ticket's id and its quantity. */
  lemma {:induction false} SelectedTicketsMembers(s: seq<Selection>, o: TicketOrder)
    ensures o in SelectedTickets(s) <==>
      exists i :: 0 <= i < |s| && s[i].selectedQuantity > 0 &&
                  o == TicketOrder(s[i].ticket.ticketId, s[i].selectedQuantity)
  {
    if s != [] {
      SelectedTicketsMembers(s[1..], o);
      if o in SelectedTickets(s[1..]) {
        var i :| 0 <= i < |s[1..]| && s[1..][i].selectedQuantity > 0 &&
                 o == TicketOrder(s[1..][i].ticket.ticketId, s[1..][i].selectedQuantity);
        assert s[i + 1] == s[1..][i];
      }
      if exists i :: 0 <= i < |s| && s[i].selectedQuantity > 0 &&
                     o == TicketOrder(s[i].ticket.ticketId, s[i].selectedQuantity) {
        var i :| 0 <= i < |s| && s[i].selectedQuantity > 0 &&
                 o == TicketOrder(s[i].ticket.ticketId, s[i].selectedQuantity);
        if i > 0 {
          assert s[1..][i - 1] == s[i];
        }
      }
    }
  }

  /** When no quantity is negative, the ordered quantities add up to the
      selected total. */
  lemma {:induction false} SelectedTicketsTotal(s: seq<Selection>)
    requires forall i :: 0 <= i < |s| ==> s[i].selectedQuantity >= 0
    ensures OrderedQuantity(SelectedTickets(s)) == Total(s)
  {
    if s != [] {
      SelectedTicketsTotal(s[1..]);
    }
  }

  /** There is an order iff some quantity is positive. */
  lemma {:induction false} SelectedTicketsEmpty(s: seq<Selection>)
    ensures SelectedTickets(s) == [] <==> forall i :: 0 <= i < |s| ==> s[i].selectedQuantity <= 0
  {
    if s != [] {
      SelectedTicketsEmpty(s[1..]);
      assert forall i :: 1 <= i < |s| ==> s[i] == s[1..][i - 1];
    }
  }
}

=== FILE: user_repository.dfy ===
/** How the profile calls' outcomes become `Resource`s. */
module UserRepository {

  import opened Outcomes
  import opened Domain

  const Unauthorized: string := "Unauthorized. Please login again."

  /** `getMyProfile`. */
  function GetMyProfile(f: Fetch<UserProfile>): (r: Resource<UserProfile>)
    ensures f.HttpFailure? ==> r == Error(Some(
      if f.code == 401 then Unauthorized
      else if f.code == 404 then "User not found"
      else "Failed to load profile"))
    ensures f.IOFailure? ==> r == Error(Some("Connection failed. Please check your internet."))
    ensures f.Thrown? ==> r == Error(Some(f.message.OrElse("Unknown error occurred")))
  {
    match f
    case Body(e) => Unwrap(e)
    case HttpFailure(code, _) =>
      if code == 401 then Error(Some(Unauthorized))
      else if code == 404 then Error(Some("User not found"))
      else Error(Some("Failed to load profile"))
    case IOFailure => Error(Some("Connection failed. Please check your internet."))
    case Thrown(m) => Error(Some(m.OrElse("Unknown error occurred")))
  }

  /** `updateProfile` (full replacement). */
  function UpdateProfile(f: Fetch<UserProfile>): (r: Resource<UserProfile>)
    ensures f.HttpFailure? ==> r == Error(Some(
      if f.code == 400 then "Invalid data. Please check your input."
      else if f.code == 401 then Unauthorized
      else "Failed to update profile"))
    ensures f.IOFailure? ==> r == Error(Some("Connection failed."))
    ensures f.Thrown? ==> r == Error(Some(f.message.OrElse("Unknown error")))
  {
    match f
    case Body(e) => Unwrap(e)
    case HttpFailure(code, _) =>
      if code == 400 then Error(Some("Invalid data. Please check your input."))
      else if code == 401 then Error(Some(Unauthorized))
      else Error(Some("Failed to update profile"))
    case IOFailure => Error(Some("Connection failed."))
    case Thrown(m) => Error(Some(m.OrElse("Unknown error")))
  }

  /** `patchProfile` (partial update): every HTTP error reads the same. */
  function PatchProfile(f: Fetch<UserProfile>): (r: Resource<UserProfile>)
    ensures f.HttpFailure? ==> r == Error(Some("Failed to update profile"))
    ensures f.IOFailure? ==> r == Error(Some("Connection failed."))
    ensures f.Thrown? ==> r == Error(Some(f.message.OrElse("Unknown error")))
  {
    match f
    case Body(e) => Unwrap(e)
    case HttpFailure(_, _) => Error(Some("Failed to update profile"))
    case IOFailure => Error(Some("Connection failed."))
    case Thrown(m) => Error(Some(m.OrElse("Unknown error")))
  }

  /** The three operations agree on every 2xx envelope: success with its
      data exactly when it says success and carries data, else its own
      message. */
  lemma SameEnvelopeHandling(e: Envelope<UserProfile>)
    ensures GetMyProfile(Body(e)) == UpdateProfile(Body(e)) == PatchProfile(Body(e))
    ensures GetMyProfile(Body(e)).Success? <==> Carries(e)
    ensures !Carries(e) ==> GetMyProfile(Body(e)) == Error(e.message)
  {
  }

  /** Only a 401 reads as unauthorized, and only for load and update. */
  lemma UnauthorizedOnlyFor401(f: Fetch<UserProfile>)
    requires f.HttpFailure?
    ensures GetMyProfile(f) == Error(Some(Unauthorized)) <==> f.code == 401
    ensures UpdateProfile(f) == Error(Some(Unauthorized)) <==> f.code == 401
    ensures PatchProfile(f) != Error(Some(Unauthorized))
  {
  }
}
